=== FILE: README.md ===
# Dairy-Fram backend: validation and authorisation, in Dafny

Dairy-Fram is a small Express/Mongoose service. It manages businesses, their
teams and projects, the memberships that bind users to each of these, roles
and permissions, project milestones, and a chat with file attachments. A
React front end includes a six-slot OTP page.

This project models the part of the service that decides anything:
- the checks every controller handler runs before it writes;
- the single record it then writes;
- the auth middleware and the admin route;
- the chat upload pipeline;
- the password-reset OTP flow, with its input page.

The database is one immutable `Store` record (module `Db`). It holds a map
from ids to documents per collection, the set of file paths on disk, and the
in-memory OTP map. Each handler is a pure function from a store and a request
to a status and a new store. A status is Ok (200), Created (201), or a failure
with its HTTP code and a tag naming the check that failed.

External services become parameters:
- `ObjectId.isValid` is an uninterpreted predicate `isValid`.
- Fresh document ids are passed in by the caller.
- Password hashes are passed in, and `bcrypt.compare` is a function parameter.
- JWT verification is a function from token text to an optional caller.
- Mail success is a flag.
- `Math.random()` is a bounded natural number.
- `Date.now()` is a natural number.

The model follows the code as written, including its gaps:
- Some update handlers check uniqueness only when both key fields are
  supplied.
- Role update never re-checks (name, scope).
- Moving a team or a project to another business is not checked against that
  business.
- A chat reload failure leaves a saved message pointing at an unlinked file.

Each gap is shown by a lemma that exhibits it on a concrete store. The
properties that do hold are proved next to it.

Modules:
- `Common`: options, statuses and check tags.
- `Db`: store, enums, lookups and uniqueness keys.
- One module per controller: `Businesses`, `BusinessMemberships`, `Teams`,
  `TeamMemberships`, `Projects`, `ProjectMemberships`, `Roles`,
  `Permissions`, `RolePermissions`, `Milestones`, `ChatMessages`,
  `UserAccounts`.
- `AuthCheck` (middleware) and `AdminRoutes`.
- `ChatUploads` (the upload route).
- `OtpInput` (the OTP page).

## Model

| member | source | states |
|---|---|---|
| Db.ParseBusinessType | backend/controllers/businessController.js:15-18 | a business type is accepted iff it is one of the six listed names, and it parses to the value carrying that name |
| Db.ParseScope | backend/controllers/roleController.js:14-17 | a role scope is accepted iff it is business, team or project |
| Db.ParseMemberStatus | backend/controllers/businessMembershipController.js:29-31 | a membership status is accepted iff it is active, inactive or pending |
| Db.ParseWorkStatus | backend/controllers/projectController.js:25-27 | a project or milestone status is accepted iff it is pending, in_progress or completed |
| Db.ParseMessageType | backend/controllers/chatMessageController.js:29-38 | a message type is accepted iff it is one-to-one or group |
| Db.EnumNamesParse | backend/controllers/projectController.js:25-27 | every enumeration value's name parses back to that value |
| Businesses.Create | backend/controllers/businessController.js:5-40 | checks in order: 400 for a missing field, 400 for a type outside the enumeration, 500 for a malformed owner id, 404 for an unknown owner; created iff all pass; the new business has the given fields; every business's owner still exists |
| Businesses.Update | backend/controllers/businessController.js:66-99 | 400 without a body; 404 for a missing business; 400 for an invalid type; success replaces only the supplied name and type and never changes the owner |
| Businesses.Delete | backend/controllers/businessController.js:102-119 | 404 for a missing business; succeeds iff the caller is the owner or has role admin, else 403; only that business is removed |
| Teams.Create | backend/controllers/teamController.js:6-43 | 400 for a missing field; 404 for an unknown business; created iff the name is unused in that business; (businessId, name) stays unique |
| Teams.Update | backend/controllers/teamController.js:90-150 | succeeds exactly when the id is well formed, a field is given, a supplied business exists, the team exists and a supplied name is free among the other teams of the target business (so keeping its own name is accepted); 400 for a malformed id, 400 with neither field, 400 for a malformed businessId, 404 for an unknown business, 400 for a duplicate name; success patches only supplied fields; names stay unique when a name is supplied |
| Teams.MoveCanDuplicateName | backend/controllers/teamController.js:120-133 | a move to another business without a name is not checked, so two teams of one business can end up sharing a name |
| Teams.Delete | backend/controllers/teamController.js:153-172 | 400 for a malformed id; 404 for a missing team; success removes exactly that team; names stay unique, and the deleted team's name is free again in its business |
| Teams.CreateThenDeleteRestores | backend/controllers/teamController.js:153-172 | deleting a team just created gives back the store it was created in |
| Teams.DeleteCanStrandProjects | backend/controllers/teamController.js:162-166 | delete removes only the team, so one of its projects can be left naming a team that no longer exists |
| TeamMemberships.Create | backend/controllers/teamMembershipController.js:8-70 | 400 for a missing field; 404 in the order team, user, role; rejects an existing (teamId, userId); the new row holds exactly the three ids; the pair stays unique |
| TeamMemberships.Update | backend/controllers/teamMembershipController.js:137-215 | 400 with no field; each supplied id must resolve; duplicates are checked, excluding the row, only when both teamId and userId are given; success patches only supplied fields; 404 for a missing row |
| TeamMemberships.UpdateCanDuplicate | backend/controllers/teamMembershipController.js:186-195 | an update that supplies only one key field can make two rows share (teamId, userId) |
| TeamMemberships.Delete | backend/controllers/teamMembershipController.js:218-237 | 404 for a missing row; success removes exactly that row; pairs stay unique, and the user is then no longer a member of that team |
| TeamMemberships.CreateThenDeleteRestores | backend/controllers/teamMembershipController.js:218-237 | deleting a team membership just created gives back the store it was created in |
| TeamMemberships.DeleteCanOrphanProjectMember | backend/controllers/teamMembershipController.js:227-231 | removing a user from a team leaves their project memberships in the team's projects, so a project member can end up outside the project's team |
| BusinessMemberships.InitialStatus | backend/controllers/businessMembershipController.js:62 | a new membership's status is the supplied one, else pending |
| BusinessMemberships.Create | backend/controllers/businessMembershipController.js:8-76 | 400 for a missing field; 400 for a status outside the enumeration; 404 in the order business, user, role; rejects an existing (businessId, userId); (businessId, userId) stays unique |
| BusinessMemberships.List | backend/controllers/businessMembershipController.js:79-120 | 400 naming the first malformed filter in the order businessId, userId, roleId, then 400 for an invalid status filter; otherwise exactly the rows matching every supplied filter |
| BusinessMemberships.CreatedPendingIsListed | backend/controllers/businessMembershipController.js:103-108 | a membership created without a status is returned by the list filtered on its business and status pending |
| BusinessMemberships.Update | backend/controllers/businessMembershipController.js:149-233 | 400 with no field; each supplied id must resolve and a supplied status must be legal; success patches only supplied fields; uniqueness is kept when both key fields are supplied |
| BusinessMemberships.UpdateCanDuplicate | backend/controllers/businessMembershipController.js:204-213 | an update that supplies only one key field can make two rows share (businessId, userId) |
| BusinessMemberships.Delete | backend/controllers/businessMembershipController.js:236-255 | 404 for a missing row; success removes exactly that row; pairs stay unique, and the user is then no longer a member of that business |
| BusinessMemberships.CreateThenDeleteRestores | backend/controllers/businessMembershipController.js:236-255 | deleting a business membership just created gives back the store it was created in |
| Projects.InitialStatus | backend/controllers/projectController.js:58 | a new project's status is the supplied one, else pending |
| Projects.Create | backend/controllers/projectController.js:7-71 | 400 for a missing field; 404 for an unknown business or team; 400 when the team is in another business; rejects a name used in the business; names stay unique per business; teams stay inside their project's business |
| Projects.List | backend/controllers/projectController.js:74-108 | 400 naming the first malformed filter in the order businessId, teamId, then 400 for an invalid status filter; otherwise exactly the projects matching every supplied filter |
| Projects.CreatedProjectIsListed | backend/controllers/projectController.js:74-108 | a project just created is returned by the list filtered on its business and team |
| Projects.Update | backend/controllers/projectController.js:136-233 | succeeds iff the references resolve, the team belongs to the supplied business (or, with only a team, to the current one), and the name is unused, excluding the project itself, in the target business; success patches only supplied fields |
| Projects.BusinessMoveCanStrandTeam | backend/controllers/projectController.js:182-197 | moving a project to another business without naming a team leaves its team in the old business |
| Projects.BusinessMoveCanDuplicateName | backend/controllers/projectController.js:200-214 | a business move without a new name is not checked, so two projects of one business can share a name |
| Projects.Delete | backend/controllers/projectController.js:236-255 | 404 for a missing project; success removes exactly that project; names stay unique and teams stay inside their project's business; the deleted name is free again in its business |
| Projects.CreateThenDeleteRestores | backend/controllers/projectController.js:236-255 | deleting a project just created gives back the store it was created in |
| Projects.DeleteCanOrphanMemberships | backend/controllers/projectController.js:245-249 | delete removes only the project, so a project membership can be left naming a project that no longer exists |
| ProjectMemberships.Create | backend/controllers/projectMembershipController.js:9-80 | 400 for a missing field; 404 in the order project, user, role; 400 when the user is not in the project's team; rejects an existing (projectId, userId); keeps every project member inside the project's team |
| ProjectMemberships.Update | backend/controllers/projectMembershipController.js:147-246 | 400 with no field; when projectId or userId is supplied, the would-be project and user are checked for team membership and for a duplicate excluding the row; keeps uniqueness and team containment |
| ProjectMemberships.Delete | backend/controllers/projectMembershipController.js:249-268 | 404 for a missing row; success removes exactly that row; keeps team containment and pair uniqueness, and the user is then no longer a member of that project |
| ProjectMemberships.DeleteCanOrphanAssignees | backend/controllers/projectMembershipController.js:258-262 | removing a user from a project leaves them assigned to its milestones, so an assignee can end up outside the project |
| Roles.Create | backend/controllers/roleController.js:4-36 | 400 for a missing field or a scope outside the enumeration; created iff (name, scope) is unused; (name, scope) stays unique |
| Roles.Update | backend/controllers/roleController.js:66-103 | 400 when neither field is given or the scope is invalid; 500 for a malformed id; 404 for a missing role; success patches only supplied fields |
| Roles.UpdateCanDuplicate | backend/controllers/roleController.js:85-93 | since update never re-checks (name, scope), it can make two roles share it |
| Roles.UpdateKeepsUniqueWhenPairFree | backend/controllers/roleController.js:85-93 | if no other role holds the patched (name, scope), the update keeps roles unique |
| Roles.UpdateDuplicatesWhenPairHeld | backend/controllers/roleController.js:85-93 | conversely, an accepted update onto a pair another role holds always leaves two roles sharing it |
| Roles.Delete | backend/controllers/roleController.js:49-63 | 500 for a malformed id; 404 for a missing role; success removes exactly that role; roles stay unique, and the deleted (name, scope) is free again |
| Roles.CreateThenDeleteRestores | backend/controllers/roleController.js:49-63 | deleting a role just created gives back the store it was created in |
| Roles.DeleteLeavesRoleReferences | backend/controllers/roleController.js:54-57 | unlike a permission, a role is deleted while role-permissions still name it |
| Permissions.Create | backend/controllers/permissionController.js:6-32 | 400 without a name; created iff the name is unused; names stay unique |
| Permissions.Update | backend/controllers/permissionController.js:67-110 | 400 for a malformed id or with neither a name nor a description; 400 for a name held by another permission; 404 for a missing one; a supplied empty description is stored; names stay unique |
| Permissions.Delete | backend/controllers/permissionController.js:113-138 | 400 for a malformed id; 400 while any role-permission references it, checked before existence; 404 for a missing id; success leaves no dangling reference |
| RolePermissions.Create | backend/controllers/rolePermissionController.js:7-58 | 400 for a missing field; 404 for the role, then the permission; rejects an existing (roleId, permissionId); the pair stays unique |
| RolePermissions.List | backend/controllers/rolePermissionController.js:61-89 | 400 naming the first malformed filter, roleId before permissionId; otherwise exactly the rows matching every supplied filter |
| RolePermissions.CreatedPairIsListed | backend/controllers/rolePermissionController.js:61-89 | a pair just created is returned by the list filtered on its role |
| RolePermissions.Update | backend/controllers/rolePermissionController.js:117-184 | 400 with no field; supplied ids must resolve; the duplicate check, excluding the row, runs only when both ids are supplied; uniqueness is kept then |
| RolePermissions.UpdateCanDuplicate | backend/controllers/rolePermissionController.js:156-165 | an update that supplies only one id can make two rows share (roleId, permissionId) |
| RolePermissions.Delete | backend/controllers/rolePermissionController.js:187-206 | 400 for a malformed id; 404 for a missing row; success removes exactly that row; pairs stay unique, and the role then no longer holds that permission |
| RolePermissions.CreateThenDeleteRestores | backend/controllers/rolePermissionController.js:187-206 | deleting a role-permission just created gives back the store it was created in |
| Milestones.FirstFailing | backend/controllers/milestoneController.js:47-58 | finds the first element of a list that fails a test, so an error names the first offender in request order |
| Milestones.Create | backend/controllers/milestoneController.js:8-80 | 400 for a missing field, an invalid status or a non-array assignedTo; 404 for an unknown project; 403 when the caller is not a project member; 400 naming a non-member assignee; defaults are pending and no assignees; assignees stay project members |
| Milestones.Get | backend/controllers/milestoneController.js:83-118 | succeeds iff the project exists and the caller is a member; returns exactly the project's milestones |
| Milestones.CreatedMilestoneIsListed | backend/controllers/milestoneController.js:83-118 | a milestone just created is among the project's milestones its creator reads back |
| Milestones.Update | backend/controllers/milestoneController.js:121-186 | 400 for a malformed id; 404 for a missing milestone; 403 for a non-member caller; rejected assignees answer 400 whatever the status holds, an outsider named in the answer is not a member, and the status is checked only after the assignees, and an invalid status saves nothing; falsy name, dueDate and status keep the old value, undefined description and assignedTo keep the old value; assignees stay members |
| Milestones.Delete | backend/controllers/milestoneController.js:189-218 | 404 for a missing milestone; 403 for a non-member caller; success removes exactly that milestone |
| ChatMessages.DirectCheck | backend/controllers/chatMessageController.js:99-156 | a one-to-one send needs a well-formed receiver and no team; 404 for an unknown receiver; 403 when the receiver is not in the business |
| ChatMessages.GroupCheck | backend/controllers/chatMessageController.js:159-226 | a group send needs a team and no receiver; 404 for an unknown team; 400 when the team is in another business; 403 when the sender is not in the team |
| ChatMessages.Screen | backend/controllers/chatMessageController.js:19-226 | the send checks in source order: fields, type, content or attachment, id syntax, business existence, sender membership, then the addressing checks; passes iff the send is allowed |
| ChatMessages.Compose | backend/controllers/chatMessageController.js:229-237 | a stored message has a receiver exactly when one-to-one and a team exactly when group; its content is null when none was given; its attachment is the uploaded path |
| ChatMessages.Settle | backend/controllers/chatMessageController.js:238-257 | after the checks: created on success; a failed save stores nothing; a failed reload keeps the saved message; both failures unlink the upload and answer 500 |
| ChatMessages.CreatedMessageCarries | backend/controllers/chatMessageController.js:229-237 | a created message is the sender's, carries the attachment when one was given, and leaves the files on disk alone |
| ChatMessages.SendMessage | backend/controllers/chatMessageController.js:12-258 | created iff every check passes and nothing fails afterwards; the first failing check is the answer; every failure unlinks the upload; a message is stored iff the checks pass and the save succeeds |
| ChatMessages.ReloadFaultLeavesDanglingAttachment | backend/controllers/chatMessageController.js:238-257 | when the reload after a save fails, the answer is 500 and the file is unlinked, but the stored message still names it |
| ChatMessages.SendKeepsWellFormed | backend/controllers/chatMessageController.js:229-237 | sending keeps every stored message well-formed; in particular, a group message's team belongs to the message's business |
| ChatMessages.AddKeepsWellFormed | backend/controllers/chatMessageController.js:229-237 | adding a well-formed message keeps the store well-formed |
| ChatMessages.GetMessages | backend/controllers/chatMessageController.js:261-327 | 400 without a business; 403 for a non-member of the business, or of a filtered team; returns exactly the selected messages, all within the business |
| ChatMessages.BothFiltersFindNothing | backend/controllers/chatMessageController.js:282-304 | the receiver filter overrides the type the team filter set, so asking for both finds nothing in a well-formed store |
| ChatMessages.SentMessageIsVisible | backend/controllers/chatMessageController.js:305-313 | a sent one-to-one message is in its receiver's default view; a group message is in the default view of each team member who is also in the business |
| ChatMessages.DeleteMessage | backend/controllers/chatMessageController.js:330-367 | 404 for a missing message; 403 for anyone but the sender; success removes the message and its attachment file and keeps the store well-formed |
| ChatMessages.GetAllBusinessMessages | backend/controllers/chatMessageController.js:370-404 | 404 for an unknown business; 403 for a non-member; returns exactly the business's messages |
| ChatMessages.SentMessageInBusinessListing | backend/controllers/chatMessageController.js:370-404 | a message just sent is among the business's messages its sender reads back |
| ChatMessages.Newest | backend/controllers/chatMessageController.js:321 | picks a message with the latest sentAt among the given ones |
| ChatMessages.NewestFirst | backend/controllers/chatMessageController.js:316-321 | orders the result newest first, with every selected message exactly once |
| ChatMessages.ReadMessages | backend/controllers/chatMessageController.js:261-327 | the sorted read: the same gates as the unsorted one, no rows on failure, otherwise every selected message once, newest first |
| ChatMessages.ReadBusinessMessages | backend/controllers/chatMessageController.js:370-404 | the sorted business read: the same gates, no rows on failure, otherwise every message of the business once, newest first |
| UserAccounts.DecimalRoundTrip | backend/controllers/userController.js:22 | reading back the decimal digits of a number gives the number |
| UserAccounts.DecimalString | backend/controllers/userController.js:22 | a number's decimal text is a non-empty string of digits without a leading zero |
| UserAccounts.GenerateOtp | backend/controllers/userController.js:22 | an OTP is six decimal digits, without a leading zero, whose value is 100000 plus the draw |
| UserAccounts.Signup | backend/controllers/userController.js:25-58 | 400 for a missing field; 400 for a taken email; new users get role user; emails stay unique |
| UserAccounts.Login | backend/controllers/userController.js:61-96 | succeeds iff the email exists and the password matches; an unknown email and a wrong password get the same 400 |
| UserAccounts.SignupThenLogin | backend/controllers/userController.js:61-96 | a user who has just signed up logs in with the same email and password, given that the stored hash matches it |
| UserAccounts.ForgotPassword | backend/controllers/userController.js:99-131 | 400 without an email; 404 for an unknown one; otherwise the new OTP replaces any earlier one and is kept even when the mail fails |
| UserAccounts.VerifyOtp | backend/controllers/userController.js:134-153 | 400 for a missing field; succeeds iff the stored code equals the given one, and success removes it; failure changes nothing |
| UserAccounts.OtpSingleUse | backend/controllers/userController.js:144-146 | once a code has verified, no code verifies for that email until a new one is issued |
| UserAccounts.IssuedOtpVerifies | backend/controllers/userController.js:115-126 | after a forgot-password request, exactly the issued code verifies, whether or not the mail went out |
| UserAccounts.ResetPassword | backend/controllers/userController.js:156-188 | 400 for a missing field; 404 for an unknown email; otherwise the new hash is stored, even when the confirmation mail fails; the OTP map is untouched |
| UserAccounts.ResetNeedsNoOtp | backend/controllers/userController.js:166-173 | a reset succeeds for an existing user even when no code was ever issued |
| AuthCheck.FirstBearer | backend/middleware/authCheck.js:5 | finds the position of the first "Bearer " in the header, if any |
| AuthCheck.StripBearer | backend/middleware/authCheck.js:5 | the token is the header with its first "Bearer " removed, and a header without one is kept whole |
| AuthCheck.StripBearerPrefix | backend/middleware/authCheck.js:5 | a header of the form "Bearer " + token yields exactly the token |
| AuthCheck.Auth | backend/middleware/authCheck.js:4-18 | 401 when no header or no token remains; 401 when the token does not verify; otherwise the caller is the verified payload |
| AuthCheck.BareBearerHasNoToken | backend/middleware/authCheck.js:7-9 | a header holding only the prefix gets the no-token 401 |
| AuthCheck.IsAdmin | backend/middleware/authCheck.js:21-26 | passes iff there is a user whose role is admin, else 403 |
| AuthCheck.IsAdminOrSuperadmin | backend/middleware/authCheck.js:29-34 | passes iff the role is admin or superadmin, else 403 |
| AuthCheck.AdminGatesNested | backend/middleware/authCheck.js:21-34 | every admin passes the wider gate; a superadmin passes only the wider one |
| AdminRoutes.SetRole | backend/routes/admin.js:10-37 | 400 for a missing field; 400 for a role other than user or admin; 404 for an unknown email; success changes only that user's role; emails stay unique |
| AdminRoutes.SetRoleRoute | backend/routes/admin.js:9 | the handler runs only after auth and isAdmin pass: an auth failure gives 401, a non-admin 403, and nothing changes |
| ChatUploads.FileFilter | backend/routes/chatMessageRoutes.js:31-38 | a file is accepted iff its MIME type is image/jpeg, image/jpg, image/png or application/pdf |
| ChatUploads.Extension | backend/routes/chatMessageRoutes.js:27 | the extension is the longest dot-free suffix of the original name, which is the whole name when it has no dot |
| ChatUploads.ExtensionOfDotted | backend/routes/chatMessageRoutes.js:27 | the extension of base + "." + ext is ext, for any dot-free ext |
| ChatUploads.StoredName | backend/routes/chatMessageRoutes.js:25-29 | the stored name keeps the original file's extension |
| ChatUploads.Suffix | backend/routes/chatMessageRoutes.js:26 | the suffix is a run of digits, a dash, and a run of digits, from which the clock reading and the draw read back; it holds no dot |
| ChatUploads.UndottedNameIsItsExtension | backend/routes/chatMessageRoutes.js:27-28 | for a name without a dot, the stored name ends in "." followed by the whole name |
| ChatUploads.UploadPath | backend/routes/chatMessageRoutes.js:15-28 | the stored path is the uploads directory, a separator, then the stored name |
| ChatUploads.UploadPathKeepsExtension | backend/routes/chatMessageRoutes.js:25-29 | the path on disk keeps the original file's extension |
| ChatUploads.Intake | backend/routes/chatMessageRoutes.js:39-43 | no file passes through; a file is stored iff it came under the field attachment, the filter accepts it and it is at most 5 MiB, else 500; a stored file gets the generated path |
| ChatUploads.AcceptedTypeKeepsAnyExtension | backend/routes/chatMessageRoutes.js:27-37 | the filter reads only the declared MIME type, so a file of an allowed type is stored with whatever extension its name has |
| ChatUploads.Deliver | backend/routes/chatMessageRoutes.js:56 | a file under another field, of a rejected type or over the limit answers 500 and stores nothing; a request without a file goes straight to the handler |
| ChatUploads.FailedDeliveryLeavesNoFile | backend/routes/chatMessageRoutes.js:56 | when the generated path was free, a failed request leaves the set of files as it was before the upload |
| ChatUploads.SendDropsFreshUpload | backend/controllers/chatMessageController.js:249-255 | a send that fails unlinks a freshly stored upload, restoring the file set |
| ChatUploads.DeliveredMessageCarriesUpload | backend/routes/chatMessageRoutes.js:56 | a created message belongs to the signed-in user and names the stored upload, which stays on disk |
| ChatUploads.PostMessage | backend/routes/chatMessageRoutes.js:56 | auth runs before the upload: a rejected token answers 401 and stores no file; only an authenticated request reaches the upload and the handler |
| OtpInput.Initial | frontend/src/Pages/Otp.jsx:20 | the form starts with six empty slots |
| OtpInput.HandleOtpChange | frontend/src/Pages/Otp.jsx:27-36 | a single digit or an empty value replaces only the slot at that index; anything else changes nothing; focus moves to the next slot iff a digit was typed before the last slot; slots stay six, each empty or one digit |
| OtpInput.HandleKeyDown | frontend/src/Pages/Otp.jsx:38-42 | Backspace in an empty slot other than the first moves focus back one; nothing else moves it |
| OtpInput.ClearThenBackspaceMovesBack | frontend/src/Pages/Otp.jsx:27-42 | clearing a slot other than the first moves focus nowhere, and Backspace in it then moves focus back one slot |
| OtpInput.Join | frontend/src/Pages/Otp.jsx:46 | the submitted code is empty exactly when every slot is |
| OtpInput.JoinDigits | frontend/src/Pages/Otp.jsx:46 | the submitted code has one digit per filled slot |
| OtpInput.JoinFull | frontend/src/Pages/Otp.jsx:46 | with every slot filled, the code's i-th character is slot i's digit |
| OtpInput.TypeFromFills | frontend/src/Pages/Otp.jsx:27-36 | typing a code digit by digit from a slot on fills each later slot with its digit and leaves the earlier ones |
| OtpInput.TypedCodeIsSubmitted | frontend/src/Pages/Otp.jsx:46 | typing six digits into the empty form submits exactly those digits |
| OtpInput.TypedIssuedCodeVerifies | frontend/src/Pages/Otp.jsx:44-48 | combines the page's code assembly with the user controller's verifyOtp: a code a forgot-password request issued, typed into the empty form, is accepted by that handler |

## Left out

- Input and output are left out: HTTP parsing, JSON responses, `populate`, console logging, and the 500 catch-alls for database errors, other than the chat save and reload failures.
- bcrypt, JWT signing and verification, nodemailer and `Math.random` are parameters. The cryptography is not modelled.
- `Date.now()` and the createdAt/updatedAt hooks are left out. The chat clock is a natural-number parameter.
- Concurrency is left out. The check-then-insert race on uniqueness is not modelled, so every uniqueness result assumes requests run one at a time.
- The read-one and read-all handlers without checks are left out: getBusinesses, getBusinessById, getTeams, getTeamById, getTeamMemberships, getTeamMembershipById, getProjectById, getProjectMembershipById, getBusinessMembershipById, getRoles, getPermissions, getPermissionById, getRolePermissionById. They only validate an id, if they take one, and read.
- backend/routes/auth.js is left out. It serves the same five operations as the user controller, but differently:
  - its signup, login, forgot-password, verify-otp and reset-password handlers (lines 26, 51, 78, 105, 117) have none of the controller's missing-field 400 checks;
  - its verify-otp handler has no try/catch;
  - it keeps its own OTP object (line 20), separate from the controller's;
  - it is the path the front end calls (next line). server.js mounts no router for it, and the model covers the controller's handlers only.
- OtpInput.TypedIssuedCodeVerifies: the page posts the code to `/api/auth/verify-otp` (frontend/src/Pages/Otp.jsx:48), while `verifyOtp` of the user controller is served under `/api/users` (backend/server.js:19), and backend/server.js mounts nothing at `/api/auth`. The lemma combines the page's code assembly with the controller's handler; it does not claim the page reaches that handler.
- UserAccounts.IssuedOtpVerifies: OTP keys are assumed to be ordinary property names. The source's OTP store is a plain object (backend/controllers/userController.js:19). For an email such as "__proto__", which the user schema does not reject, the write at line 116 stores nothing and the check at line 144 always fails; the model's map stores and finds the code.
- UserAccounts.ForgotPassword: the same assumption on OTP keys; for "__proto__" the source's write is a no-op where the model stores the code.
- Ids are assumed to be canonical ObjectId text (24 lower-case hex digits). Mongoose casts an id to an ObjectId ignoring hex case, so an upper-case spelling finds the same document. The model compares id text exactly: for example, Projects.Create with an existing business id in upper case answers 404 in the model, where the source finds the business and then fails the team's business comparison at backend/controllers/projectController.js:42 with 400.
- ChatUploads.Intake: a request carrying more than one file is not modelled. The upload is a single optional file; multer rejects a second `attachment` file with a 500, as it does a file under another field.
- Route wiring other than admin.js and chatMessageRoutes.js is left out, as are server.js and the presentational front-end pages.
- JSON `null` versus an absent field is left out. A request field is `Option<string>`; `Given` is JavaScript truthiness, and `Some("")` is present but falsy.
- Milestones.Update: a non-array `assignedTo` on update is not rejected by the handler. Mongoose would cast it, and the model only accepts a list.
- Milestones.Create: `dueDate` is kept as text. Date parsing and invalid dates are not modelled.
- Milestones.Get: the result is the set of the project's milestones. The createdAt ordering is not modelled.
- The schema files drift from the controllers. The model follows the controllers and does not model Mongoose's strict schemas, which silently drop any field a schema does not declare. The consequences in the source are listed below.
- Businesses.Create: backend/models/Business.js:4-9 requires `businessName` and `businessType`, but the handler writes `name` and `type` (backend/controllers/businessController.js:27-31). Both are dropped, so in the source every create that passes the checks fails validation at `business.save()` (line 32) with a 500. The model creates the business. The schema's type enumeration also lacks 'Data Engineer', which the handler accepts.
- Businesses.Update: the handler assigns `business.name` and `business.type` (backend/controllers/businessController.js:82, 88), which the schema does not declare. In the source, the change is dropped and the stored business keeps its old name and type. The model applies the patch.
- Milestones.Create: backend/models/Milestone.js:5 requires `milestoneName` and the schema has no `assignedTo`, but the handler writes `name` and `assignedTo` (backend/controllers/milestoneController.js:61-68). In the source, every create that passes the checks fails validation at `milestone.save()` (line 69) with a 500. The model creates the milestone with its name and assignees.
- Milestones.Update: `milestone.name` and `milestone.assignedTo` (backend/controllers/milestoneController.js:169, 173) are not schema fields. In the source, a rename or reassignment is dropped while the status, description and due date are saved. The model applies them all.
- The milestone handlers are unreachable in the source: backend/routes/milestoneRoutes.js exists, but backend/server.js:16-28 mounts no router for it. The model covers the four controller handlers as written.
- backend/models/BusinessMembership.js:7 defaults the status to 'active'. The handler always supplies one ('pending' unless given), so the default never applies.
- Failures of `fs.unlink` are logged and swallowed by the source. The model treats unlinking as always removing the path.
- A multer error goes to Express's default error handler. The model gives it a plain 500 and leaves out the handler's body and headers.
- ChatUploads.Suffix: the suffix is the decimal text of the clock and of the rounded draw. Whether two uploads can collide on a path is not modelled; FailedDeliveryLeavesNoFile assumes the path was free.
- ChatUploads.UploadPath: `path.join` normalisation is not modelled. The path is the directory, "/", and the stored name.
- The disk is the store's `files` field, a plain set of paths.

=== FILE: admin.dfy ===
/** The admin route: PUT /api/admin/set-role changes one user's role, behind
    the auth and isAdmin middleware. */
module AdminRoutes {
  import opened Common
  import opened Db
  import opened AuthCheck

  /** The handler. `found` is the user `findOneAndUpdate({ email })` matches. */
  function SetRole(s: Store, email: Option<string>, role: Option<string>, found: Option<Id>): (r: Reply)
    requires Given(email) ==> FoundByEmail(s.users, email.value, found)
    ensures r.status.Fail? ==> r.store == s
    ensures !r.status.Created?
    ensures r.status.Ok? <==> Given(email) && Given(role) && role.value in {"user", "admin"} && found.Some?
    ensures r.status.Ok? ==>
      && r.store == s.(users := s.users[found.value := s.users[found.value].(role := role.value)])
      && r.store.users[found.value].email == email.value
    ensures !Given(email) || !Given(role) ==> r.status == Bad(FieldsRequired)
    ensures Given(email) && Given(role) && role.value !in {"user", "admin"} ==> r.status == Bad(InvalidEnum("role"))
    ensures (Given(email) && Given(role) && role.value in {"user", "admin"} && !EmailTaken(s.users, email.value))
            ==> r.status == Absent(UserKind)
    ensures UniqueEmails(s.users) ==> UniqueEmails(r.store.users)
  {
    if !Given(email) || !Given(role) then Reply(Bad(FieldsRequired), s)
    else if role.value !in {"user", "admin"} then Reply(Bad(InvalidEnum("role")), s)
    else if found.None? then Reply(Absent(UserKind), s)
    else Reply(Ok, s.(users := s.users[found.value := s.users[found.value].(role := role.value)]))
  }

  /** The route: auth, then isAdmin, then the handler. */
  function SetRoleRoute(s: Store, header: Option<string>, verify: string -> Option<Caller>,
                        email: Option<string>, role: Option<string>, found: Option<Id>): (r: Reply)
    requires Given(email) ==> FoundByEmail(s.users, email.value, found)
    ensures r.status.Fail? ==> r.store == s
    ensures r.status.Ok? ==>
      && Auth(header, verify).Authenticated?
      && Auth(header, verify).caller.role == "admin"
    ensures Auth(header, verify).Rejected? ==> r.status.Fail? && r.status.code == Unauthorized
    ensures (Auth(header, verify).Authenticated? && Auth(header, verify).caller.role != "admin")
            ==> r.status == Denied(AdminRequired)
    ensures (Auth(header, verify).Authenticated? && Auth(header, verify).caller.role == "admin")
            ==> r == SetRole(s, email, role, found)
  {
    match Auth(header, verify)
    case Rejected(st) => Reply(st, s)
    case Authenticated(c) =>
      var gate := IsAdmin(Some(c));
      if !gate.Ok? then Reply(gate, s) else SetRole(s, email, role, found)
  }
}

=== FILE: auth.dfy ===
/** Authentication middleware: extracting the bearer token from the
    Authorization header, and the two role gates. Token verification is an
    opaque function from token text to the payload it carries, if any. */
module AuthCheck {
  import opened Common
  import opened Db

  const BearerPrefix: string := "Bearer "

  /** "Bearer " starts at position i of h. */
  predicate OccursAt(h: string, i: int)
  {
    0 <= i && i + |BearerPrefix| <= |h| && h[i..i + |BearerPrefix|] == BearerPrefix
  }

  /** The position of the first "Bearer " in h, if there is one. */
  function FirstBearer(h: string): (r: Option<nat>)
    ensures r.None? <==> forall i :: 0 <= i < |h| ==> !OccursAt(h, i)
    ensures r.Some? ==> OccursAt(h, r.value) && forall j :: 0 <= j < r.value ==> !OccursAt(h, j)
  {
    if |h| < |BearerPrefix| then None
    else if h[..|BearerPrefix|] == BearerPrefix then
      assert OccursAt(h, 0);
      Some(0)
    else
      var rest := FirstBearer(h[1..]);
      // a match in the tail is a match in h one position later
      forall i | 1 <= i < |h|
        ensures OccursAt(h, i) <==> OccursAt(h[1..], i - 1)
      {
        if i + |BearerPrefix| <= |h| {
          assert h[1..][i - 1..i - 1 + |BearerPrefix|] == h[i..i + |BearerPrefix|];
        }
      }
      assert !OccursAt(h, 0);
      if rest.None? then None
      else
        assert OccursAt(h, rest.value + 1);
        Some(rest.value + 1)
  }

  /** `header.replace('Bearer ', '')`: the first "Bearer " is removed, any
      later one is kept, and a header without one is left as it is. */
  function StripBearer(h: string): (t: string)
    ensures (forall i :: 0 <= i < |h| ==> !OccursAt(h, i)) ==> t == h
    ensures forall i :: OccursAt(h, i) && (forall j :: 0 <= j < i ==> !OccursAt(h, j))
                        ==> t == h[..i] + h[i + |BearerPrefix|..]
  {
    match FirstBearer(h)
    case None => h
    case Some(i) => h[..i] + h[i + |BearerPrefix|..]
  }

  /** A well-formed header yields exactly the token after the prefix. */
  lemma {:induction false} StripBearerPrefix(token: string)
    ensures StripBearer(BearerPrefix + token) == token
  {
    var h := BearerPrefix + token;
    assert OccursAt(h, 0);
    assert h[..0] + h[|BearerPrefix|..] == token;
  }

  /** The outcome of the auth middleware. */
  datatype AuthResult = Authenticated(caller: Caller) | Rejected(status: Status)

  /** `auth`: `header` is the Authorization header, `verify` the token check. */
  function Auth(header: Option<string>, verify: string -> Option<Caller>): (r: AuthResult)
    ensures r.Authenticated? <==>
      header.Some? && StripBearer(header.value) != "" && verify(StripBearer(header.value)).Some?
    ensures r.Authenticated? ==> r.caller == verify(StripBearer(header.value)).value
    ensures header.None? || StripBearer(header.value) == "" <==> r == Rejected(Fail(Unauthorized, NoToken))
    ensures r.Rejected? ==> r.status.Fail? && r.status.code == Unauthorized
  {
    if header.None? then Rejected(Fail(Unauthorized, NoToken))
    else
      var token := StripBearer(header.value);
      if token == "" then Rejected(Fail(Unauthorized, NoToken))
      else match verify(token)
        case None => Rejected(Fail(Unauthorized, BadToken))
        case Some(c) => Authenticated(c)
  }

  /** A header carrying only the prefix holds no token. */
  lemma {:induction false} BareBearerHasNoToken(verify: string -> Option<Caller>)
    ensures Auth(Some(BearerPrefix), verify) == Rejected(Fail(Unauthorized, NoToken))
  {
    StripBearerPrefix("");
    assert BearerPrefix + "" == BearerPrefix;
  }

  /** `isAdmin`: the signed-in user's role is 'admin'. */
  function IsAdmin(user: Option<Caller>): (st: Status)
    ensures st.Ok? <==> user.Some? && user.value.role == "admin"
    ensures !st.Ok? ==> st == Denied(AdminRequired)
  {
    if user.None? || user.value.role != "admin" then Denied(AdminRequired) else Ok
  }

  /** `isAdminOrSuperadmin`: the role is 'admin' or 'superadmin'. */
  function IsAdminOrSuperadmin(user: Option<Caller>): (st: Status)
    ensures st.Ok? <==> user.Some? && user.value.role in {"admin", "superadmin"}
    ensures !st.Ok? ==> st == Denied(AdminOrSuperadminRequired)
  {
    if user.None? || user.value.role !in {"admin", "superadmin"} then Denied(AdminOrSuperadminRequired) else Ok
  }

  /** Every admin passes the wider gate, and a superadmin passes only it. */
  lemma {:induction false} AdminGatesNested(user: Option<Caller>, id: Id)
    ensures IsAdmin(user).Ok? ==> IsAdminOrSuperadmin(user).Ok?
    ensures IsAdminOrSuperadmin(Some(Caller(id, "superadmin"))).Ok? && !IsAdmin(Some(Caller(id, "superadmin"))).Ok?
  {
  }
}

=== FILE: business_memberships.dfy ===
/** Business-membership controller: binds a user to a business with a role
    and a status; a user holds at most one membership per business. */
module BusinessMemberships {
  import opened Common
  import opened Db

  datatype CreateRequest = CreateRequest(businessId: Option<string>, userId: Option<string>,
                                         roleId: Option<string>, status: Option<string>)

  /** The three ids are present and well formed and a supplied status is legal. */
  predicate WellFormed(req: CreateRequest, isValid: Id -> bool)
  {
    && Given(req.businessId) && Given(req.userId) && Given(req.roleId)
    && isValid(req.businessId.value) && isValid(req.userId.value) && isValid(req.roleId.value)
    && (Given(req.status) ==> ParseMemberStatus(req.status.value).Some?)
  }

  predicate CreateAllowed(s: Store, req: CreateRequest, isValid: Id -> bool)
  {
    && WellFormed(req, isValid)
    && req.businessId.value in s.businesses && req.userId.value in s.users && req.roleId.value in s.roles
    && !BusinessPairHeld(s.businessMemberships, req.businessId.value, req.userId.value, None)
  }

  /** The status a new membership is stored with: the supplied one, else pending. */
  function InitialStatus(status: Option<string>): (st: MemberStatus)
    requires Given(status) ==> ParseMemberStatus(status.value).Some?
    ensures !Given(status) ==> st == StatusPending
    ensures Given(status) ==> MemberStatusName(st) == status.value
  {
    if Given(status) then ParseMemberStatus(status.value).value else StatusPending
  }

  /** POST /business-memberships. */
  function Create(s: Store, req: CreateRequest, isValid: Id -> bool, newId: Id): (r: Reply)
    requires newId !in s.businessMemberships
    ensures r.status.Fail? ==> r.store == s
    ensures r.status.Created? <==> CreateAllowed(s, req, isValid)
    ensures !r.status.Ok?
    ensures r.status.Created? ==>
      && newId in r.store.businessMemberships
      && r.store == s.(businessMemberships := s.businessMemberships[newId := r.store.businessMemberships[newId]])
      && r.store.businessMemberships[newId].businessId == req.businessId.value
      && r.store.businessMemberships[newId].userId == req.userId.value
      && r.store.businessMemberships[newId].roleId == req.roleId.value
      && r.store.businessMemberships[newId].status == InitialStatus(req.status)
    ensures r.status.Created? && !Given(req.status) ==> r.store.businessMemberships[newId].status == StatusPending
    ensures !Given(req.businessId) || !Given(req.userId) || !Given(req.roleId) ==> r.status == Bad(FieldsRequired)
    ensures (Given(req.businessId) && Given(req.userId) && Given(req.roleId) && Given(req.status)
             && ParseMemberStatus(req.status.value).None?) ==> r.status.Fail? && r.status.code == BadRequest
    // referenced ids are resolved in the order business, user, role
    ensures WellFormed(req, isValid) && req.businessId.value !in s.businesses ==> r.status == Absent(BusinessKind)
    ensures (WellFormed(req, isValid) && req.businessId.value in s.businesses && req.userId.value !in s.users)
            ==> r.status == Absent(UserKind)
    ensures (WellFormed(req, isValid) && req.businessId.value in s.businesses && req.userId.value in s.users
             && req.roleId.value !in s.roles) ==> r.status == Absent(RoleKind)
    ensures UniqueBusinessMemberships(s.businessMemberships) ==> UniqueBusinessMemberships(r.store.businessMemberships)
  {
    if !Given(req.businessId) || !Given(req.userId) || !Given(req.roleId) then Reply(Bad(FieldsRequired), s)
    else
      var b, u, role := req.businessId.value, req.userId.value, req.roleId.value;
      if !isValid(b) then Reply(Bad(MalformedId("businessId")), s)
      else if !isValid(u) then Reply(Bad(MalformedId("userId")), s)
      else if !isValid(role) then Reply(Bad(MalformedId("roleId")), s)
      else if Given(req.status) && ParseMemberStatus(req.status.value).None? then Reply(Bad(InvalidEnum("status")), s)
      else if b !in s.businesses then Reply(Absent(BusinessKind), s)
      else if u !in s.users then Reply(Absent(UserKind), s)
      else if role !in s.roles then Reply(Absent(RoleKind), s)
      else if BusinessPairHeld(s.businessMemberships, b, u, None) then Reply(Bad(Duplicate(BusinessMembershipKind)), s)
      else
        var m := BusinessMembership(b, u, role, InitialStatus(req.status));
        assert forall k :: k in s.businessMemberships ==>
          !(s.businessMemberships[k].businessId == b && s.businessMemberships[k].userId == u);
        Reply(Created, s.(businessMemberships := s.businessMemberships[newId := m]))
  }

  datatype Filter = Filter(businessId: Option<string>, userId: Option<string>,
                           roleId: Option<string>, status: Option<string>)

  /** A row satisfies every supplied filter. */
  predicate Matches(m: BusinessMembership, f: Filter)
  {
    && (Given(f.businessId) ==> m.businessId == f.businessId.value)
    && (Given(f.userId) ==> m.userId == f.userId.value)
    && (Given(f.roleId) ==> m.roleId == f.roleId.value)
    && (Given(f.status) ==> MemberStatusName(m.status) == f.status.value)
  }

  /** GET /business-memberships. */
  function List(s: Store, f: Filter, isValid: Id -> bool): (r: Listing)
    ensures r.status.Ok? <==>
      && (Given(f.businessId) ==> isValid(f.businessId.value))
      && (Given(f.userId) ==> isValid(f.userId.value))
      && (Given(f.roleId) ==> isValid(f.roleId.value))
      && (Given(f.status) ==> ParseMemberStatus(f.status.value).Some?)
    // the filters are checked in the order businessId, userId, roleId, status
    ensures Given(f.businessId) && !isValid(f.businessId.value) ==> r.status == Bad(MalformedId("businessId"))
    ensures (&& (Given(f.businessId) ==> isValid(f.businessId.value))
             && Given(f.userId) && !isValid(f.userId.value)) ==> r.status == Bad(MalformedId("userId"))
    ensures (&& (Given(f.businessId) ==> isValid(f.businessId.value))
             && (Given(f.userId) ==> isValid(f.userId.value))
             && Given(f.roleId) && !isValid(f.roleId.value)) ==> r.status == Bad(MalformedId("roleId"))
    ensures (&& (Given(f.businessId) ==> isValid(f.businessId.value))
             && (Given(f.userId) ==> isValid(f.userId.value))
             && (Given(f.roleId) ==> isValid(f.roleId.value))
             && Given(f.status) && ParseMemberStatus(f.status.value).None?) ==> r.status == Bad(InvalidEnum("status"))
    ensures r.status.Fail? ==> r.rows == {}
    ensures r.status.Ok? ==>
      forall k :: k in r.rows <==> k in s.businessMemberships && Matches(s.businessMemberships[k], f)
  {
    if Given(f.businessId) && !isValid(f.businessId.value) then Listing(Bad(MalformedId("businessId")), {})
    else if Given(f.userId) && !isValid(f.userId.value) then Listing(Bad(MalformedId("userId")), {})
    else if Given(f.roleId) && !isValid(f.roleId.value) then Listing(Bad(MalformedId("roleId")), {})
    else if Given(f.status) && ParseMemberStatus(f.status.value).None? then Listing(Bad(InvalidEnum("status")), {})
    else Listing(Ok, set k | k in s.businessMemberships && Matches(s.businessMemberships[k], f))
  }

  /** A membership created without a status is listed under the filter
      status=pending of its business. */
  lemma CreatedPendingIsListed(s: Store, req: CreateRequest, isValid: Id -> bool, newId: Id)
    requires newId !in s.businessMemberships
    requires Create(s, req, isValid, newId).status.Created? && !Given(req.status)
    ensures var s' := Create(s, req, isValid, newId).store;
            newId in List(s', Filter(req.businessId, None, None, Some("pending")), isValid).rows
  {
    var s' := Create(s, req, isValid, newId).store;
    var f := Filter(req.businessId, None, None, Some("pending"));
    assert ParseMemberStatus("pending").Some?;
    assert Matches(s'.businessMemberships[newId], f);
  }

  datatype UpdateRequest = UpdateRequest(businessId: Option<string>, userId: Option<string>,
                                         roleId: Option<string>, status: Option<string>)

  predicate SomeField(req: UpdateRequest)
  {
    Given(req.businessId) || Given(req.userId) || Given(req.roleId) || Given(req.status)
  }

  /** The supplied ids name existing records and a supplied status is legal. */
  predicate ReferencesResolve(s: Store, req: UpdateRequest, isValid: Id -> bool)
  {
    && (Given(req.businessId) ==> isValid(req.businessId.value) && req.businessId.value in s.businesses)
    && (Given(req.userId) ==> isValid(req.userId.value) && req.userId.value in s.users)
    && (Given(req.roleId) ==> isValid(req.roleId.value) && req.roleId.value in s.roles)
    && (Given(req.status) ==> ParseMemberStatus(req.status.value).Some?)
  }

  /** Supplied fields replace the stored ones. */
  function Patched(m: BusinessMembership, req: UpdateRequest): BusinessMembership
    requires Given(req.status) ==> ParseMemberStatus(req.status.value).Some?
  {
    BusinessMembership(if Given(req.businessId) then req.businessId.value else m.businessId,
                       if Given(req.userId) then req.userId.value else m.userId,
                       if Given(req.roleId) then req.roleId.value else m.roleId,
                       if Given(req.status) then ParseMemberStatus(req.status.value).value else m.status)
  }

  /** PUT /business-memberships/:id. The duplicate check runs only when both
      businessId and userId are supplied, and ignores the row itself. */
  function Update(s: Store, id: Id, req: UpdateRequest, isValid: Id -> bool): (r: Reply)
    ensures r.status.Fail? ==> r.store == s
    ensures !isValid(id) ==> r.status == Bad(MalformedId("id"))
    ensures !r.status.Created?
    ensures r.status.Ok? <==>
      && isValid(id) && SomeField(req) && ReferencesResolve(s, req, isValid)
      && !(Given(req.businessId) && Given(req.userId)
           && BusinessPairHeld(s.businessMemberships, req.businessId.value, req.userId.value, Some(id)))
      && id in s.businessMemberships
    ensures r.status.Ok? ==>
      r.store == s.(businessMemberships := s.businessMemberships[id := Patched(s.businessMemberships[id], req)])
    ensures isValid(id) && !SomeField(req) ==> r.status == Bad(NothingToUpdate)
    ensures (isValid(id) && SomeField(req) && ReferencesResolve(s, req, isValid)
             && Given(req.businessId) && Given(req.userId)
             && BusinessPairHeld(s.businessMemberships, req.businessId.value, req.userId.value, Some(id)))
            ==> r.status == Bad(Duplicate(BusinessMembershipKind))
    ensures Given(req.businessId) && Given(req.userId) && UniqueBusinessMemberships(s.businessMemberships)
            ==> UniqueBusinessMemberships(r.store.businessMemberships)
  {
    if !isValid(id) then Reply(Bad(MalformedId("id")), s)
    else if !SomeField(req) then Reply(Bad(NothingToUpdate), s)
    else if Given(req.businessId) && !isValid(req.businessId.value) then Reply(Bad(MalformedId("businessId")), s)
    else if Given(req.businessId) && req.businessId.value !in s.businesses then Reply(Absent(BusinessKind), s)
    else if Given(req.userId) && !isValid(req.userId.value) then Reply(Bad(MalformedId("userId")), s)
    else if Given(req.userId) && req.userId.value !in s.users then Reply(Absent(UserKind), s)
    else if Given(req.roleId) && !isValid(req.roleId.value) then Reply(Bad(MalformedId("roleId")), s)
    else if Given(req.roleId) && req.roleId.value !in s.roles then Reply(Absent(RoleKind), s)
    else if Given(req.status) && ParseMemberStatus(req.status.value).None? then Reply(Bad(InvalidEnum("status")), s)
    else if Given(req.businessId) && Given(req.userId)
            && BusinessPairHeld(s.businessMemberships, req.businessId.value, req.userId.value, Some(id))
    then Reply(Bad(Duplicate(BusinessMembershipKind)), s)
    else if id !in s.businessMemberships then Reply(Absent(BusinessMembershipKind), s)
    else Reply(Ok, s.(businessMemberships := s.businessMemberships[id := Patched(s.businessMemberships[id], req)]))
  }

  /** With only userId supplied, the update is not checked for duplicates and
      can give a user two memberships of one business. */
  lemma UpdateCanDuplicate()
    ensures exists s: Store, id: Id, req: UpdateRequest, isValid: Id -> bool ::
      UniqueBusinessMemberships(s.businessMemberships) && Update(s, id, req, isValid).status.Ok?
      && !UniqueBusinessMemberships(Update(s, id, req, isValid).store.businessMemberships)
  {
    var s := Store(map["u1" := User("A", "a@x", "h", "user"), "u2" := User("B", "b@x", "h", "user")],
                   map["b" := Business("Acme", Shop, "u1")], map[], map[], map[], map[], map[],
                   map["m1" := BusinessMembership("b", "u1", "r", StatusActive),
                       "m2" := BusinessMembership("b", "u2", "r", StatusActive)],
                   map[], map[], map[], map[], {}, map[]);
    var req := UpdateRequest(None, Some("u1"), None, None);
    var isValid := (x: Id) => true;
    var r := Update(s, "m2", req, isValid);
    assert r.store.businessMemberships["m1"].userId == r.store.businessMemberships["m2"].userId;
  }

  /** DELETE /business-memberships/:id. */
  function Delete(s: Store, id: Id, isValid: Id -> bool): (r: Reply)
    ensures r.status.Fail? ==> r.store == s
    ensures !isValid(id) ==> r.status == Bad(MalformedId("id"))
    ensures r.status.Ok? <==> isValid(id) && id in s.businessMemberships
    ensures r.status.Ok? ==> r.store == s.(businessMemberships := s.businessMemberships - {id})
    ensures isValid(id) && id !in s.businessMemberships ==> r.status == Absent(BusinessMembershipKind)
    ensures UniqueBusinessMemberships(s.businessMemberships) ==> UniqueBusinessMemberships(r.store.businessMemberships)
    // the user is no longer a member of that business
    ensures r.status.Ok? && UniqueBusinessMemberships(s.businessMemberships) ==>
      !IsBusinessMember(r.store, s.businessMemberships[id].businessId, s.businessMemberships[id].userId)
  {
    if !isValid(id) then Reply(Bad(MalformedId("id")), s)
    else if id !in s.businessMemberships then Reply(Absent(BusinessMembershipKind), s)
    else Reply(Ok, s.(businessMemberships := s.businessMemberships - {id}))
  }

  /** Deleting a business membership just created gives back the store it
      was created in. */
  lemma CreateThenDeleteRestores(s: Store, req: CreateRequest, isValid: Id -> bool, newId: Id)
    requires newId !in s.businessMemberships && isValid(newId)
    requires Create(s, req, isValid, newId).status.Created?
    ensures Delete(Create(s, req, isValid, newId).store, newId, isValid) == Reply(Ok, s)
  {
    var r := Create(s, req, isValid, newId);
    assert r.store.businessMemberships - {newId} == s.businessMemberships;
  }
}

=== FILE: businesses.dfy ===
/** Business controller: a business has a name, a type from a fixed list and
    an owning user (its super admin). Only the owner or an admin may delete
    it. None of the handlers checks an id with ObjectId.isValid first, so a
    malformed id fails inside the lookup as a server error. */
module Businesses {
  import opened Common
  import opened Db

  /** Every business's owner is a stored user. */
  predicate OwnersExist(s: Store)
  {
    forall k :: k in s.businesses ==> s.businesses[k].superAdminUserId in s.users
  }

  datatype CreateRequest = CreateRequest(name: Option<string>, btype: Option<string>, superAdminUserId: Option<string>)

  predicate CreateAllowed(s: Store, req: CreateRequest, isValid: Id -> bool)
  {
    && Given(req.name) && Given(req.btype) && Given(req.superAdminUserId)
    && ParseBusinessType(req.btype.value).Some?
    && isValid(req.superAdminUserId.value) && req.superAdminUserId.value in s.users
  }

  /** POST /businesses. */
  function Create(s: Store, req: CreateRequest, isValid: Id -> bool, newId: Id): (r: Reply)
    requires newId !in s.businesses
    ensures r.status.Fail? ==> r.store == s
    ensures r.status.Created? <==> CreateAllowed(s, req, isValid)
    ensures !r.status.Ok?
    ensures r.status.Created? ==>
      && newId in r.store.businesses
      && r.store == s.(businesses := s.businesses[newId := r.store.businesses[newId]])
      && r.store.businesses[newId].name == req.name.value
      && BusinessTypeName(r.store.businesses[newId].btype) == req.btype.value
      && r.store.businesses[newId].superAdminUserId == req.superAdminUserId.value
    ensures !Given(req.name) || !Given(req.btype) || !Given(req.superAdminUserId) ==> r.status == Bad(FieldsRequired)
    ensures (Given(req.name) && Given(req.btype) && Given(req.superAdminUserId)
             && ParseBusinessType(req.btype.value).None?) ==> r.status == Bad(InvalidEnum("type"))
    ensures (Given(req.name) && Given(req.btype) && Given(req.superAdminUserId)
             && ParseBusinessType(req.btype.value).Some? && isValid(req.superAdminUserId.value)
             && req.superAdminUserId.value !in s.users) ==> r.status == Absent(UserKind)
    // the owner id is looked up without an ObjectId check, so a malformed one is a cast error
    ensures (Given(req.name) && Given(req.btype) && Given(req.superAdminUserId)
             && ParseBusinessType(req.btype.value).Some? && !isValid(req.superAdminUserId.value))
            ==> r.status == Fail(ServerError, CastFailed)
    ensures OwnersExist(s) ==> OwnersExist(r.store)
  {
    if !Given(req.name) || !Given(req.btype) || !Given(req.superAdminUserId) then Reply(Bad(FieldsRequired), s)
    else if ParseBusinessType(req.btype.value).None? then Reply(Bad(InvalidEnum("type")), s)
    else if !isValid(req.superAdminUserId.value) then Reply(Fail(ServerError, CastFailed), s)
    else if req.superAdminUserId.value !in s.users then Reply(Absent(UserKind), s)
    else
      var b := Business(req.name.value, ParseBusinessType(req.btype.value).value, req.superAdminUserId.value);
      Reply(Created, s.(businesses := s.businesses[newId := b]))
  }

  datatype UpdateRequest = UpdateRequest(name: Option<string>, btype: Option<string>)

  function Patched(b: Business, req: UpdateRequest): Business
    requires Given(req.btype) ==> ParseBusinessType(req.btype.value).Some?
  {
    Business(if Given(req.name) then req.name.value else b.name,
             if Given(req.btype) then ParseBusinessType(req.btype.value).value else b.btype,
             b.superAdminUserId)
  }

  /** PUT /businesses/:id. `body` is None when the request carries no body.
      The type is validated after the lookup, and an invalid one aborts
      before anything is saved, even when a name was also supplied. */
  function Update(s: Store, id: Id, body: Option<UpdateRequest>, isValid: Id -> bool): (r: Reply)
    ensures r.status.Fail? ==> r.store == s
    ensures !r.status.Created?
    ensures r.status.Ok? <==>
      && body.Some? && isValid(id) && id in s.businesses
      && (Given(body.value.btype) ==> ParseBusinessType(body.value.btype.value).Some?)
    ensures r.status.Ok? ==> r.store == s.(businesses := s.businesses[id := Patched(s.businesses[id], body.value)])
    ensures r.status.Ok? ==> r.store.businesses[id].superAdminUserId == s.businesses[id].superAdminUserId
    ensures body.None? ==> r.status == Bad(BodyRequired)
    // the id is looked up without an ObjectId check, so a malformed one is a cast error
    ensures body.Some? && !isValid(id) ==> r.status == Fail(ServerError, CastFailed)
    ensures body.Some? && isValid(id) && id !in s.businesses ==> r.status == Absent(BusinessKind)
    ensures (body.Some? && isValid(id) && id in s.businesses && Given(body.value.btype)
             && ParseBusinessType(body.value.btype.value).None?) ==> r.status == Bad(InvalidEnum("type"))
    ensures OwnersExist(s) ==> OwnersExist(r.store)
  {
    if body.None? then Reply(Bad(BodyRequired), s)
    else if !isValid(id) then Reply(Fail(ServerError, CastFailed), s)
    else if id !in s.businesses then Reply(Absent(BusinessKind), s)
    else if Given(body.value.btype) && ParseBusinessType(body.value.btype.value).None?
    then Reply(Bad(InvalidEnum("type")), s)
    else Reply(Ok, s.(businesses := s.businesses[id := Patched(s.businesses[id], body.value)]))
  }

  /** The caller owns business `b` or is a site admin. */
  predicate MayDelete(b: Business, caller: Caller)
  {
    b.superAdminUserId == caller.id || caller.role == "admin"
  }

  /** DELETE /businesses/:id. Teams, projects and memberships of the business
      are left in place. */
  function Delete(s: Store, id: Id, caller: Caller, isValid: Id -> bool): (r: Reply)
    ensures r.status.Fail? ==> r.store == s
    ensures r.status.Ok? <==> isValid(id) && id in s.businesses && MayDelete(s.businesses[id], caller)
    ensures r.status.Ok? ==> r.store == s.(businesses := s.businesses - {id})
    ensures !isValid(id) ==> r.status == Fail(ServerError, CastFailed)
    ensures isValid(id) && id !in s.businesses ==> r.status == Absent(BusinessKind)
    ensures (isValid(id) && id in s.businesses && s.businesses[id].superAdminUserId != caller.id
             && caller.role != "admin") ==> r.status == Denied(NotOwnerOrAdmin)
    ensures OwnersExist(s) ==> OwnersExist(r.store)
  {
    if !isValid(id) then Reply(Fail(ServerError, CastFailed), s)
    else if id !in s.businesses then Reply(Absent(BusinessKind), s)
    else if !MayDelete(s.businesses[id], caller) then Reply(Denied(NotOwnerOrAdmin), s)
    else Reply(Ok, s.(businesses := s.businesses - {id}))
  }
}

=== FILE: chat.dfy ===
/** Chat-message controller: one-to-one and group messages scoped to a
    business, with an optional attachment file that the upload middleware
    has already written before the handler runs. Every rejected send
    removes that file again. */
module ChatMessages {
  import opened Common
  import opened Db

  /** The store after the uploaded file, if any, is unlinked. */
  function Discard(s: Store, attachment: Option<string>): Store
  {
    if Given(attachment) then s.(files := s.files - {attachment.value}) else s
  }

  /** A message is shaped as the send handler builds it: a receiver exactly
      when one-to-one, a team exactly when group, and a group's team belongs
      to the message's business. */
  predicate Shaped(m: ChatMessage, teams: map<Id, Team>)
  {
    && (m.receiverId.Some? <==> m.mtype == OneToOne)
    && (m.teamId.Some? <==> m.mtype == Group)
    && (m.mtype == Group ==> m.teamId.value in teams && teams[m.teamId.value].businessId == m.businessId)
  }

  /** Every stored message is shaped. */
  predicate MessagesWellFormed(s: Store)
  {
    forall k :: k in s.messages ==> Shaped(s.messages[k], s.teams)
  }

  datatype SendRequest = SendRequest(
    businessId: Option<string>, receiverId: Option<string>, teamId: Option<string>,
    content: Option<string>, mtype: Option<string>)

  /** The checks before any lookup. */
  predicate Basics(sender: Id, req: SendRequest, attachment: Option<string>, isValid: Id -> bool)
  {
    && Given(req.businessId) && Given(req.mtype) && ParseMessageType(req.mtype.value).Some?
    && (Given(req.content) || Given(attachment))
    && isValid(req.businessId.value) && isValid(sender)
  }

  /** The sender may post in the business at all. */
  predicate Admitted(s: Store, sender: Id, req: SendRequest, attachment: Option<string>, isValid: Id -> bool)
  {
    && Basics(sender, req, attachment, isValid)
    && req.businessId.value in s.businesses
    && IsBusinessMember(s, req.businessId.value, sender)
  }

  /** The addressing rules for a one-to-one message. */
  predicate DirectAllowed(s: Store, b: Id, req: SendRequest, isValid: Id -> bool)
  {
    && Given(req.receiverId) && isValid(req.receiverId.value) && !Given(req.teamId)
    && req.receiverId.value in s.users && IsBusinessMember(s, b, req.receiverId.value)
  }

  /** The addressing rules for a group message. */
  predicate GroupAllowed(s: Store, sender: Id, b: Id, req: SendRequest, isValid: Id -> bool)
  {
    && Given(req.teamId) && !Given(req.receiverId) && isValid(req.teamId.value)
    && req.teamId.value in s.teams && s.teams[req.teamId.value].businessId == b
    && IsTeamMember(s, req.teamId.value, sender)
  }

  predicate SendAllowed(s: Store, sender: Id, req: SendRequest, attachment: Option<string>, isValid: Id -> bool)
  {
    && Admitted(s, sender, req, attachment, isValid)
    && (ParseMessageType(req.mtype.value) == Some(OneToOne) ==> DirectAllowed(s, req.businessId.value, req, isValid))
    && (ParseMessageType(req.mtype.value) == Some(Group) ==> GroupAllowed(s, sender, req.businessId.value, req, isValid))
  }

  /** The addressing checks of a one-to-one send, in order. */
  function DirectCheck(s: Store, b: Id, req: SendRequest, isValid: Id -> bool): (st: Status)
    ensures st.Ok? <==> DirectAllowed(s, b, req, isValid)
    ensures !Given(req.receiverId) ==> st == Bad(ReceiverRequired)
    ensures Given(req.receiverId) && isValid(req.receiverId.value) && Given(req.teamId) ==> st == Bad(TeamNotAllowed)
    ensures (Given(req.receiverId) && isValid(req.receiverId.value) && !Given(req.teamId)
             && req.receiverId.value !in s.users) ==> st == Absent(UserKind)
    ensures (Given(req.receiverId) && isValid(req.receiverId.value) && !Given(req.teamId)
             && req.receiverId.value in s.users && !IsBusinessMember(s, b, req.receiverId.value))
            ==> st == Denied(ReceiverNotMember)
  {
    if !Given(req.receiverId) then Bad(ReceiverRequired)
    else if !isValid(req.receiverId.value) then Bad(MalformedId("receiverId"))
    else if Given(req.teamId) then Bad(TeamNotAllowed)
    else if req.receiverId.value !in s.users then Absent(UserKind)
    else if !IsBusinessMember(s, b, req.receiverId.value) then Denied(ReceiverNotMember)
    else Ok
  }

  /** The addressing checks of a group send, in order. */
  function GroupCheck(s: Store, sender: Id, b: Id, req: SendRequest, isValid: Id -> bool): (st: Status)
    ensures st.Ok? <==> GroupAllowed(s, sender, b, req, isValid)
    ensures !Given(req.teamId) ==> st == Bad(TeamRequired)
    ensures Given(req.teamId) && Given(req.receiverId) ==> st == Bad(ReceiverNotAllowed)
    ensures (Given(req.teamId) && !Given(req.receiverId) && isValid(req.teamId.value)
             && req.teamId.value !in s.teams) ==> st == Absent(TeamKind)
    ensures (Given(req.teamId) && !Given(req.receiverId) && isValid(req.teamId.value)
             && req.teamId.value in s.teams && s.teams[req.teamId.value].businessId != b) ==> st == Bad(TeamOutsideBusiness)
    ensures (Given(req.teamId) && !Given(req.receiverId) && isValid(req.teamId.value)
             && req.teamId.value in s.teams && s.teams[req.teamId.value].businessId == b
             && !IsTeamMember(s, req.teamId.value, sender)) ==> st == Denied(NotMember(TeamKind))
  {
    if !Given(req.teamId) then Bad(TeamRequired)
    else if Given(req.receiverId) then Bad(ReceiverNotAllowed)
    else if !isValid(req.teamId.value) then Bad(MalformedId("teamId"))
    else if req.teamId.value !in s.teams then Absent(TeamKind)
    else if s.teams[req.teamId.value].businessId != b then Bad(TeamOutsideBusiness)
    else if !IsTeamMember(s, req.teamId.value, sender) then Denied(NotMember(TeamKind))
    else Ok
  }

  /** The checks of a send in the order the handler runs them; Ok when all
      pass. */
  function Screen(s: Store, sender: Id, req: SendRequest, attachment: Option<string>, isValid: Id -> bool): (st: Status)
    ensures st.Ok? || st.Fail?
    ensures st.Ok? <==> SendAllowed(s, sender, req, attachment, isValid)
    ensures !Given(req.businessId) || !Given(req.mtype) ==> st == Bad(FieldsRequired)
    ensures (Given(req.businessId) && Given(req.mtype) && ParseMessageType(req.mtype.value).None?)
            ==> st == Bad(InvalidEnum("type"))
    ensures (Given(req.businessId) && Given(req.mtype) && ParseMessageType(req.mtype.value).Some?
             && !Given(req.content) && !Given(attachment)) ==> st == Bad(ContentRequired)
    ensures (Basics(sender, req, attachment, isValid) && req.businessId.value !in s.businesses)
            ==> st == Absent(BusinessKind)
    ensures (Basics(sender, req, attachment, isValid) && req.businessId.value in s.businesses
             && !IsBusinessMember(s, req.businessId.value, sender)) ==> st == Denied(NotMember(BusinessKind))
    ensures (Admitted(s, sender, req, attachment, isValid) && ParseMessageType(req.mtype.value) == Some(OneToOne))
            ==> st == DirectCheck(s, req.businessId.value, req, isValid)
    ensures (Admitted(s, sender, req, attachment, isValid) && ParseMessageType(req.mtype.value) == Some(Group))
            ==> st == GroupCheck(s, sender, req.businessId.value, req, isValid)
  {
    if !Given(req.businessId) || !Given(req.mtype) then Bad(FieldsRequired)
    else if ParseMessageType(req.mtype.value).None? then Bad(InvalidEnum("type"))
    else if !Given(req.content) && !Given(attachment) then Bad(ContentRequired)
    else if !isValid(req.businessId.value) then Bad(MalformedId("businessId"))
    else if !isValid(sender) then Bad(MalformedId("senderId"))
    else if req.businessId.value !in s.businesses then Absent(BusinessKind)
    else if !IsBusinessMember(s, req.businessId.value, sender) then Denied(NotMember(BusinessKind))
    else if ParseMessageType(req.mtype.value) == Some(OneToOne) then DirectCheck(s, req.businessId.value, req, isValid)
    else GroupCheck(s, sender, req.businessId.value, req, isValid)
  }

  /** The message the handler saves once every check has passed. */
  function Compose(s: Store, sender: Id, req: SendRequest, attachment: Option<string>, isValid: Id -> bool,
                   now: nat): (m: ChatMessage)
    requires SendAllowed(s, sender, req, attachment, isValid)
    ensures m.businessId == req.businessId.value && m.senderId == sender && m.sentAt == now
    ensures MessageTypeName(m.mtype) == req.mtype.value
    ensures m.receiverId.Some? <==> m.mtype == OneToOne
    ensures m.teamId.Some? <==> m.mtype == Group
    ensures m.receiverId.Some? ==> m.receiverId == req.receiverId && IsBusinessMember(s, m.businessId, m.receiverId.value)
    ensures m.teamId.Some? ==>
      && m.teamId == req.teamId && m.teamId.value in s.teams && s.teams[m.teamId.value].businessId == m.businessId
      && IsTeamMember(s, m.teamId.value, sender)
    ensures !Given(req.content) ==> m.content.None?
    ensures Given(req.content) ==> m.content == req.content
    ensures m.attachment.Some? <==> Given(attachment)
    ensures Given(attachment) ==> m.attachment == attachment
  {
    var t := ParseMessageType(req.mtype.value).value;
    ChatMessage(req.businessId.value, sender,
                if t == OneToOne then req.receiverId else None,
                if t == Group then req.teamId else None,
                if Given(req.content) then req.content else None,
                if Given(attachment) then attachment else None,
                t, now)
  }

  /** What goes wrong after the checks pass: nothing, the save, or the
      reload that populates the saved message for the response. Both
      failures reach the catch-all, which unlinks the upload and answers
      500; after a failed reload the message is already stored. */
  datatype Fault = NoFault | SaveFault | ReloadFault

  /** The end of a send whose checks passed: save `m` under `newId`, then
      reload it, failing as `fault` says. */
  function Settle(s: Store, attachment: Option<string>, fault: Fault, newId: Id, m: ChatMessage): (r: Reply)
    ensures r.status.Created? <==> fault == NoFault
    ensures r.status.Fail? ==> r.status == Fail(ServerError, SaveFailed) && r.store.files == Discard(s, attachment).files
    ensures newId in r.store.messages <==> fault != SaveFault || newId in s.messages
    ensures fault == NoFault ==>
      && r.store == s.(messages := s.messages[newId := m])
      && r.store.files == s.files && newId in r.store.messages && r.store.messages[newId] == m
    ensures fault == SaveFault ==> r.store == Discard(s, attachment)
    ensures fault == ReloadFault ==> r.store == Discard(s, attachment).(messages := s.messages[newId := m])
  {
    match fault
    case NoFault => Reply(Created, s.(messages := s.messages[newId := m]))
    case SaveFault => Reply(Fail(ServerError, SaveFailed), Discard(s, attachment))
    case ReloadFault => Reply(Fail(ServerError, SaveFailed), Discard(s, attachment).(messages := s.messages[newId := m]))
  }

  /** POST /chat-messages by `sender`, after the upload middleware stored
      `attachment` (its path) in `s.files`. */
  function SendMessage(s: Store, sender: Id, req: SendRequest, attachment: Option<string>,
                       isValid: Id -> bool, fault: Fault, now: nat, newId: Id): (r: Reply)
    requires newId !in s.messages
    ensures !r.status.Ok?
    // every failure unlinks the upload
    ensures r.status.Fail? ==> r.store.files == Discard(s, attachment).files
    ensures r.status.Created? <==> SendAllowed(s, sender, req, attachment, isValid) && fault == NoFault
    ensures newId in r.store.messages <==> SendAllowed(s, sender, req, attachment, isValid) && fault != SaveFault
    // the failure, if any, is the first check that fails, else the fault
    ensures !SendAllowed(s, sender, req, attachment, isValid) ==>
      r == Reply(Screen(s, sender, req, attachment, isValid), Discard(s, attachment))
    ensures SendAllowed(s, sender, req, attachment, isValid) ==>
      r == Settle(s, attachment, fault, newId, Compose(s, sender, req, attachment, isValid, now))
  {
    var st := Screen(s, sender, req, attachment, isValid);
    if !st.Ok? then Reply(st, Discard(s, attachment))
    else Settle(s, attachment, fault, newId, Compose(s, sender, req, attachment, isValid, now))
  }

  /** A reload failure answers 500 and unlinks the upload, yet the message
      stays stored and still names the unlinked file. */
  lemma {:induction false} ReloadFaultLeavesDanglingAttachment(s: Store, sender: Id, req: SendRequest,
                                                               attachment: Option<string>, isValid: Id -> bool,
                                                               now: nat, newId: Id)
    requires newId !in s.messages && Given(attachment)
    requires Screen(s, sender, req, attachment, isValid).Ok?
    ensures var r := SendMessage(s, sender, req, attachment, isValid, ReloadFault, now, newId);
      && r.status == Fail(ServerError, SaveFailed)
      && newId in r.store.messages
      && r.store.messages[newId].attachment == attachment
      && attachment.value !in r.store.files
  {
    var r := SendMessage(s, sender, req, attachment, isValid, ReloadFault, now, newId);
    assert r.store.messages[newId] == Compose(s, sender, req, attachment, isValid, now);
  }

  /** Sending keeps the stored messages well-formed: a rejected send only
      unlinks a file, and a saved one stores a composed message. */
  lemma {:induction false} SendKeepsWellFormed(s: Store, sender: Id, req: SendRequest, attachment: Option<string>,
                                               isValid: Id -> bool, fault: Fault, now: nat, newId: Id)
    requires newId !in s.messages && MessagesWellFormed(s)
    ensures MessagesWellFormed(SendMessage(s, sender, req, attachment, isValid, fault, now, newId).store)
  {
    DiscardKeepsWellFormed(s, attachment);
    if SendAllowed(s, sender, req, attachment, isValid) {
      var m := Compose(s, sender, req, attachment, isValid, now);
      AddKeepsWellFormed(s, newId, m);
      AddKeepsWellFormed(Discard(s, attachment), newId, m);
    }
  }

  /** Unlinking an upload leaves the stored messages as they were. */
  lemma {:induction false} DiscardKeepsWellFormed(s: Store, attachment: Option<string>)
    requires MessagesWellFormed(s)
    ensures Discard(s, attachment).messages == s.messages && Discard(s, attachment).teams == s.teams
    ensures MessagesWellFormed(Discard(s, attachment))
  {
  }

  /** Storing a shaped message keeps the store's messages well-formed. */
  lemma {:induction false} AddKeepsWellFormed(s: Store, newId: Id, m: ChatMessage)
    requires MessagesWellFormed(s) && Shaped(m, s.teams)
    ensures MessagesWellFormed(s.(messages := s.messages[newId := m]))
  {
    var s' := s.(messages := s.messages[newId := m]);
    forall k | k in s'.messages
      ensures Shaped(s'.messages[k], s'.teams)
    {
      if k != newId {
        assert s'.messages[k] == s.messages[k];
      }
    }
  }

  // ---------------------------------------------------------------- reads

  /** Whether message m is returned by GET /chat-messages for `caller` with
      the given query. A receiver filter overrides the type a team filter
      asked for, so the two together only match one-to-one messages that
      also carry the team. */
  predicate Selected(s: Store, caller: Id, m: ChatMessage, b: Id, teamId: Option<string>, receiverId: Option<string>)
  {
    && m.businessId == b
    && (Given(teamId) ==> m.teamId == teamId)
    && (Given(teamId) && !Given(receiverId) ==> m.mtype == Group)
    && (Given(receiverId) ==>
          && m.mtype == OneToOne
          && ((m.senderId == caller && m.receiverId == receiverId)
              || (Some(m.senderId) == receiverId && m.receiverId == Some(caller))))
    && (!Given(teamId) && !Given(receiverId) ==>
          || (m.mtype == OneToOne && (m.senderId == caller || m.receiverId == Some(caller)))
          || (m.mtype == Group && m.teamId.Some? && IsTeamMember(s, m.teamId.value, caller)))
  }

  /** GET /chat-messages by `caller`: the selected message ids (ordering is
      done by NewestFirst). */
  function GetMessages(s: Store, caller: Id, businessId: Option<string>, teamId: Option<string>,
                       receiverId: Option<string>, isValid: Id -> bool): (r: Listing)
    ensures r.status.Ok? <==>
      && Given(businessId) && isValid(businessId.value) && IsBusinessMember(s, businessId.value, caller)
      && (Given(teamId) ==> isValid(teamId.value) && IsTeamMember(s, teamId.value, caller))
      && (Given(receiverId) ==> isValid(receiverId.value))
    ensures r.status.Fail? ==> r.rows == {}
    ensures r.status.Ok? ==> forall k :: k in r.rows <==>
      k in s.messages && Selected(s, caller, s.messages[k], businessId.value, teamId, receiverId)
    ensures r.status.Ok? ==> forall k :: k in r.rows ==> s.messages[k].businessId == businessId.value
    ensures !Given(businessId) ==> r.status == Bad(FieldsRequired)
    ensures (Given(businessId) && isValid(businessId.value) && !IsBusinessMember(s, businessId.value, caller))
            ==> r.status == Denied(NotMember(BusinessKind))
    ensures (Given(businessId) && isValid(businessId.value) && IsBusinessMember(s, businessId.value, caller)
             && Given(teamId) && isValid(teamId.value) && !IsTeamMember(s, teamId.value, caller))
            ==> r.status == Denied(NotMember(TeamKind))
  {
    if !Given(businessId) then Listing(Bad(FieldsRequired), {})
    else if !isValid(businessId.value) then Listing(Bad(MalformedId("businessId")), {})
    else if !IsBusinessMember(s, businessId.value, caller) then Listing(Denied(NotMember(BusinessKind)), {})
    else if Given(teamId) && !isValid(teamId.value) then Listing(Bad(MalformedId("teamId")), {})
    else if Given(teamId) && !IsTeamMember(s, teamId.value, caller) then Listing(Denied(NotMember(TeamKind)), {})
    else if Given(receiverId) && !isValid(receiverId.value) then Listing(Bad(MalformedId("receiverId")), {})
    else Listing(Ok, set k | k in s.messages && Selected(s, caller, s.messages[k], businessId.value, teamId, receiverId))
  }

  /** In a well-formed store, asking for a team and a receiver at once
      finds nothing: one-to-one messages never carry a team. */
  lemma {:induction false} BothFiltersFindNothing(s: Store, caller: Id, b: string, t: string, rcv: string,
                                                  isValid: Id -> bool)
    requires MessagesWellFormed(s) && t != "" && rcv != ""
    ensures GetMessages(s, caller, Some(b), Some(t), Some(rcv), isValid).rows == {}
  {
    forall k | k in s.messages
      ensures !Selected(s, caller, s.messages[k], b, Some(t), Some(rcv))
    {
    }
  }

  /** A one-to-one message that was sent shows up in the receiver's default
      view of the business, and a group message in that of every member of
      the team who belongs to the business. */
  lemma {:induction false} SentMessageIsVisible(s: Store, sender: Id, req: SendRequest, attachment: Option<string>,
                                                isValid: Id -> bool, now: nat, newId: Id, reader: Id)
    requires newId !in s.messages
    requires SendMessage(s, sender, req, attachment, isValid, NoFault, now, newId).status.Created?
    requires var m := Compose(s, sender, req, attachment, isValid, now);
      || (m.mtype == OneToOne && reader == req.receiverId.value)
      || (m.mtype == Group && IsTeamMember(s, req.teamId.value, reader) && IsBusinessMember(s, m.businessId, reader))
    ensures var s' := SendMessage(s, sender, req, attachment, isValid, NoFault, now, newId).store;
      newId in GetMessages(s', reader, req.businessId, None, None, isValid).rows
  {
    var s' := SendMessage(s, sender, req, attachment, isValid, NoFault, now, newId).store;
    var m := s'.messages[newId];
    assert IsBusinessMember(s', m.businessId, reader) by {
      if m.mtype == OneToOne {
        assert IsBusinessMember(s, m.businessId, m.receiverId.value);
      }
    }
    assert Selected(s', reader, m, req.businessId.value, None, None);
  }

  /** DELETE /chat-messages/:id by `caller`: only the sender may delete, and
      the attachment file goes with the message (a failed unlink is
      ignored). */
  function DeleteMessage(s: Store, caller: Id, id: Id, isValid: Id -> bool): (r: Reply)
    ensures r.status.Fail? ==> r.store == s
    ensures !isValid(id) ==> r.status == Bad(MalformedId("id"))
    ensures !r.status.Created?
    ensures r.status.Ok? <==> isValid(id) && id in s.messages && s.messages[id].senderId == caller
    ensures r.status.Ok? ==>
      r.store == Discard(s, s.messages[id].attachment).(messages := s.messages - {id})
    ensures isValid(id) && id !in s.messages ==> r.status == Absent(MessageKind)
    ensures isValid(id) && id in s.messages && s.messages[id].senderId != caller ==> r.status == Denied(NotSender)
    ensures MessagesWellFormed(s) ==> MessagesWellFormed(r.store)
  {
    if !isValid(id) then Reply(Bad(MalformedId("id")), s)
    else if id !in s.messages then Reply(Absent(MessageKind), s)
    else if s.messages[id].senderId != caller then Reply(Denied(NotSender), s)
    else Reply(Ok, Discard(s, s.messages[id].attachment).(messages := s.messages - {id}))
  }

  /** GET /chat-messages/business/:businessId by `caller`. */
  function GetAllBusinessMessages(s: Store, caller: Id, b: Id, isValid: Id -> bool): (r: Listing)
    ensures r.status.Ok? <==> isValid(b) && b in s.businesses && IsBusinessMember(s, b, caller)
    ensures r.status.Fail? ==> r.rows == {}
    ensures r.status.Ok? ==> forall k :: k in r.rows <==> k in s.messages && s.messages[k].businessId == b
    ensures isValid(b) && b !in s.businesses ==> r.status == Absent(BusinessKind)
    ensures isValid(b) && b in s.businesses && !IsBusinessMember(s, b, caller) ==> r.status == Denied(NotMember(BusinessKind))
  {
    if !isValid(b) then Listing(Bad(MalformedId("businessId")), {})
    else if b !in s.businesses then Listing(Absent(BusinessKind), {})
    else if !IsBusinessMember(s, b, caller) then Listing(Denied(NotMember(BusinessKind)), {})
    else Listing(Ok, set k | k in s.messages && s.messages[k].businessId == b)
  }

  // ------------------------------------------------------------- ordering

  /** A message in `ids` with the latest `sentAt`. */
  method Newest(msgs: map<Id, ChatMessage>, ids: set<Id>) returns (k: Id)
    requires ids != {} && ids <= msgs.Keys
    ensures k in ids
    ensures forall j :: j in ids ==> msgs[j].sentAt <= msgs[k].sentAt
  {
    k :| k in ids;
    var rest := ids - {k};
    while rest != {}
      invariant rest <= ids && k in ids
      invariant forall j :: j in ids && j !in rest ==> msgs[j].sentAt <= msgs[k].sentAt
      decreases |rest|
    {
      var j :| j in rest;
      if msgs[j].sentAt > msgs[k].sentAt {
        k := j;
      }
      rest := rest - {j};
    }
  }

  /** The `.sort({ sentAt: -1 })` of a result: every selected id exactly
      once, newest first. */
  method NewestFirst(msgs: map<Id, ChatMessage>, ids: set<Id>) returns (order: seq<Id>)
    requires ids <= msgs.Keys
    ensures forall k :: k in order <==> k in ids
    ensures |order| == |ids|
    ensures forall i, j :: 0 <= i < j < |order| ==> order[i] != order[j]
    ensures forall i, j :: 0 <= i < j < |order| ==> msgs[order[i]].sentAt >= msgs[order[j]].sentAt
  {
    var rest := ids;
    order := [];
    while rest != {}
      invariant rest <= ids
      invariant forall k :: k in order <==> k in ids && k !in rest
      invariant |order| + |rest| == |ids|
      invariant forall i, j :: 0 <= i < j < |order| ==> order[i] != order[j]
      invariant forall i, j :: 0 <= i < j < |order| ==> msgs[order[i]].sentAt >= msgs[order[j]].sentAt
      invariant forall i, k :: 0 <= i < |order| && k in rest ==> msgs[order[i]].sentAt >= msgs[k].sentAt
      decreases |rest|
    {
      var k := Newest(msgs, rest);
      order := order + [k];
      rest := rest - {k};
    }
  }

  /** GET /chat-messages with its sort: the selected messages, each once,
      newest first, or no rows when a check fails. */
  method ReadMessages(s: Store, caller: Id, businessId: Option<string>, teamId: Option<string>,
                      receiverId: Option<string>, isValid: Id -> bool) returns (status: Status, order: seq<Id>)
    ensures status.Ok? <==>
      && Given(businessId) && isValid(businessId.value) && IsBusinessMember(s, businessId.value, caller)
      && (Given(teamId) ==> isValid(teamId.value) && IsTeamMember(s, teamId.value, caller))
      && (Given(receiverId) ==> isValid(receiverId.value))
    ensures !status.Ok? ==> order == []
    ensures status.Ok? ==> forall k :: k in order <==>
      k in s.messages && Selected(s, caller, s.messages[k], businessId.value, teamId, receiverId)
    ensures forall i, j :: 0 <= i < j < |order| ==> order[i] != order[j]
    ensures forall i, j :: 0 <= i < j < |order| ==>
      order[i] in s.messages && order[j] in s.messages && s.messages[order[i]].sentAt >= s.messages[order[j]].sentAt
  {
    var listing := GetMessages(s, caller, businessId, teamId, receiverId, isValid);
    status := listing.status;
    order := NewestFirst(s.messages, listing.rows);
  }

  /** GET /chat-messages/business/:businessId with its sort: every message
      of the business, each once, newest first. */
  method ReadBusinessMessages(s: Store, caller: Id, b: Id, isValid: Id -> bool) returns (status: Status, order: seq<Id>)
    ensures status.Ok? <==> isValid(b) && b in s.businesses && IsBusinessMember(s, b, caller)
    ensures !status.Ok? ==> order == []
    ensures status.Ok? ==> forall k :: k in order <==> k in s.messages && s.messages[k].businessId == b
    ensures forall i, j :: 0 <= i < j < |order| ==> order[i] != order[j]
    ensures forall i, j :: 0 <= i < j < |order| ==>
      order[i] in s.messages && order[j] in s.messages && s.messages[order[i]].sentAt >= s.messages[order[j]].sentAt
  {
    var listing := GetAllBusinessMessages(s, caller, b, isValid);
    status := listing.status;
    order := NewestFirst(s.messages, listing.rows);
  }

  /** A message just sent is among the business's messages its sender reads
      back. */
  lemma {:induction false} SentMessageInBusinessListing(s: Store, sender: Id, req: SendRequest, attachment: Option<string>,
                                                        isValid: Id -> bool, fault: Fault, now: nat, newId: Id)
    requires newId !in s.messages
    requires SendMessage(s, sender, req, attachment, isValid, fault, now, newId).status.Created?
    ensures var s' := SendMessage(s, sender, req, attachment, isValid, fault, now, newId).store;
      var l := GetAllBusinessMessages(s', sender, req.businessId.value, isValid);
      l.status.Ok? && newId in l.rows
  {
    var s' := SendMessage(s, sender, req, attachment, isValid, fault, now, newId).store;
    var m := Compose(s, sender, req, attachment, isValid, now);
    assert s' == s.(messages := s.messages[newId := m]);
    assert IsBusinessMember(s', req.businessId.value, sender);
  }

  /** A created message is the sender's, carries the attachment when one was
      given, and leaves the files on disk as they were. */
  lemma {:induction false} CreatedMessageCarries(s: Store, sender: Id, req: SendRequest, attachment: Option<string>,
                                                 isValid: Id -> bool, fault: Fault, now: nat, newId: Id)
    requires newId !in s.messages
    ensures var r := SendMessage(s, sender, req, attachment, isValid, fault, now, newId);
      r.status.Created? ==>
        && r.store.files == s.files && newId in r.store.messages
        && r.store.messages[newId].senderId == sender
        && r.store.messages[newId].attachment == (if Given(attachment) then attachment else None)
  {
    var r := SendMessage(s, sender, req, attachment, isValid, fault, now, newId);
    assert r.status.Created? ==> r.store.messages[newId] == Compose(s, sender, req, attachment, isValid, now);
  }
}

=== FILE: chat_uploads.dfy ===
/** The POST /chat-messages route: the auth middleware, then a single-file
    upload under the field `attachment` (a type filter, a size limit and a
    generated file name), then the send handler. The disk is the store's
    set of file paths; the clock and the random draw are parameters. */
module ChatUploads {
  import opened Common
  import opened Db
  import opened AuthCheck
  import opened ChatMessages
  import UserAccounts

  /** The MIME types the filter lets through. */
  const AllowedTypes: seq<string> := ["image/jpeg", "image/jpg", "image/png", "application/pdf"]

  /** The upload limit in bytes: 5 MiB. */
  const MaxFileSize: nat := 5 * 1024 * 1024

  function FileFilter(mimetype: string): (ok: bool)
    ensures ok <==> mimetype == "image/jpeg" || mimetype == "image/jpg" || mimetype == "image/png"
                    || mimetype == "application/pdf"
  {
    mimetype in AllowedTypes
  }

  /** `name.split('.').pop()`: the longest suffix of `name` without a dot,
      which is the whole name when it has no dot. */
  function Extension(name: string): (e: string)
    ensures '.' !in e
    ensures |e| <= |name| && e == name[|name| - |e|..]
    ensures |e| < |name| ==> name[|name| - |e| - 1] == '.'
    ensures '.' !in name ==> e == name
  {
    if |name| == 0 then ""
    else if name[|name| - 1] == '.' then ""
    else
      var e := Extension(name[..|name| - 1]);
      assert name[..|name| - 1][|name| - 1 - |e|..] + [name[|name| - 1]] == name[|name| - 1 - |e|..];
      e + [name[|name| - 1]]
  }

  /** The extension of a dotted name is what follows its last dot. */
  lemma {:induction false} ExtensionOfDotted(base: string, ext: string)
    requires '.' !in ext
    ensures Extension(base + "." + ext) == ext
  {
    if |ext| > 0 {
      var n := base + "." + ext;
      var init := ext[..|ext| - 1];
      assert n[..|n| - 1] == base + "." + init;
      assert n[|n| - 1] == ext[|ext| - 1] && ext[|ext| - 1] != '.';
      assert Extension(n) == Extension(n[..|n| - 1]) + [n[|n| - 1]];
      ExtensionOfDotted(base, init);
      assert init + [ext[|ext| - 1]] == ext;
    }
  }

  /** `Date.now() + '-' + Math.round(Math.random() * 1e9)` for the clock
      reading `now` and the rounded draw `draw`: two runs of digits joined by
      a dash, from which both numbers can be read back. It holds no dot, so
      it never disturbs the extension of the name it goes into. */
  function Suffix(now: nat, draw: nat): (r: string)
    ensures var k := |UserAccounts.DecimalString(now)|;
      && 0 < k < |r| - 1 && r[k] == '-'
      && UserAccounts.AllDigits(r[..k]) && UserAccounts.AllDigits(r[k + 1..])
      && UserAccounts.DecimalValue(r[..k]) == now && UserAccounts.DecimalValue(r[k + 1..]) == draw
    ensures '.' !in r
  {
    var a, b := UserAccounts.DecimalString(now), UserAccounts.DecimalString(draw);
    UserAccounts.DecimalRoundTrip(now);
    UserAccounts.DecimalRoundTrip(draw);
    var r := a + "-" + b;
    assert r[..|a|] == a && r[|a| + 1..] == b;
    assert forall i :: 0 <= i < |r| ==> r[i] == '-' || UserAccounts.IsDigit(r[i]) by {
      forall i | 0 <= i < |r|
        ensures r[i] == '-' || UserAccounts.IsDigit(r[i])
      {
        if i < |a| { assert r[i] == a[i]; }
        else if i > |a| { assert r[i] == b[i - |a| - 1]; }
      }
    }
    r
  }

  /** The disk storage's file name: field name, suffix and the original
      extension. */
  function StoredName(fieldname: string, suffix: string, originalname: string): (n: string)
    ensures Extension(n) == Extension(originalname)
  {
    ExtensionOfDotted(fieldname + "-" + suffix, Extension(originalname));
    fieldname + "-" + suffix + "." + Extension(originalname)
  }

  /** A name without a dot keeps its whole text as extension, so the stored
      name repeats it after the dot. */
  lemma {:induction false} UndottedNameIsItsExtension(fieldname: string, suffix: string, originalname: string)
    requires '.' !in originalname
    ensures StoredName(fieldname, suffix, originalname) == fieldname + "-" + suffix + "." + originalname
  {
  }

  /** The file part of a multipart request. */
  datatype Upload = Upload(fieldname: string, originalname: string, mimetype: string, size: nat)

  /** The only field the route accepts a file under. */
  const UploadField: string := "attachment"

  /** Where the file goes on disk: the uploads directory, a separator, then
      the stored name. */
  function UploadPath(dir: string, f: Upload, now: nat, draw: nat): (p: string)
    ensures |p| > |dir| + 1 && p[..|dir| + 1] == dir + "/"
    ensures p[|dir| + 1..] == StoredName(f.fieldname, Suffix(now, draw), f.originalname)
  {
    var n := StoredName(f.fieldname, Suffix(now, draw), f.originalname);
    assert (dir + "/" + n)[..|dir| + 1] == dir + "/";
    dir + "/" + n
  }

  /** The path on disk keeps the original file's extension. */
  lemma {:induction false} UploadPathKeepsExtension(dir: string, f: Upload, now: nat, draw: nat)
    ensures Extension(UploadPath(dir, f, now, draw)) == Extension(f.originalname)
  {
    var a := f.fieldname + "-" + Suffix(now, draw);
    var e := Extension(f.originalname);
    PlacedNameKeepsExtension(dir, a, e);
    assert UploadPath(dir, f, now, draw) == dir + "/" + (a + "." + e);
  }

  /** A dotted name placed under a directory keeps its extension. */
  lemma {:induction false} PlacedNameKeepsExtension(dir: string, base: string, ext: string)
    requires '.' !in ext
    ensures Extension(dir + "/" + (base + "." + ext)) == ext
  {
    assert dir + "/" + (base + "." + ext) == (dir + "/" + base) + "." + ext;
    ExtensionOfDotted(dir + "/" + base, ext);
  }

  /** What the upload middleware hands on: no file, a stored file at a
      path, or an error. */
  datatype Uploaded = NoFile | Stored(path: string) | UploadError(status: Status)

  /** `upload.single('attachment')`: no file, or a file under another field
      (an unexpected field), the filter, then the size limit (a file over it
      is cut off and removed), then the generated path. Every error goes to
      the default error handler, which answers 500. */
  function Intake(file: Option<Upload>, dir: string, now: nat, draw: nat): (r: Uploaded)
    ensures file.None? <==> r.NoFile?
    ensures r.Stored? <==>
      && file.Some? && file.value.fieldname == UploadField
      && FileFilter(file.value.mimetype) && file.value.size <= MaxFileSize
    ensures r.Stored? ==> r.path == UploadPath(dir, file.value, now, draw)
    ensures r.UploadError? ==> r.status == Fail(ServerError, UploadRejected)
  {
    if file.None? then NoFile
    else if file.value.fieldname != UploadField then UploadError(Fail(ServerError, UploadRejected))
    else if !FileFilter(file.value.mimetype) || file.value.size > MaxFileSize then
      UploadError(Fail(ServerError, UploadRejected))
    else Stored(UploadPath(dir, file.value, now, draw))
  }

  /** The filter looks only at the declared MIME type, while the stored
      extension comes from the file name: a file of an allowed type keeps
      whatever extension its name has, "exe" included. */
  lemma {:induction false} AcceptedTypeKeepsAnyExtension(base: string, ext: string, mimetype: string, size: nat,
                                                         dir: string, now: nat, draw: nat)
    requires '.' !in ext && FileFilter(mimetype) && size <= MaxFileSize
    ensures var r := Intake(Some(Upload(UploadField, base + "." + ext, mimetype, size)), dir, now, draw);
      r.Stored? && Extension(r.path) == ext
  {
    UploadPathKeepsExtension(dir, Upload(UploadField, base + "." + ext, mimetype, size), now, draw);
    ExtensionOfDotted(base, ext);
  }

  /** What follows a successful auth: the upload, which adds the stored
      file to the disk, then the send handler as the signed-in user
      `sender`. */
  function Deliver(s: Store, sender: Id, file: Option<Upload>, dir: string, now: nat, draw: nat,
                   req: SendRequest, isValid: Id -> bool, fault: Fault, newId: Id): (r: Reply)
    requires newId !in s.messages
    ensures (file.Some? && !(file.value.fieldname == UploadField && FileFilter(file.value.mimetype)
                             && file.value.size <= MaxFileSize))
            ==> r == Reply(Fail(ServerError, UploadRejected), s)
    ensures file.None? ==> r == SendMessage(s, sender, req, None, isValid, fault, now, newId)
  {
    match Intake(file, dir, now, draw)
    case UploadError(st) => Reply(st, s)
    case NoFile => SendMessage(s, sender, req, None, isValid, fault, now, newId)
    case Stored(p) => SendMessage(s.(files := s.files + {p}), sender, req, Some(p), isValid, fault, now, newId)
  }

  /** A failed request leaves no new file behind, provided the generated
      path was not taken. */
  lemma {:induction false} FailedDeliveryLeavesNoFile(s: Store, sender: Id, file: Option<Upload>, dir: string,
                                                      now: nat, draw: nat, req: SendRequest, isValid: Id -> bool,
                                                      fault: Fault, newId: Id)
    requires newId !in s.messages
    requires file.Some? ==> UploadPath(dir, file.value, now, draw) !in s.files
    ensures var r := Deliver(s, sender, file, dir, now, draw, req, isValid, fault, newId);
      r.status.Fail? ==> r.store.files == s.files
  {
    var up := Intake(file, dir, now, draw);
    if up.Stored? {
      SendDropsFreshUpload(s, sender, req, up.path, isValid, fault, now, newId);
    }
  }

  /** The send handler unlinks an upload it rejects, so a path that was new
      before the upload is gone again. */
  lemma {:induction false} SendDropsFreshUpload(s: Store, sender: Id, req: SendRequest, p: string,
                                                isValid: Id -> bool, fault: Fault, now: nat, newId: Id)
    requires newId !in s.messages && p != "" && p !in s.files
    ensures var r := SendMessage(s.(files := s.files + {p}), sender, req, Some(p), isValid, fault, now, newId);
      r.status.Fail? ==> r.store.files == s.files
  {
    var s' := s.(files := s.files + {p});
    assert s'.files - {p} == s.files;
  }

  /** A created message is the signed-in user's, and carries the stored
      upload when there was one. */
  lemma {:induction false} DeliveredMessageCarriesUpload(s: Store, sender: Id, file: Option<Upload>, dir: string,
                                                         now: nat, draw: nat, req: SendRequest, isValid: Id -> bool,
                                                         fault: Fault, newId: Id)
    requires newId !in s.messages
    ensures var r := Deliver(s, sender, file, dir, now, draw, req, isValid, fault, newId);
      r.status.Created? ==>
        && newId in r.store.messages
        && r.store.messages[newId].senderId == sender
        && (file.Some? ==> && UploadPath(dir, file.value, now, draw) in r.store.files
                           && r.store.messages[newId].attachment == Some(UploadPath(dir, file.value, now, draw)))
        && (file.None? ==> r.store.messages[newId].attachment.None? && r.store.files == s.files)
  {
    match Intake(file, dir, now, draw)
    case UploadError(_) =>
    case NoFile =>
      CreatedMessageCarries(s, sender, req, None, isValid, fault, now, newId);
    case Stored(p) =>
      assert Given(Some(p));
      CreatedMessageCarries(s.(files := s.files + {p}), sender, req, Some(p), isValid, fault, now, newId);
  }

  /** The route: auth, then the upload and the send handler. */
  function PostMessage(s: Store, header: Option<string>, verify: string -> Option<Caller>,
                       file: Option<Upload>, dir: string, now: nat, draw: nat,
                       req: SendRequest, isValid: Id -> bool, fault: Fault, newId: Id): (r: Reply)
    requires newId !in s.messages
    // a rejected token stops the request before any file is stored
    ensures Auth(header, verify).Rejected? ==> r == Reply(Auth(header, verify).status, s)
    ensures Auth(header, verify).Authenticated? ==>
      r == Deliver(s, Auth(header, verify).caller.id, file, dir, now, draw, req, isValid, fault, newId)
    ensures r.status.Created? ==> Auth(header, verify).Authenticated?
  {
    match Auth(header, verify)
    case Rejected(st) => Reply(st, s)
    case Authenticated(c) => Deliver(s, c.id, file, dir, now, draw, req, isValid, fault, newId)
  }
}

=== FILE: common.dfy ===
/** Vocabulary shared by every controller: identifiers, optional request
    fields read with JavaScript truthiness, and the HTTP status a handler
    answers with, tagged by the check that decided it. */
module Common {

  /** A document identifier as it travels in requests and is stored in
      references (the text form of a Mongo ObjectId). */
  type Id = string

  datatype Option<+T> = None | Some(value: T)

  /** A request field read with JavaScript truthiness: `undefined`, `null`
      and the empty string are all falsy, any other string is truthy. */
  predicate Given(f: Option<string>)
  {
    f.Some? && f.value != ""
  }

  /** The value of a field that `Given` accepted. */
  function Value(f: Option<string>): string
    requires Given(f)
  {
    f.value
  }

  /** The kinds of record a check can be about. */
  datatype Kind =
    | UserKind | BusinessKind | TeamKind | ProjectKind | RoleKind | PermissionKind | RolePermissionKind
    | BusinessMembershipKind | TeamMembershipKind | ProjectMembershipKind
    | MilestoneKind | MessageKind

  /** The tag naming the check that rejected a request. */
  datatype Check =
    | BodyRequired                 // the request carried no body at all
    | FieldsRequired               // a required field is falsy
    | NothingToUpdate              // an update supplied none of its fields
    | MalformedId(field: string)   // ObjectId.isValid rejected the field
    | InvalidEnum(field: string)   // a value outside the field's enumeration
    | Missing(kind: Kind)          // a referenced record does not exist
    | TargetProjectMissing         // the project a membership would move to is gone
    | Duplicate(kind: Kind)        // a uniqueness key is already held
    | NotInTeam                    // a project member must be a member of the project's team
    | TeamOutsideBusiness          // the team belongs to another business
    | NotMember(kind: Kind)        // the caller holds no membership of the container
    | ReceiverNotMember            // the receiver holds no membership of the business
    | ContentRequired              // a message with neither content nor attachment
    | ReceiverRequired | TeamRequired | TeamNotAllowed | ReceiverNotAllowed
    | AssigneesNotArray
    | MalformedAssignee(id: Id)
    | AssigneeNotMember(id: Id)
    | NotSender                    // only the sender may delete a message
    | NotOwnerOrAdmin              // only the owner or an admin may delete a business
    | PermissionInUse              // a permission still referenced by a role
    | InvalidCredentials
    | InvalidOtp
    | NoToken | BadToken
    | AdminRequired | AdminOrSuperadminRequired
    | CastFailed                   // a malformed id reached a lookup unchecked
    | MailFailed
    | SaveFailed
    | UploadRejected

  datatype ErrorCode = BadRequest | Unauthorized | Forbidden | NotFound | ServerError

  /** What a handler answers. */
  datatype Status = Ok | Created | Fail(code: ErrorCode, why: Check)

  /** The numeric HTTP status of a reply. */
  function HttpCode(st: Status): (n: nat)
    ensures 200 <= n < 600
    ensures n < 300 <==> !st.Fail?
  {
    match st
    case Ok => 200
    case Created => 201
    case Fail(code, _) =>
      match code
      case BadRequest => 400
      case Unauthorized => 401
      case Forbidden => 403
      case NotFound => 404
      case ServerError => 500
  }

  function Bad(why: Check): Status { Fail(BadRequest, why) }
  function Absent(kind: Kind): Status { Fail(NotFound, Missing(kind)) }
  function Denied(why: Check): Status { Fail(Forbidden, why) }
}

=== FILE: db.dfy ===
/** The document store every controller reads and writes, as one immutable
    record of maps from ids to documents, together with the enumerations
    the controllers validate and the lookups and uniqueness keys they
    query. Field names and enumerations follow the controllers where the
    schema files disagree with them. */
module Db {
  import opened Common

  // ---------------------------------------------------------------- enums

  /** Business types accepted by the business controller (it lists
      'Data Engineer', which the schema file lacks). */
  datatype BusinessType = Factory | Shop | DairyFarm | School | DataEngineer | OtherType

  function BusinessTypeName(t: BusinessType): string
  {
    match t
    case Factory => "Factory"
    case Shop => "Shop"
    case DairyFarm => "Dairy Farm"
    case School => "School"
    case DataEngineer => "Data Engineer"
    case OtherType => "Other"
  }

  function ParseBusinessType(s: string): (r: Option<BusinessType>)
    ensures r.Some? <==> s in ["Factory", "Shop", "Dairy Farm", "School", "Data Engineer", "Other"]
    ensures r.Some? ==> BusinessTypeName(r.value) == s
  {
    if s == "Factory" then Some(Factory)
    else if s == "Shop" then Some(Shop)
    else if s == "Dairy Farm" then Some(DairyFarm)
    else if s == "School" then Some(School)
    else if s == "Data Engineer" then Some(DataEngineer)
    else if s == "Other" then Some(OtherType)
    else None
  }

  /** The scope a role applies to. */
  datatype Scope = BusinessScope | TeamScope | ProjectScope

  function ScopeName(sc: Scope): string
  {
    match sc
    case BusinessScope => "business"
    case TeamScope => "team"
    case ProjectScope => "project"
  }

  function ParseScope(s: string): (r: Option<Scope>)
    ensures r.Some? <==> s in ["business", "team", "project"]
    ensures r.Some? ==> ScopeName(r.value) == s
  {
    if s == "business" then Some(BusinessScope)
    else if s == "team" then Some(TeamScope)
    else if s == "project" then Some(ProjectScope)
    else None
  }

  /** Status of a business membership. */
  datatype MemberStatus = StatusActive | StatusInactive | StatusPending

  function MemberStatusName(st: MemberStatus): string
  {
    match st
    case StatusActive => "active"
    case StatusInactive => "inactive"
    case StatusPending => "pending"
  }

  function ParseMemberStatus(s: string): (r: Option<MemberStatus>)
    ensures r.Some? <==> s in ["active", "inactive", "pending"]
    ensures r.Some? ==> MemberStatusName(r.value) == s
  {
    if s == "active" then Some(StatusActive)
    else if s == "inactive" then Some(StatusInactive)
    else if s == "pending" then Some(StatusPending)
    else None
  }

  /** Progress of a project or a milestone. */
  datatype WorkStatus = WorkPending | WorkInProgress | WorkCompleted

  function WorkStatusName(st: WorkStatus): string
  {
    match st
    case WorkPending => "pending"
    case WorkInProgress => "in_progress"
    case WorkCompleted => "completed"
  }

  function ParseWorkStatus(s: string): (r: Option<WorkStatus>)
    ensures r.Some? <==> s in ["pending", "in_progress", "completed"]
    ensures r.Some? ==> WorkStatusName(r.value) == s
  {
    if s == "pending" then Some(WorkPending)
    else if s == "in_progress" then Some(WorkInProgress)
    else if s == "completed" then Some(WorkCompleted)
    else None
  }

  datatype MessageType = OneToOne | Group

  function MessageTypeName(t: MessageType): string
  {
    match t
    case OneToOne => "one-to-one"
    case Group => "group"
  }

  function ParseMessageType(s: string): (r: Option<MessageType>)
    ensures r.Some? <==> s in ["one-to-one", "group"]
    ensures r.Some? ==> MessageTypeName(r.value) == s
  {
    if s == "one-to-one" then Some(OneToOne)
    else if s == "group" then Some(Group)
    else None
  }

  /** Each enumeration's name parses back to the value it names. */
  lemma EnumNamesParse(t: BusinessType, sc: Scope, ms: MemberStatus, ws: WorkStatus, mt: MessageType)
    ensures ParseBusinessType(BusinessTypeName(t)) == Some(t)
    ensures ParseScope(ScopeName(sc)) == Some(sc)
    ensures ParseMemberStatus(MemberStatusName(ms)) == Some(ms)
    ensures ParseWorkStatus(WorkStatusName(ws)) == Some(ws)
    ensures ParseMessageType(MessageTypeName(mt)) == Some(mt)
  {
  }

  // ------------------------------------------------------------ documents

  /** A user; `role` is free text ('user' by default, 'admin' after set-role). */
  datatype User = User(fullName: string, email: string, passwordHash: string, role: string)

  datatype Business = Business(name: string, btype: BusinessType, superAdminUserId: Id)

  datatype Team = Team(businessId: Id, name: string)

  datatype Project = Project(businessId: Id, teamId: Id, projectName: string,
                             description: Option<string>, status: WorkStatus)

  datatype Role = Role(name: string, scope: Scope)

  datatype Permission = Permission(name: string, description: Option<string>)

  datatype RolePermission = RolePermission(roleId: Id, permissionId: Id)

  datatype BusinessMembership = BusinessMembership(businessId: Id, userId: Id, roleId: Id, status: MemberStatus)

  datatype TeamMembership = TeamMembership(teamId: Id, userId: Id, roleId: Id)

  datatype ProjectMembership = ProjectMembership(projectId: Id, userId: Id, roleId: Id)

  /** A milestone; the controller's `name` and `assignedTo` (the schema file
      has `milestoneName` and no assignees). `dueDate` is kept as given. */
  datatype Milestone = Milestone(projectId: Id, name: string, description: Option<string>,
                                 dueDate: Option<string>, status: WorkStatus, assignedTo: seq<Id>)

  /** A chat message; `sentAt` is the clock reading at creation. */
  datatype ChatMessage = ChatMessage(businessId: Id, senderId: Id, receiverId: Option<Id>, teamId: Option<Id>,
                                     content: Option<string>, attachment: Option<string>,
                                     mtype: MessageType, sentAt: nat)

  /** The whole persistent state: one map per collection, the set of file
      paths present in the upload directory, and the in-process map from
      email to the last one-time password issued for it. */
  datatype Store = Store(
    users: map<Id, User>,
    businesses: map<Id, Business>,
    teams: map<Id, Team>,
    projects: map<Id, Project>,
    roles: map<Id, Role>,
    permissions: map<Id, Permission>,
    rolePermissions: map<Id, RolePermission>,
    businessMemberships: map<Id, BusinessMembership>,
    teamMemberships: map<Id, TeamMembership>,
    projectMemberships: map<Id, ProjectMembership>,
    milestones: map<Id, Milestone>,
    messages: map<Id, ChatMessage>,
    files: set<string>,
    otps: map<string, string>)

  /** What a mutating handler produces: a status and the store after it. */
  datatype Reply = Reply(status: Status, store: Store)

  /** What a listing handler produces: a status and the ids it returns. */
  datatype Listing = Listing(status: Status, rows: set<Id>)

  /** The authenticated caller, as decoded from the bearer token. */
  datatype Caller = Caller(id: Id, role: string)

  // -------------------------------------------------------------- lookups

  /** `findOne({ email })` answered `found`. */
  predicate FoundByEmail(users: map<Id, User>, email: string, found: Option<Id>)
  {
    && (found.None? ==> forall k :: k in users ==> users[k].email != email)
    && (found.Some? ==> found.value in users && users[found.value].email == email)
  }

  predicate EmailTaken(users: map<Id, User>, email: string)
  {
    exists k :: k in users && users[k].email == email
  }

  /** Some row other than `except` binds user `u` to business `b`. */
  predicate BusinessPairHeld(m: map<Id, BusinessMembership>, b: Id, u: Id, except: Option<Id>)
  {
    exists k :: k in m && Some(k) != except && m[k].businessId == b && m[k].userId == u
  }

  predicate TeamPairHeld(m: map<Id, TeamMembership>, t: Id, u: Id, except: Option<Id>)
  {
    exists k :: k in m && Some(k) != except && m[k].teamId == t && m[k].userId == u
  }

  predicate ProjectPairHeld(m: map<Id, ProjectMembership>, p: Id, u: Id, except: Option<Id>)
  {
    exists k :: k in m && Some(k) != except && m[k].projectId == p && m[k].userId == u
  }

  predicate RolePermissionHeld(m: map<Id, RolePermission>, role: Id, perm: Id, except: Option<Id>)
  {
    exists k :: k in m && Some(k) != except && m[k].roleId == role && m[k].permissionId == perm
  }

  predicate TeamNameHeld(m: map<Id, Team>, b: Id, name: string, except: Option<Id>)
  {
    exists k :: k in m && Some(k) != except && m[k].businessId == b && m[k].name == name
  }

  predicate ProjectNameHeld(m: map<Id, Project>, b: Id, name: string, except: Option<Id>)
  {
    exists k :: k in m && Some(k) != except && m[k].businessId == b && m[k].projectName == name
  }

  predicate RoleHeld(m: map<Id, Role>, name: string, scope: Scope)
  {
    exists k :: k in m && m[k].name == name && m[k].scope == scope
  }

  predicate PermissionNameHeld(m: map<Id, Permission>, name: string, except: Option<Id>)
  {
    exists k :: k in m && Some(k) != except && m[k].name == name
  }

  predicate IsBusinessMember(s: Store, b: Id, u: Id)
  {
    BusinessPairHeld(s.businessMemberships, b, u, None)
  }

  predicate IsTeamMember(s: Store, t: Id, u: Id)
  {
    TeamPairHeld(s.teamMemberships, t, u, None)
  }

  predicate IsProjectMember(s: Store, p: Id, u: Id)
  {
    ProjectPairHeld(s.projectMemberships, p, u, None)
  }

  // ------------------------------------------------------ uniqueness keys

  predicate UniqueEmails(m: map<Id, User>)
  {
    forall i, j :: i in m && j in m && m[i].email == m[j].email ==> i == j
  }

  /** (businessId, userId) identifies a business membership. */
  predicate UniqueBusinessMemberships(m: map<Id, BusinessMembership>)
  {
    forall i, j :: i in m && j in m && m[i].businessId == m[j].businessId && m[i].userId == m[j].userId ==> i == j
  }

  /** (teamId, userId) identifies a team membership. */
  predicate UniqueTeamMemberships(m: map<Id, TeamMembership>)
  {
    forall i, j :: i in m && j in m && m[i].teamId == m[j].teamId && m[i].userId == m[j].userId ==> i == j
  }

  /** (projectId, userId) identifies a project membership. */
  predicate UniqueProjectMemberships(m: map<Id, ProjectMembership>)
  {
    forall i, j :: i in m && j in m && m[i].projectId == m[j].projectId && m[i].userId == m[j].userId ==> i == j
  }

  /** (businessId, name) identifies a team. */
  predicate UniqueTeamNames(m: map<Id, Team>)
  {
    forall i, j :: i in m && j in m && m[i].businessId == m[j].businessId && m[i].name == m[j].name ==> i == j
  }

  /** (businessId, projectName) identifies a project. */
  predicate UniqueProjectNames(m: map<Id, Project>)
  {
    forall i, j :: i in m && j in m && m[i].businessId == m[j].businessId && m[i].projectName == m[j].projectName ==> i == j
  }

  /** (name, scope) identifies a role. */
  predicate UniqueRoles(m: map<Id, Role>)
  {
    forall i, j :: i in m && j in m && m[i].name == m[j].name && m[i].scope == m[j].scope ==> i == j
  }

  predicate UniquePermissionNames(m: map<Id, Permission>)
  {
    forall i, j :: i in m && j in m && m[i].name == m[j].name ==> i == j
  }

  /** (roleId, permissionId) identifies a role-permission. */
  predicate UniqueRolePermissions(m: map<Id, RolePermission>)
  {
    forall i, j :: i in m && j in m && m[i].roleId == m[j].roleId && m[i].permissionId == m[j].permissionId ==> i == j
  }

  // ------------------------------------------------ containment invariants

  /** Every project member is a member of the project's team. */
  predicate ProjectMembersInTeam(s: Store)
  {
    forall k :: k in s.projectMemberships ==>
      var pm := s.projectMemberships[k];
      pm.projectId in s.projects && IsTeamMember(s, s.projects[pm.projectId].teamId, pm.userId)
  }

  /** Every project's team belongs to the project's business. */
  predicate ProjectTeamsInBusiness(s: Store)
  {
    forall k :: k in s.projects ==>
      s.projects[k].teamId in s.teams && s.teams[s.projects[k].teamId].businessId == s.projects[k].businessId
  }

  /** Every assignee of a milestone is a member of the milestone's project. */
  predicate AssigneesAreMembers(s: Store)
  {
    forall k, i :: k in s.milestones && 0 <= i < |s.milestones[k].assignedTo| ==>
      IsProjectMember(s, s.milestones[k].projectId, s.milestones[k].assignedTo[i])
  }
}

=== FILE: milestones.dfy ===
/** Milestone controller: every handler is gated on the caller holding a
    membership of the milestone's project, and the users a milestone is
    assigned to must themselves be members of that project. */
module Milestones {
  import opened Common
  import opened Db

  /** The position of the first element of `ids` that fails `ok`, if any:
      the handlers answer with the first offender in request order. */
  function FirstFailing(ids: seq<string>, ok: string -> bool): (r: Option<nat>)
    ensures r.None? <==> forall i :: 0 <= i < |ids| ==> ok(ids[i])
    ensures r.Some? ==> r.value < |ids| && !ok(ids[r.value])
    ensures r.Some? ==> forall i :: 0 <= i < r.value ==> ok(ids[i])
  {
    if |ids| == 0 then None
    else if !ok(ids[0]) then Some(0)
    else
      var rest := FirstFailing(ids[1..], ok);
      if rest.None? then None else Some(rest.value + 1)
  }

  /** The `assignedTo` field of a create request: absent (or falsy), a
      value that is not an array, or an array of user ids. */
  datatype Assign = Omitted | NotArray | Listed(ids: seq<string>)

  datatype CreateRequest = CreateRequest(
    projectId: Option<string>, name: Option<string>, description: Option<string>,
    dueDate: Option<string>, status: Option<string>, assignedTo: Assign)

  /** The checks that need no lookup: required fields, id syntax, the status
      enumeration and the shape of `assignedTo`. */
  predicate WellFormed(req: CreateRequest, isValid: Id -> bool)
  {
    && Given(req.projectId) && Given(req.name) && isValid(req.projectId.value)
    && (Given(req.status) ==> ParseWorkStatus(req.status.value).Some?)
    && !req.assignedTo.NotArray?
    && (req.assignedTo.Listed? ==> forall i :: 0 <= i < |req.assignedTo.ids| ==> isValid(req.assignedTo.ids[i]))
  }

  function Assignees(a: Assign): seq<Id>
  {
    if a.Listed? then a.ids else []
  }

  function InitialStatus(status: Option<string>): WorkStatus
    requires Given(status) ==> ParseWorkStatus(status.value).Some?
  {
    if Given(status) then ParseWorkStatus(status.value).value else WorkPending
  }

  /** POST /milestones by `caller`. */
  function Create(s: Store, caller: Id, req: CreateRequest, isValid: Id -> bool, newId: Id): (r: Reply)
    requires newId !in s.milestones
    ensures r.status.Fail? ==> r.store == s
    ensures !r.status.Ok?
    ensures r.status.Created? <==>
      && WellFormed(req, isValid)
      && req.projectId.value in s.projects
      && IsProjectMember(s, req.projectId.value, caller)
      && (forall i :: 0 <= i < |Assignees(req.assignedTo)| ==>
            IsProjectMember(s, req.projectId.value, Assignees(req.assignedTo)[i]))
    ensures r.status.Created? ==>
      && newId in r.store.milestones
      && r.store == s.(milestones := s.milestones[newId := r.store.milestones[newId]])
      && r.store.milestones[newId].projectId == req.projectId.value
      && r.store.milestones[newId].name == req.name.value
      && r.store.milestones[newId].description == req.description
      && r.store.milestones[newId].assignedTo == Assignees(req.assignedTo)
      && (!Given(req.status) ==> r.store.milestones[newId].status == WorkPending)
      && (Given(req.status) ==> WorkStatusName(r.store.milestones[newId].status) == req.status.value)
    ensures !Given(req.projectId) || !Given(req.name) ==> r.status == Bad(FieldsRequired)
    ensures (Given(req.projectId) && Given(req.name) && isValid(req.projectId.value)
             && Given(req.status) && ParseWorkStatus(req.status.value).None?) ==> r.status == Bad(InvalidEnum("status"))
    ensures (Given(req.projectId) && Given(req.name) && isValid(req.projectId.value)
             && (Given(req.status) ==> ParseWorkStatus(req.status.value).Some?)
             && req.assignedTo.NotArray?) ==> r.status == Bad(AssigneesNotArray)
    ensures WellFormed(req, isValid) && req.projectId.value !in s.projects ==> r.status == Absent(ProjectKind)
    ensures (WellFormed(req, isValid) && req.projectId.value in s.projects
             && !IsProjectMember(s, req.projectId.value, caller)) ==> r.status == Denied(NotMember(ProjectKind))
    ensures (r.status.Fail? && r.status.why.AssigneeNotMember?)
            ==> !IsProjectMember(s, req.projectId.value, r.status.why.id)
    ensures AssigneesAreMembers(s) ==> AssigneesAreMembers(r.store)
  {
    if !Given(req.projectId) || !Given(req.name) then Reply(Bad(FieldsRequired), s)
    else
      var p := req.projectId.value;
      if !isValid(p) then Reply(Bad(MalformedId("projectId")), s)
      else if Given(req.status) && ParseWorkStatus(req.status.value).None? then Reply(Bad(InvalidEnum("status")), s)
      else if req.assignedTo.NotArray? then Reply(Bad(AssigneesNotArray), s)
      else
        var ids := Assignees(req.assignedTo);
        var malformed := FirstFailing(ids, isValid);
        if malformed.Some? then Reply(Bad(MalformedAssignee(ids[malformed.value])), s)
        else if p !in s.projects then Reply(Absent(ProjectKind), s)
        else if !IsProjectMember(s, p, caller) then Reply(Denied(NotMember(ProjectKind)), s)
        else
          var outsider := FirstFailing(ids, (u: Id) => IsProjectMember(s, p, u));
          if outsider.Some? then Reply(Bad(AssigneeNotMember(ids[outsider.value])), s)
          else
            var due := if Given(req.dueDate) then req.dueDate else None;
            var m := Milestone(p, req.name.value, req.description, due, InitialStatus(req.status), ids);
            Reply(Created, s.(milestones := s.milestones[newId := m]))
  }

  /** GET /milestones?projectId=… by `caller`: the project's milestones. */
  function Get(s: Store, caller: Id, projectId: Option<string>, isValid: Id -> bool): (r: Listing)
    ensures r.status.Ok? <==>
      Given(projectId) && isValid(projectId.value) && projectId.value in s.projects
      && IsProjectMember(s, projectId.value, caller)
    ensures r.status.Fail? ==> r.rows == {}
    ensures r.status.Ok? ==> forall k :: k in r.rows <==> k in s.milestones && s.milestones[k].projectId == projectId.value
    ensures !Given(projectId) ==> r.status == Bad(FieldsRequired)
    ensures (Given(projectId) && isValid(projectId.value) && projectId.value in s.projects
             && !IsProjectMember(s, projectId.value, caller)) ==> r.status == Denied(NotMember(ProjectKind))
  {
    if !Given(projectId) then Listing(Bad(FieldsRequired), {})
    else if !isValid(projectId.value) then Listing(Bad(MalformedId("projectId")), {})
    else if projectId.value !in s.projects then Listing(Absent(ProjectKind), {})
    else if !IsProjectMember(s, projectId.value, caller) then Listing(Denied(NotMember(ProjectKind)), {})
    else Listing(Ok, set k | k in s.milestones && s.milestones[k].projectId == projectId.value)
  }

  /** An update request; `assignedTo` is None when the field is undefined. */
  datatype UpdateRequest = UpdateRequest(
    name: Option<string>, description: Option<string>, dueDate: Option<string>,
    status: Option<string>, assignedTo: Option<seq<string>>)

  /** Falsy name, dueDate and status keep the stored value; an undefined
      description or assignedTo keeps the stored value, an empty one
      replaces it. The project never changes. */
  function Patched(m: Milestone, req: UpdateRequest): Milestone
    requires Given(req.status) ==> ParseWorkStatus(req.status.value).Some?
  {
    Milestone(m.projectId,
              if Given(req.name) then req.name.value else m.name,
              if req.description.Some? then req.description else m.description,
              if Given(req.dueDate) then req.dueDate else m.dueDate,
              if Given(req.status) then ParseWorkStatus(req.status.value).value else m.status,
              if req.assignedTo.Some? then req.assignedTo.value else m.assignedTo)
  }

  /** The new assignee list, if any, consists of valid ids of members of
      project `p`. */
  predicate AssigneesAccepted(s: Store, p: Id, a: Option<seq<string>>, isValid: Id -> bool)
  {
    a.Some? ==> forall i :: 0 <= i < |a.value| ==> isValid(a.value[i]) && IsProjectMember(s, p, a.value[i])
  }

  /** PUT /milestones/:id by `caller`. The assignees are checked before the
      status, and an invalid status is rejected before anything is saved. */
  function Update(s: Store, caller: Id, id: Id, req: UpdateRequest, isValid: Id -> bool): (r: Reply)
    ensures r.status.Fail? ==> r.store == s
    ensures !r.status.Created?
    ensures r.status.Ok? <==>
      && isValid(id) && id in s.milestones
      && IsProjectMember(s, s.milestones[id].projectId, caller)
      && AssigneesAccepted(s, s.milestones[id].projectId, req.assignedTo, isValid)
      && (Given(req.status) ==> ParseWorkStatus(req.status.value).Some?)
    ensures r.status.Ok? ==> r.store == s.(milestones := s.milestones[id := Patched(s.milestones[id], req)])
    ensures !isValid(id) ==> r.status == Bad(MalformedId("id"))
    ensures isValid(id) && id !in s.milestones ==> r.status == Absent(MilestoneKind)
    ensures (isValid(id) && id in s.milestones && !IsProjectMember(s, s.milestones[id].projectId, caller))
            ==> r.status == Denied(NotMember(ProjectKind))
    // rejected assignees answer whatever the status field holds
    ensures (isValid(id) && id in s.milestones && IsProjectMember(s, s.milestones[id].projectId, caller)
             && !AssigneesAccepted(s, s.milestones[id].projectId, req.assignedTo, isValid))
            ==> r.status.Fail? && (r.status.why.MalformedAssignee? || r.status.why.AssigneeNotMember?)
    ensures (r.status.Fail? && r.status.why.AssigneeNotMember?)
            ==> id in s.milestones && !IsProjectMember(s, s.milestones[id].projectId, r.status.why.id)
    ensures (isValid(id) && id in s.milestones && IsProjectMember(s, s.milestones[id].projectId, caller)
             && AssigneesAccepted(s, s.milestones[id].projectId, req.assignedTo, isValid)
             && Given(req.status) && ParseWorkStatus(req.status.value).None?)
            ==> r.status == Bad(InvalidEnum("status"))
    ensures AssigneesAreMembers(s) ==> AssigneesAreMembers(r.store)
  {
    if !isValid(id) then Reply(Bad(MalformedId("id")), s)
    else if id !in s.milestones then Reply(Absent(MilestoneKind), s)
    else
      var p := s.milestones[id].projectId;
      if !IsProjectMember(s, p, caller) then Reply(Denied(NotMember(ProjectKind)), s)
      else
        var ids := if req.assignedTo.Some? then req.assignedTo.value else [];
        var malformed := FirstFailing(ids, isValid);
        var outsider := FirstFailing(ids, (u: Id) => IsProjectMember(s, p, u));
        if malformed.Some? then Reply(Bad(MalformedAssignee(ids[malformed.value])), s)
        else if outsider.Some? then Reply(Bad(AssigneeNotMember(ids[outsider.value])), s)
        else if Given(req.status) && ParseWorkStatus(req.status.value).None? then Reply(Bad(InvalidEnum("status")), s)
        else Reply(Ok, s.(milestones := s.milestones[id := Patched(s.milestones[id], req)]))
  }

  /** DELETE /milestones/:id by `caller`. */
  function Delete(s: Store, caller: Id, id: Id, isValid: Id -> bool): (r: Reply)
    ensures r.status.Fail? ==> r.store == s
    ensures !isValid(id) ==> r.status == Bad(MalformedId("id"))
    ensures r.status.Ok? <==> isValid(id) && id in s.milestones && IsProjectMember(s, s.milestones[id].projectId, caller)
    ensures r.status.Ok? ==> r.store == s.(milestones := s.milestones - {id})
    ensures isValid(id) && id !in s.milestones ==> r.status == Absent(MilestoneKind)
    ensures (isValid(id) && id in s.milestones && !IsProjectMember(s, s.milestones[id].projectId, caller))
            ==> r.status == Denied(NotMember(ProjectKind))
    ensures AssigneesAreMembers(s) ==> AssigneesAreMembers(r.store)
  {
    if !isValid(id) then Reply(Bad(MalformedId("id")), s)
    else if id !in s.milestones then Reply(Absent(MilestoneKind), s)
    else if !IsProjectMember(s, s.milestones[id].projectId, caller) then Reply(Denied(NotMember(ProjectKind)), s)
    else Reply(Ok, s.(milestones := s.milestones - {id}))
  }

  /** A milestone its creator just added is among the project's milestones
      that creator reads back. */
  lemma CreatedMilestoneIsListed(s: Store, caller: Id, req: CreateRequest, isValid: Id -> bool, newId: Id)
    requires newId !in s.milestones
    requires Create(s, caller, req, isValid, newId).status.Created?
    ensures var l := Get(Create(s, caller, req, isValid, newId).store, caller, req.projectId, isValid);
      l.status.Ok? && newId in l.rows
  {
    var s' := Create(s, caller, req, isValid, newId).store;
    assert s'.projects == s.projects && s'.projectMemberships == s.projectMemberships;
  }
}

=== FILE: otp_input.dfy ===
/** The one-time-password page: six one-character input slots, the focus
    moves between them, and the code submitted for verification. Focus is
    modelled as the slot the handler moves it to, if any. */
module OtpInput {
  import opened Common
  import UserAccounts
  import Db

  const Slots: nat := 6

  /** A slot holds nothing or one decimal digit. */
  predicate SlotValue(v: string)
  {
    v == "" || (|v| == 1 && UserAccounts.IsDigit(v[0]))
  }

  /** The state the page keeps: six slots, each empty or one digit. */
  predicate ValidState(otp: seq<string>)
  {
    |otp| == Slots && forall i :: 0 <= i < |otp| ==> SlotValue(otp[i])
  }

  /** The initial state. */
  function Initial(): (otp: seq<string>)
    ensures ValidState(otp)
    ensures forall i :: 0 <= i < |otp| ==> otp[i] == ""
  {
    ["", "", "", "", "", ""]
  }

  /** The outcome of an input event: the new slots and where focus moves. */
  datatype Change = Change(otp: seq<string>, focus: Option<nat>)

  /** `handleOtpChange(index, value)` on the slots `otp`: a single digit or
      an empty value replaces slot `index`, anything else is ignored; a
      digit typed before the last slot moves focus to the next one. */
  function HandleOtpChange(otp: seq<string>, index: nat, value: string): (r: Change)
    requires |otp| == Slots && index < Slots
    ensures |r.otp| == Slots
    ensures SlotValue(value) ==> r.otp[index] == value && forall j :: 0 <= j < Slots && j != index ==> r.otp[j] == otp[j]
    ensures !SlotValue(value) ==> r == Change(otp, None)
    ensures r.focus.Some? <==> SlotValue(value) && value != "" && index < Slots - 1
    ensures r.focus.Some? ==> r.focus.value == index + 1
    ensures ValidState(otp) ==> ValidState(r.otp)
  {
    if SlotValue(value) then
      Change(otp[index := value], if value != "" && index < Slots - 1 then Some(index + 1) else None)
    else Change(otp, None)
  }

  /** `handleKeyDown(index, e)`: Backspace in an empty slot other than the
      first moves focus back one slot; the slots never change. */
  function HandleKeyDown(otp: seq<string>, index: nat, key: string): (focus: Option<nat>)
    requires |otp| == Slots && index < Slots
    ensures focus.Some? <==> key == "Backspace" && otp[index] == "" && index > 0
    ensures focus.Some? ==> focus.value + 1 == index
  {
    if key == "Backspace" && otp[index] == "" && index > 0 then Some(index - 1) else None
  }

  /** Clearing a slot other than the first and pressing Backspace in it
      moves focus back one slot; clearing alone moves it nowhere. */
  lemma {:induction false} ClearThenBackspaceMovesBack(otp: seq<string>, index: nat)
    requires |otp| == Slots && 0 < index < Slots
    ensures var c := HandleOtpChange(otp, index, "");
      c.focus.None? && HandleKeyDown(c.otp, index, "Backspace") == Some(index - 1)
  {
  }

  /** `otp.join('')`: the slots' texts run together, so the code is empty
      exactly when every slot is. */
  function Join(otp: seq<string>): (code: string)
    ensures code == "" <==> forall i :: 0 <= i < |otp| ==> otp[i] == ""
  {
    if |otp| == 0 then "" else Join(otp[..|otp| - 1]) + otp[|otp| - 1]
  }

  /** The number of filled slots. */
  function Filled(otp: seq<string>): nat
  {
    if |otp| == 0 then 0 else Filled(otp[..|otp| - 1]) + (if otp[|otp| - 1] == "" then 0 else 1)
  }

  /** The joined code has one digit per filled slot (its order is stated
      for full slots by `JoinFull`). */
  lemma {:induction false} JoinDigits(otp: seq<string>)
    requires forall i :: 0 <= i < |otp| ==> SlotValue(otp[i])
    ensures |Join(otp)| == Filled(otp) && UserAccounts.AllDigits(Join(otp))
  {
    if |otp| > 0 {
      JoinDigits(otp[..|otp| - 1]);
    }
  }

  /** With every slot filled, the code is the slots' digits in order. */
  lemma {:induction false} JoinFull(otp: seq<string>)
    requires forall i :: 0 <= i < |otp| ==> |otp[i]| == 1
    ensures |Join(otp)| == |otp|
    ensures forall i :: 0 <= i < |otp| ==> Join(otp)[i] == otp[i][0]
  {
    if |otp| > 0 {
      JoinFull(otp[..|otp| - 1]);
    }
  }

  /** The slots after typing the digits of `code` into slots k, k+1, ... in
      turn, starting from `otp`. */
  function TypeFrom(otp: seq<string>, code: string, k: nat): (r: seq<string>)
    requires |otp| == Slots && |code| == Slots && k <= Slots
    ensures |r| == Slots
    decreases Slots - k
  {
    if k == Slots then otp else TypeFrom(HandleOtpChange(otp, k, [code[k]]).otp, code, k + 1)
  }

  /** Typing a code digit by digit puts digit i in slot i from slot k on. */
  lemma {:induction false} TypeFromFills(otp: seq<string>, code: string, k: nat)
    requires |otp| == Slots && |code| == Slots && k <= Slots && UserAccounts.AllDigits(code)
    ensures forall i :: k <= i < Slots ==> TypeFrom(otp, code, k)[i] == [code[i]]
    ensures forall i :: 0 <= i < k ==> TypeFrom(otp, code, k)[i] == otp[i]
    decreases Slots - k
  {
    if k < Slots {
      assert SlotValue([code[k]]);
      TypeFromFills(HandleOtpChange(otp, k, [code[k]]).otp, code, k + 1);
    }
  }

  /** Typing the six digits of a code into the empty form submits exactly
      that code. */
  lemma {:induction false} TypedCodeIsSubmitted(code: string)
    requires |code| == Slots && UserAccounts.AllDigits(code)
    ensures Join(TypeFrom(Initial(), code, 0)) == code
  {
    var otp := TypeFrom(Initial(), code, 0);
    TypeFromFills(Initial(), code, 0);
    JoinFull(otp);
  }

  /** The page's code assembly combined with the user controller's check: a
      code issued by a forgot-password request, typed into the empty form,
      is accepted by `verifyOtp`. The page itself posts to a different
      endpoint (see the README). */
  lemma {:induction false} TypedIssuedCodeVerifies(s: Db.Store, email: string, draw: nat, mailSent: bool)
    requires draw < 900000 && email != "" && Db.EmailTaken(s.users, email)
    ensures var s' := UserAccounts.ForgotPassword(s, Some(email), draw, mailSent).store;
      var code := Join(TypeFrom(Initial(), UserAccounts.GenerateOtp(draw), 0));
      UserAccounts.VerifyOtp(s', Some(email), Some(code)).status.Ok?
  {
    TypedCodeIsSubmitted(UserAccounts.GenerateOtp(draw));
    UserAccounts.IssuedOtpVerifies(s, email, draw, mailSent, UserAccounts.GenerateOtp(draw));
  }
}

=== FILE: permissions.dfy ===
/** Permission controller: permissions have unique names and cannot be
    deleted while a role-permission references them. */
module Permissions {
  import opened Common
  import opened Db

  datatype CreateRequest = CreateRequest(name: Option<string>, description: Option<string>)

  /** POST /permissions. */
  function Create(s: Store, req: CreateRequest, newId: Id): (r: Reply)
    requires newId !in s.permissions
    ensures r.status.Fail? ==> r.store == s
    ensures r.status.Created? <==> Given(req.name) && !PermissionNameHeld(s.permissions, req.name.value, None)
    ensures !r.status.Ok?
    ensures r.status.Created? ==>
      r.store == s.(permissions := s.permissions[newId := Permission(req.name.value, req.description)])
    ensures !Given(req.name) ==> r.status == Bad(FieldsRequired)
    ensures UniquePermissionNames(s.permissions) ==> UniquePermissionNames(r.store.permissions)
  {
    if !Given(req.name) then Reply(Bad(FieldsRequired), s)
    else if PermissionNameHeld(s.permissions, req.name.value, None) then Reply(Bad(Duplicate(PermissionKind)), s)
    else Reply(Created, s.(permissions := s.permissions[newId := Permission(req.name.value, req.description)]))
  }

  datatype UpdateRequest = UpdateRequest(name: Option<string>, description: Option<string>)

  /** A truthy name replaces the stored one; a description that is present
      at all, even empty, replaces the stored one. */
  function Patched(p: Permission, req: UpdateRequest): Permission
  {
    Permission(if Given(req.name) then req.name.value else p.name,
               if req.description.Some? then req.description else p.description)
  }

  /** PUT /permissions/:id. A truthy name or description is required, so an
      empty description is written only alongside a name. */
  function Update(s: Store, id: Id, req: UpdateRequest, isValid: Id -> bool): (r: Reply)
    ensures r.status.Fail? ==> r.store == s
    ensures !r.status.Created?
    ensures r.status.Ok? <==>
      && isValid(id) && (Given(req.name) || Given(req.description))
      && (Given(req.name) ==> !PermissionNameHeld(s.permissions, req.name.value, Some(id)))
      && id in s.permissions
    ensures r.status.Ok? ==> r.store == s.(permissions := s.permissions[id := Patched(s.permissions[id], req)])
    ensures !isValid(id) ==> r.status == Bad(MalformedId("id"))
    ensures isValid(id) && !Given(req.name) && !Given(req.description) ==> r.status == Bad(NothingToUpdate)
    // a name held by another permission is refused before the existence check
    ensures (isValid(id) && Given(req.name) && PermissionNameHeld(s.permissions, req.name.value, Some(id)))
            ==> r.status == Bad(Duplicate(PermissionKind))
    ensures (isValid(id) && (Given(req.name) || Given(req.description))
             && (Given(req.name) ==> !PermissionNameHeld(s.permissions, req.name.value, Some(id)))
             && id !in s.permissions) ==> r.status == Absent(PermissionKind)
    ensures (r.status.Ok? && Given(req.name) && req.description == Some(""))
            ==> r.store.permissions[id].description == Some("")
    ensures UniquePermissionNames(s.permissions) ==> UniquePermissionNames(r.store.permissions)
  {
    if !isValid(id) then Reply(Bad(MalformedId("id")), s)
    else if !Given(req.name) && !Given(req.description) then Reply(Bad(NothingToUpdate), s)
    else if Given(req.name) && PermissionNameHeld(s.permissions, req.name.value, Some(id))
    then Reply(Bad(Duplicate(PermissionKind)), s)
    else if id !in s.permissions then Reply(Absent(PermissionKind), s)
    else Reply(Ok, s.(permissions := s.permissions[id := Patched(s.permissions[id], req)]))
  }

  /** Some role-permission references permission `id`. */
  predicate Referenced(s: Store, id: Id)
  {
    exists k :: k in s.rolePermissions && s.rolePermissions[k].permissionId == id
  }

  /** DELETE /permissions/:id. The reference check comes before the
      existence check, so a dangling reference to a missing permission
      still answers 400. */
  function Delete(s: Store, id: Id, isValid: Id -> bool): (r: Reply)
    ensures r.status.Fail? ==> r.store == s
    ensures r.status.Ok? <==> isValid(id) && !Referenced(s, id) && id in s.permissions
    ensures r.status.Ok? ==> r.store == s.(permissions := s.permissions - {id})
    ensures !isValid(id) ==> r.status == Bad(MalformedId("id"))
    ensures isValid(id) && Referenced(s, id) ==> r.status == Bad(PermissionInUse)
    ensures isValid(id) && !Referenced(s, id) && id !in s.permissions ==> r.status == Absent(PermissionKind)
    ensures r.status.Ok? ==> forall k :: k in r.store.rolePermissions ==> r.store.rolePermissions[k].permissionId != id
  {
    if !isValid(id) then Reply(Bad(MalformedId("id")), s)
    else if Referenced(s, id) then Reply(Bad(PermissionInUse), s)
    else if id !in s.permissions then Reply(Absent(PermissionKind), s)
    else Reply(Ok, s.(permissions := s.permissions - {id}))
  }
}

=== FILE: project_memberships.dfy ===
/** Project-membership controller: binds a user to a project with a role.
    A user holds at most one membership per project and must already be a
    member of the project's team. */
module ProjectMemberships {
  import opened Common
  import opened Db

  datatype CreateRequest = CreateRequest(projectId: Option<string>, userId: Option<string>, roleId: Option<string>)

  predicate WellFormed(req: CreateRequest, isValid: Id -> bool)
  {
    && Given(req.projectId) && Given(req.userId) && Given(req.roleId)
    && isValid(req.projectId.value) && isValid(req.userId.value) && isValid(req.roleId.value)
  }

  predicate CreateAllowed(s: Store, req: CreateRequest, isValid: Id -> bool)
  {
    && WellFormed(req, isValid)
    && req.projectId.value in s.projects && req.userId.value in s.users && req.roleId.value in s.roles
    && IsTeamMember(s, s.projects[req.projectId.value].teamId, req.userId.value)
    && !ProjectPairHeld(s.projectMemberships, req.projectId.value, req.userId.value, None)
  }

  /** POST /project-memberships. */
  function Create(s: Store, req: CreateRequest, isValid: Id -> bool, newId: Id): (r: Reply)
    requires newId !in s.projectMemberships
    ensures r.status.Fail? ==> r.store == s
    ensures r.status.Created? <==> CreateAllowed(s, req, isValid)
    ensures !r.status.Ok?
    ensures r.status.Created? ==>
      r.store == s.(projectMemberships := s.projectMemberships[newId :=
        ProjectMembership(req.projectId.value, req.userId.value, req.roleId.value)])
    ensures !Given(req.projectId) || !Given(req.userId) || !Given(req.roleId) ==> r.status == Bad(FieldsRequired)
    // referenced ids are resolved in the order project, user, role
    ensures WellFormed(req, isValid) && req.projectId.value !in s.projects ==> r.status == Absent(ProjectKind)
    ensures (WellFormed(req, isValid) && req.projectId.value in s.projects && req.userId.value !in s.users)
            ==> r.status == Absent(UserKind)
    ensures (WellFormed(req, isValid) && req.projectId.value in s.projects && req.userId.value in s.users
             && req.roleId.value !in s.roles) ==> r.status == Absent(RoleKind)
    // the team membership is required whatever role is asked for
    ensures (WellFormed(req, isValid) && req.projectId.value in s.projects && req.userId.value in s.users
             && req.roleId.value in s.roles
             && !IsTeamMember(s, s.projects[req.projectId.value].teamId, req.userId.value))
            ==> r.status == Bad(NotInTeam)
    ensures r.status.Created? ==> IsTeamMember(s, s.projects[req.projectId.value].teamId, req.userId.value)
    ensures UniqueProjectMemberships(s.projectMemberships) ==> UniqueProjectMemberships(r.store.projectMemberships)
    ensures ProjectMembersInTeam(s) ==> ProjectMembersInTeam(r.store)
  {
    if !Given(req.projectId) || !Given(req.userId) || !Given(req.roleId) then Reply(Bad(FieldsRequired), s)
    else
      var p, u, role := req.projectId.value, req.userId.value, req.roleId.value;
      if !isValid(p) then Reply(Bad(MalformedId("projectId")), s)
      else if !isValid(u) then Reply(Bad(MalformedId("userId")), s)
      else if !isValid(role) then Reply(Bad(MalformedId("roleId")), s)
      else if p !in s.projects then Reply(Absent(ProjectKind), s)
      else if u !in s.users then Reply(Absent(UserKind), s)
      else if role !in s.roles then Reply(Absent(RoleKind), s)
      else if !IsTeamMember(s, s.projects[p].teamId, u) then Reply(Bad(NotInTeam), s)
      else if ProjectPairHeld(s.projectMemberships, p, u, None) then Reply(Bad(Duplicate(ProjectMembershipKind)), s)
      else
        var s' := s.(projectMemberships := s.projectMemberships[newId := ProjectMembership(p, u, role)]);
        assert forall t, v :: IsTeamMember(s, t, v) ==> IsTeamMember(s', t, v);
        Reply(Created, s')
  }

  datatype UpdateRequest = UpdateRequest(projectId: Option<string>, userId: Option<string>, roleId: Option<string>)

  predicate ReferencesResolve(s: Store, req: UpdateRequest, isValid: Id -> bool)
  {
    && (Given(req.projectId) ==> isValid(req.projectId.value) && req.projectId.value in s.projects)
    && (Given(req.userId) ==> isValid(req.userId.value) && req.userId.value in s.users)
    && (Given(req.roleId) ==> isValid(req.roleId.value) && req.roleId.value in s.roles)
  }

  /** Supplied fields replace the stored ones; the project and user the row
      would hold afterwards are the targets the cascade is checked against. */
  function Patched(m: ProjectMembership, req: UpdateRequest): ProjectMembership
  {
    ProjectMembership(if Given(req.projectId) then req.projectId.value else m.projectId,
                      if Given(req.userId) then req.userId.value else m.userId,
                      if Given(req.roleId) then req.roleId.value else m.roleId)
  }

  /** The checks run when the update touches projectId or userId, against the
      row's would-be project and user. */
  predicate TargetAllowed(s: Store, id: Id, req: UpdateRequest)
    requires id in s.projectMemberships
  {
    var target := Patched(s.projectMemberships[id], req);
    && target.projectId in s.projects
    && IsTeamMember(s, s.projects[target.projectId].teamId, target.userId)
    && !ProjectPairHeld(s.projectMemberships, target.projectId, target.userId, Some(id))
  }

  /** PUT /project-memberships/:id. */
  function Update(s: Store, id: Id, req: UpdateRequest, isValid: Id -> bool): (r: Reply)
    ensures r.status.Fail? ==> r.store == s
    ensures !isValid(id) ==> r.status == Bad(MalformedId("id"))
    ensures !r.status.Created?
    ensures r.status.Ok? <==>
      && isValid(id) && (Given(req.projectId) || Given(req.userId) || Given(req.roleId))
      && ReferencesResolve(s, req, isValid)
      && id in s.projectMemberships
      && (Given(req.projectId) || Given(req.userId) ==> TargetAllowed(s, id, req))
    ensures r.status.Ok? ==>
      r.store == s.(projectMemberships := s.projectMemberships[id := Patched(s.projectMemberships[id], req)])
    ensures isValid(id) && !Given(req.projectId) && !Given(req.userId) && !Given(req.roleId)
            ==> r.status == Bad(NothingToUpdate)
    ensures (isValid(id) && ReferencesResolve(s, req, isValid) && Given(req.projectId) && id in s.projectMemberships
             && !IsTeamMember(s, s.projects[req.projectId.value].teamId, Patched(s.projectMemberships[id], req).userId))
            ==> r.status == Bad(NotInTeam)
    ensures UniqueProjectMemberships(s.projectMemberships) ==> UniqueProjectMemberships(r.store.projectMemberships)
    ensures ProjectMembersInTeam(s) ==> ProjectMembersInTeam(r.store)
  {
    if !isValid(id) then Reply(Bad(MalformedId("id")), s)
    else if !Given(req.projectId) && !Given(req.userId) && !Given(req.roleId) then Reply(Bad(NothingToUpdate), s)
    else if Given(req.projectId) && !isValid(req.projectId.value) then Reply(Bad(MalformedId("projectId")), s)
    else if Given(req.projectId) && req.projectId.value !in s.projects then Reply(Absent(ProjectKind), s)
    else if Given(req.userId) && !isValid(req.userId.value) then Reply(Bad(MalformedId("userId")), s)
    else if Given(req.userId) && req.userId.value !in s.users then Reply(Absent(UserKind), s)
    else if Given(req.roleId) && !isValid(req.roleId.value) then Reply(Bad(MalformedId("roleId")), s)
    else if Given(req.roleId) && req.roleId.value !in s.roles then Reply(Absent(RoleKind), s)
    else if (Given(req.projectId) || Given(req.userId)) && id !in s.projectMemberships
    then Reply(Absent(ProjectMembershipKind), s)
    else if (Given(req.projectId) || Given(req.userId)) && Patched(s.projectMemberships[id], req).projectId !in s.projects
    then Reply(Fail(NotFound, TargetProjectMissing), s)
    else if (Given(req.projectId) || Given(req.userId))
            && !IsTeamMember(s, s.projects[Patched(s.projectMemberships[id], req).projectId].teamId,
                             Patched(s.projectMemberships[id], req).userId)
    then Reply(Bad(NotInTeam), s)
    else if (Given(req.projectId) || Given(req.userId))
            && ProjectPairHeld(s.projectMemberships, Patched(s.projectMemberships[id], req).projectId,
                               Patched(s.projectMemberships[id], req).userId, Some(id))
    then Reply(Bad(Duplicate(ProjectMembershipKind)), s)
    else if id !in s.projectMemberships then Reply(Absent(ProjectMembershipKind), s)
    else
      var s' := s.(projectMemberships := s.projectMemberships[id := Patched(s.projectMemberships[id], req)]);
      assert forall t, v :: IsTeamMember(s, t, v) ==> IsTeamMember(s', t, v);
      Reply(Ok, s')
  }

  /** DELETE /project-memberships/:id. */
  function Delete(s: Store, id: Id, isValid: Id -> bool): (r: Reply)
    ensures r.status.Fail? ==> r.store == s
    ensures !isValid(id) ==> r.status == Bad(MalformedId("id"))
    ensures r.status.Ok? <==> isValid(id) && id in s.projectMemberships
    ensures r.status.Ok? ==> r.store == s.(projectMemberships := s.projectMemberships - {id})
    ensures isValid(id) && id !in s.projectMemberships ==> r.status == Absent(ProjectMembershipKind)
    ensures ProjectMembersInTeam(s) ==> ProjectMembersInTeam(r.store)
    ensures UniqueProjectMemberships(s.projectMemberships) ==> UniqueProjectMemberships(r.store.projectMemberships)
    // the user is no longer a member of that project
    ensures r.status.Ok? && UniqueProjectMemberships(s.projectMemberships) ==>
      !IsProjectMember(r.store, s.projectMemberships[id].projectId, s.projectMemberships[id].userId)
  {
    if !isValid(id) then Reply(Bad(MalformedId("id")), s)
    else if id !in s.projectMemberships then Reply(Absent(ProjectMembershipKind), s)
    else Reply(Ok, s.(projectMemberships := s.projectMemberships - {id}))
  }

  /** Removing a user from a project leaves them assigned to its milestones,
      so an assignee need no longer be a project member. */
  lemma DeleteCanOrphanAssignees()
    ensures exists s: Store, id: Id, isValid: Id -> bool ::
      AssigneesAreMembers(s) && Delete(s, id, isValid).status.Ok?
      && !AssigneesAreMembers(Delete(s, id, isValid).store)
  {
    var s := Store(map["u" := User("A", "a@x", "h", "user")], map[], map["t" := Team("b", "Ops")],
                   map["p" := Project("b", "t", "Plan", None, WorkPending)],
                   map["r" := Role("member", ProjectScope)], map[], map[], map[],
                   map["m" := TeamMembership("t", "u", "r")],
                   map["pm" := ProjectMembership("p", "u", "r")],
                   map["ms" := Milestone("p", "Launch", None, None, WorkPending, ["u"])], map[], {}, map[]);
    assert IsProjectMember(s, "p", "u") by { assert s.projectMemberships["pm"].projectId == "p"; }
    var isValid := (x: Id) => true;
    var r := Delete(s, "pm", isValid);
    assert r.store.milestones["ms"].assignedTo[0] == "u" && !IsProjectMember(r.store, "p", "u");
  }
}

=== FILE: projects.dfy ===
/** Project controller: a project sits in a business and in one of that
    business's teams, and its name is unique within the business. */
module Projects {
  import opened Common
  import opened Db

  datatype CreateRequest = CreateRequest(businessId: Option<string>, teamId: Option<string>,
                                         projectName: Option<string>, description: Option<string>,
                                         status: Option<string>)

  predicate WellFormed(req: CreateRequest, isValid: Id -> bool)
  {
    && Given(req.businessId) && Given(req.teamId) && Given(req.projectName)
    && isValid(req.businessId.value) && isValid(req.teamId.value)
    && (Given(req.status) ==> ParseWorkStatus(req.status.value).Some?)
  }

  predicate CreateAllowed(s: Store, req: CreateRequest, isValid: Id -> bool)
  {
    && WellFormed(req, isValid)
    && req.businessId.value in s.businesses
    && req.teamId.value in s.teams
    && s.teams[req.teamId.value].businessId == req.businessId.value
    && !ProjectNameHeld(s.projects, req.businessId.value, req.projectName.value, None)
  }

  /** The status given to a new project: the supplied one, else pending. */
  function InitialStatus(status: Option<string>): (st: WorkStatus)
    requires Given(status) ==> ParseWorkStatus(status.value).Some?
    ensures !Given(status) ==> st == WorkPending
    ensures Given(status) ==> WorkStatusName(st) == status.value
  {
    if Given(status) then ParseWorkStatus(status.value).value else WorkPending
  }

  /** POST /projects. */
  function Create(s: Store, req: CreateRequest, isValid: Id -> bool, newId: Id): (r: Reply)
    requires newId !in s.projects
    ensures r.status.Fail? ==> r.store == s
    ensures r.status.Created? <==> CreateAllowed(s, req, isValid)
    ensures !r.status.Ok?
    ensures r.status.Created? ==>
      r.store == s.(projects := s.projects[newId := Project(req.businessId.value, req.teamId.value,
                                                           req.projectName.value, req.description,
                                                           InitialStatus(req.status))])
    ensures r.status.Created? && !Given(req.status) ==> r.store.projects[newId].status == WorkPending
    ensures !Given(req.businessId) || !Given(req.teamId) || !Given(req.projectName)
            ==> r.status == Bad(FieldsRequired)
    ensures WellFormed(req, isValid) && req.businessId.value !in s.businesses ==> r.status == Absent(BusinessKind)
    ensures (WellFormed(req, isValid) && req.businessId.value in s.businesses && req.teamId.value !in s.teams)
            ==> r.status == Absent(TeamKind)
    ensures (WellFormed(req, isValid) && req.businessId.value in s.businesses && req.teamId.value in s.teams
             && s.teams[req.teamId.value].businessId != req.businessId.value)
            ==> r.status == Bad(TeamOutsideBusiness)
    ensures UniqueProjectNames(s.projects) ==> UniqueProjectNames(r.store.projects)
    ensures ProjectTeamsInBusiness(s) ==> ProjectTeamsInBusiness(r.store)
  {
    if !Given(req.businessId) || !Given(req.teamId) || !Given(req.projectName) then Reply(Bad(FieldsRequired), s)
    else
      var b, t, name := req.businessId.value, req.teamId.value, req.projectName.value;
      if !isValid(b) then Reply(Bad(MalformedId("businessId")), s)
      else if !isValid(t) then Reply(Bad(MalformedId("teamId")), s)
      else if Given(req.status) && ParseWorkStatus(req.status.value).None? then Reply(Bad(InvalidEnum("status")), s)
      else if b !in s.businesses then Reply(Absent(BusinessKind), s)
      else if t !in s.teams then Reply(Absent(TeamKind), s)
      else if s.teams[t].businessId != b then Reply(Bad(TeamOutsideBusiness), s)
      else if ProjectNameHeld(s.projects, b, name, None) then Reply(Bad(Duplicate(ProjectKind)), s)
      else
        var p := Project(b, t, name, req.description, InitialStatus(req.status));
        Reply(Created, s.(projects := s.projects[newId := p]))
  }

  datatype Filter = Filter(businessId: Option<string>, teamId: Option<string>, status: Option<string>)

  predicate Matches(p: Project, f: Filter)
  {
    && (Given(f.businessId) ==> p.businessId == f.businessId.value)
    && (Given(f.teamId) ==> p.teamId == f.teamId.value)
    && (Given(f.status) ==> WorkStatusName(p.status) == f.status.value)
  }

  /** GET /projects. */
  function List(s: Store, f: Filter, isValid: Id -> bool): (r: Listing)
    ensures r.status.Ok? <==>
      && (Given(f.businessId) ==> isValid(f.businessId.value))
      && (Given(f.teamId) ==> isValid(f.teamId.value))
      && (Given(f.status) ==> ParseWorkStatus(f.status.value).Some?)
    // the filters are checked in the order businessId, teamId, status
    ensures Given(f.businessId) && !isValid(f.businessId.value) ==> r.status == Bad(MalformedId("businessId"))
    ensures (&& (Given(f.businessId) ==> isValid(f.businessId.value))
             && Given(f.teamId) && !isValid(f.teamId.value)) ==> r.status == Bad(MalformedId("teamId"))
    ensures (&& (Given(f.businessId) ==> isValid(f.businessId.value))
             && (Given(f.teamId) ==> isValid(f.teamId.value))
             && Given(f.status) && ParseWorkStatus(f.status.value).None?) ==> r.status == Bad(InvalidEnum("status"))
    ensures r.status.Fail? ==> r.rows == {}
    ensures r.status.Ok? ==> forall k :: k in r.rows <==> k in s.projects && Matches(s.projects[k], f)
  {
    if Given(f.businessId) && !isValid(f.businessId.value) then Listing(Bad(MalformedId("businessId")), {})
    else if Given(f.teamId) && !isValid(f.teamId.value) then Listing(Bad(MalformedId("teamId")), {})
    else if Given(f.status) && ParseWorkStatus(f.status.value).None? then Listing(Bad(InvalidEnum("status")), {})
    else Listing(Ok, set k | k in s.projects && Matches(s.projects[k], f))
  }

  datatype UpdateRequest = UpdateRequest(businessId: Option<string>, teamId: Option<string>,
                                         projectName: Option<string>, description: Option<string>,
                                         status: Option<string>)

  /** At least one field is truthy (an empty description does not count). */
  predicate SomeField(req: UpdateRequest)
  {
    Given(req.businessId) || Given(req.teamId) || Given(req.projectName) || Given(req.description) || Given(req.status)
  }

  predicate ReferencesResolve(s: Store, req: UpdateRequest, isValid: Id -> bool)
  {
    && (Given(req.businessId) ==> isValid(req.businessId.value) && req.businessId.value in s.businesses)
    && (Given(req.teamId) ==> isValid(req.teamId.value) && req.teamId.value in s.teams)
    && (Given(req.status) ==> ParseWorkStatus(req.status.value).Some?)
  }

  /** Supplied fields replace the stored ones; a description that is present
      at all (even empty) replaces the stored description. */
  function Patched(p: Project, req: UpdateRequest): Project
    requires Given(req.status) ==> ParseWorkStatus(req.status.value).Some?
  {
    Project(if Given(req.businessId) then req.businessId.value else p.businessId,
            if Given(req.teamId) then req.teamId.value else p.teamId,
            if Given(req.projectName) then req.projectName.value else p.projectName,
            if req.description.Some? then req.description else p.description,
            if Given(req.status) then ParseWorkStatus(req.status.value).value else p.status)
  }

  /** The business the team must belong to, and the name must be unique in:
      the supplied one, else the project's current one. */
  function TargetBusiness(s: Store, id: Id, req: UpdateRequest): Id
    requires id in s.projects
  {
    if Given(req.businessId) then req.businessId.value else s.projects[id].businessId
  }

  /** PUT /projects/:id. */
  function Update(s: Store, id: Id, req: UpdateRequest, isValid: Id -> bool): (r: Reply)
    ensures r.status.Fail? ==> r.store == s
    ensures !isValid(id) ==> r.status == Bad(MalformedId("id"))
    ensures !r.status.Created?
    ensures r.status.Ok? <==>
      && isValid(id) && SomeField(req) && ReferencesResolve(s, req, isValid)
      && id in s.projects
      && (Given(req.teamId) ==> s.teams[req.teamId.value].businessId == TargetBusiness(s, id, req))
      && (Given(req.projectName) ==> !ProjectNameHeld(s.projects, TargetBusiness(s, id, req), req.projectName.value, Some(id)))
    ensures r.status.Ok? ==> r.store == s.(projects := s.projects[id := Patched(s.projects[id], req)])
    ensures isValid(id) && !SomeField(req) ==> r.status == Bad(NothingToUpdate)
    ensures (isValid(id) && SomeField(req) && ReferencesResolve(s, req, isValid)
             && Given(req.businessId) && Given(req.teamId)
             && s.teams[req.teamId.value].businessId != req.businessId.value)
            ==> r.status == Bad(TeamOutsideBusiness)
    ensures Given(req.projectName) && UniqueProjectNames(s.projects) ==> UniqueProjectNames(r.store.projects)
    ensures (Given(req.teamId) || !Given(req.businessId)) && ProjectTeamsInBusiness(s)
            ==> ProjectTeamsInBusiness(r.store)
  {
    if !isValid(id) then Reply(Bad(MalformedId("id")), s)
    else if !SomeField(req) then Reply(Bad(NothingToUpdate), s)
    else if Given(req.businessId) && !isValid(req.businessId.value) then Reply(Bad(MalformedId("businessId")), s)
    else if Given(req.businessId) && req.businessId.value !in s.businesses then Reply(Absent(BusinessKind), s)
    else if Given(req.teamId) && !isValid(req.teamId.value) then Reply(Bad(MalformedId("teamId")), s)
    else if Given(req.teamId) && req.teamId.value !in s.teams then Reply(Absent(TeamKind), s)
    else if Given(req.status) && ParseWorkStatus(req.status.value).None? then Reply(Bad(InvalidEnum("status")), s)
    else if Given(req.businessId) && Given(req.teamId) && s.teams[req.teamId.value].businessId != req.businessId.value
    then Reply(Bad(TeamOutsideBusiness), s)
    else if !Given(req.businessId) && Given(req.teamId) && id in s.projects
            && s.teams[req.teamId.value].businessId != s.projects[id].businessId
    then Reply(Bad(TeamOutsideBusiness), s)
    else if Given(req.projectName) && id in s.projects
            && ProjectNameHeld(s.projects, TargetBusiness(s, id, req), req.projectName.value, Some(id))
    then Reply(Bad(Duplicate(ProjectKind)), s)
    else if id !in s.projects then Reply(Absent(ProjectKind), s)
    else Reply(Ok, s.(projects := s.projects[id := Patched(s.projects[id], req)]))
  }

  /** Moving a project to another business without naming a team leaves the
      project's team in the old business. */
  lemma BusinessMoveCanStrandTeam()
    ensures exists s: Store, id: Id, req: UpdateRequest, isValid: Id -> bool ::
      ProjectTeamsInBusiness(s) && Update(s, id, req, isValid).status.Ok?
      && !ProjectTeamsInBusiness(Update(s, id, req, isValid).store)
  {
    var s := Store(map[], map["b1" := Business("One", Shop, "u"), "b2" := Business("Two", Shop, "u")],
                   map["t1" := Team("b1", "Ops")],
                   map["p" := Project("b1", "t1", "Plan", None, WorkPending)],
                   map[], map[], map[], map[], map[], map[], map[], map[], {}, map[]);
    var req := UpdateRequest(Some("b2"), None, None, None, None);
    var isValid := (x: Id) => true;
    var r := Update(s, "p", req, isValid);
    assert r.store.projects["p"] == Project("b2", "t1", "Plan", None, WorkPending);
  }

  /** Moving a project to another business without renaming it is never
      checked against the names already used there. */
  lemma BusinessMoveCanDuplicateName()
    ensures exists s: Store, id: Id, req: UpdateRequest, isValid: Id -> bool ::
      UniqueProjectNames(s.projects) && Update(s, id, req, isValid).status.Ok?
      && !UniqueProjectNames(Update(s, id, req, isValid).store.projects)
  {
    var s := Store(map[], map["b1" := Business("One", Shop, "u"), "b2" := Business("Two", Shop, "u")],
                   map["t1" := Team("b1", "Ops"), "t2" := Team("b2", "Ops")],
                   map["p1" := Project("b1", "t1", "Plan", None, WorkPending),
                       "p2" := Project("b2", "t2", "Plan", None, WorkPending)],
                   map[], map[], map[], map[], map[], map[], map[], map[], {}, map[]);
    var req := UpdateRequest(Some("b1"), Some("t1"), None, None, None);
    var isValid := (x: Id) => true;
    var r := Update(s, "p2", req, isValid);
    assert r.store.projects["p1"] == r.store.projects["p2"];
  }

  /** DELETE /projects/:id; its memberships and milestones are left in place. */
  function Delete(s: Store, id: Id, isValid: Id -> bool): (r: Reply)
    ensures r.status.Fail? ==> r.store == s
    ensures !isValid(id) ==> r.status == Bad(MalformedId("id"))
    ensures r.status.Ok? <==> isValid(id) && id in s.projects
    ensures r.status.Ok? ==> r.store == s.(projects := s.projects - {id})
    ensures isValid(id) && id !in s.projects ==> r.status == Absent(ProjectKind)
    ensures UniqueProjectNames(s.projects) ==> UniqueProjectNames(r.store.projects)
    ensures ProjectTeamsInBusiness(s) ==> ProjectTeamsInBusiness(r.store)
    // the deleted project's name is free again in its business
    ensures r.status.Ok? && UniqueProjectNames(s.projects) ==>
      !ProjectNameHeld(r.store.projects, s.projects[id].businessId, s.projects[id].projectName, None)
  {
    if !isValid(id) then Reply(Bad(MalformedId("id")), s)
    else if id !in s.projects then Reply(Absent(ProjectKind), s)
    else Reply(Ok, s.(projects := s.projects - {id}))
  }

  /** Deleting a project just created gives back the store it was created in. */
  lemma CreateThenDeleteRestores(s: Store, req: CreateRequest, isValid: Id -> bool, newId: Id)
    requires newId !in s.projects && isValid(newId)
    requires Create(s, req, isValid, newId).status.Created?
    ensures Delete(Create(s, req, isValid, newId).store, newId, isValid) == Reply(Ok, s)
  {
    var r := Create(s, req, isValid, newId);
    assert r.store.projects - {newId} == s.projects;
  }

  /** A project's memberships are left in place when it is deleted, so a
      membership can name a project that no longer exists. */
  lemma DeleteCanOrphanMemberships()
    ensures exists s: Store, id: Id, isValid: Id -> bool ::
      ProjectMembersInTeam(s) && Delete(s, id, isValid).status.Ok?
      && !ProjectMembersInTeam(Delete(s, id, isValid).store)
  {
    var s := Store(map["u" := User("A", "a@x", "h", "user")], map[], map["t" := Team("b", "Ops")],
                   map["p" := Project("b", "t", "Plan", None, WorkPending)],
                   map["r" := Role("member", ProjectScope)], map[], map[], map[],
                   map["m" := TeamMembership("t", "u", "r")],
                   map["pm" := ProjectMembership("p", "u", "r")], map[], map[], {}, map[]);
    assert IsTeamMember(s, "t", "u") by { assert s.teamMemberships["m"].teamId == "t"; }
    var isValid := (x: Id) => true;
    var r := Delete(s, "p", isValid);
    assert "pm" in r.store.projectMemberships && "p" !in r.store.projects;
  }

  /** A project created in a business is listed under that business. */
  lemma CreatedProjectIsListed(s: Store, req: CreateRequest, isValid: Id -> bool, newId: Id)
    requires newId !in s.projects
    requires Create(s, req, isValid, newId).status.Created?
    ensures var l := List(Create(s, req, isValid, newId).store, Filter(req.businessId, req.teamId, None), isValid);
      l.status.Ok? && newId in l.rows
  {
  }
}

=== FILE: role_permissions.dfy ===
/** Role-permission controller: attaches a permission to a role, at most
    once per (roleId, permissionId) pair. */
module RolePermissions {
  import opened Common
  import opened Db

  datatype CreateRequest = CreateRequest(roleId: Option<string>, permissionId: Option<string>)

  predicate WellFormed(req: CreateRequest, isValid: Id -> bool)
  {
    Given(req.roleId) && Given(req.permissionId) && isValid(req.roleId.value) && isValid(req.permissionId.value)
  }

  predicate CreateAllowed(s: Store, req: CreateRequest, isValid: Id -> bool)
  {
    && WellFormed(req, isValid)
    && req.roleId.value in s.roles && req.permissionId.value in s.permissions
    && !RolePermissionHeld(s.rolePermissions, req.roleId.value, req.permissionId.value, None)
  }

  /** POST /role-permissions. */
  function Create(s: Store, req: CreateRequest, isValid: Id -> bool, newId: Id): (r: Reply)
    requires newId !in s.rolePermissions
    ensures r.status.Fail? ==> r.store == s
    ensures r.status.Created? <==> CreateAllowed(s, req, isValid)
    ensures !r.status.Ok?
    ensures r.status.Created? ==>
      r.store == s.(rolePermissions := s.rolePermissions[newId := RolePermission(req.roleId.value, req.permissionId.value)])
    ensures !Given(req.roleId) || !Given(req.permissionId) ==> r.status == Bad(FieldsRequired)
    // the role is resolved before the permission
    ensures WellFormed(req, isValid) && req.roleId.value !in s.roles ==> r.status == Absent(RoleKind)
    ensures (WellFormed(req, isValid) && req.roleId.value in s.roles && req.permissionId.value !in s.permissions)
            ==> r.status == Absent(PermissionKind)
    ensures UniqueRolePermissions(s.rolePermissions) ==> UniqueRolePermissions(r.store.rolePermissions)
  {
    if !Given(req.roleId) || !Given(req.permissionId) then Reply(Bad(FieldsRequired), s)
    else
      var role, perm := req.roleId.value, req.permissionId.value;
      if !isValid(role) then Reply(Bad(MalformedId("roleId")), s)
      else if !isValid(perm) then Reply(Bad(MalformedId("permissionId")), s)
      else if role !in s.roles then Reply(Absent(RoleKind), s)
      else if perm !in s.permissions then Reply(Absent(PermissionKind), s)
      else if RolePermissionHeld(s.rolePermissions, role, perm, None) then Reply(Bad(Duplicate(RolePermissionKind)), s)
      else Reply(Created, s.(rolePermissions := s.rolePermissions[newId := RolePermission(role, perm)]))
  }

  datatype Filter = Filter(roleId: Option<string>, permissionId: Option<string>)

  predicate Matches(rp: RolePermission, f: Filter)
  {
    && (Given(f.roleId) ==> rp.roleId == f.roleId.value)
    && (Given(f.permissionId) ==> rp.permissionId == f.permissionId.value)
  }

  /** GET /role-permissions. */
  function List(s: Store, f: Filter, isValid: Id -> bool): (r: Listing)
    ensures r.status.Ok? <==>
      (Given(f.roleId) ==> isValid(f.roleId.value)) && (Given(f.permissionId) ==> isValid(f.permissionId.value))
    ensures Given(f.roleId) && !isValid(f.roleId.value) ==> r.status == Bad(MalformedId("roleId"))
    ensures (Given(f.roleId) ==> isValid(f.roleId.value)) && Given(f.permissionId) && !isValid(f.permissionId.value)
            ==> r.status == Bad(MalformedId("permissionId"))
    ensures r.status.Fail? ==> r.rows == {}
    ensures r.status.Ok? ==> forall k :: k in r.rows <==> k in s.rolePermissions && Matches(s.rolePermissions[k], f)
  {
    if Given(f.roleId) && !isValid(f.roleId.value) then Listing(Bad(MalformedId("roleId")), {})
    else if Given(f.permissionId) && !isValid(f.permissionId.value) then Listing(Bad(MalformedId("permissionId")), {})
    else Listing(Ok, set k | k in s.rolePermissions && Matches(s.rolePermissions[k], f))
  }

  datatype UpdateRequest = UpdateRequest(roleId: Option<string>, permissionId: Option<string>)

  function Patched(rp: RolePermission, req: UpdateRequest): RolePermission
  {
    RolePermission(if Given(req.roleId) then req.roleId.value else rp.roleId,
                   if Given(req.permissionId) then req.permissionId.value else rp.permissionId)
  }

  /** PUT /role-permissions/:id. The duplicate check runs only when both ids
      are supplied, and ignores the row itself. */
  function Update(s: Store, id: Id, req: UpdateRequest, isValid: Id -> bool): (r: Reply)
    ensures r.status.Fail? ==> r.store == s
    ensures !isValid(id) ==> r.status == Bad(MalformedId("id"))
    ensures !r.status.Created?
    ensures r.status.Ok? <==>
      && isValid(id) && (Given(req.roleId) || Given(req.permissionId))
      && (Given(req.roleId) ==> isValid(req.roleId.value) && req.roleId.value in s.roles)
      && (Given(req.permissionId) ==> isValid(req.permissionId.value) && req.permissionId.value in s.permissions)
      && !(Given(req.roleId) && Given(req.permissionId)
           && RolePermissionHeld(s.rolePermissions, req.roleId.value, req.permissionId.value, Some(id)))
      && id in s.rolePermissions
    ensures r.status.Ok? ==> r.store == s.(rolePermissions := s.rolePermissions[id := Patched(s.rolePermissions[id], req)])
    ensures isValid(id) && !Given(req.roleId) && !Given(req.permissionId) ==> r.status == Bad(NothingToUpdate)
    ensures Given(req.roleId) && Given(req.permissionId) && UniqueRolePermissions(s.rolePermissions)
            ==> UniqueRolePermissions(r.store.rolePermissions)
  {
    if !isValid(id) then Reply(Bad(MalformedId("id")), s)
    else if !Given(req.roleId) && !Given(req.permissionId) then Reply(Bad(NothingToUpdate), s)
    else if Given(req.roleId) && !isValid(req.roleId.value) then Reply(Bad(MalformedId("roleId")), s)
    else if Given(req.roleId) && req.roleId.value !in s.roles then Reply(Absent(RoleKind), s)
    else if Given(req.permissionId) && !isValid(req.permissionId.value) then Reply(Bad(MalformedId("permissionId")), s)
    else if Given(req.permissionId) && req.permissionId.value !in s.permissions then Reply(Absent(PermissionKind), s)
    else if Given(req.roleId) && Given(req.permissionId)
            && RolePermissionHeld(s.rolePermissions, req.roleId.value, req.permissionId.value, Some(id))
    then Reply(Bad(Duplicate(RolePermissionKind)), s)
    else if id !in s.rolePermissions then Reply(Absent(RolePermissionKind), s)
    else Reply(Ok, s.(rolePermissions := s.rolePermissions[id := Patched(s.rolePermissions[id], req)]))
  }

  /** With only permissionId supplied, the update is not checked for
      duplicates and can attach one permission to a role twice. */
  lemma UpdateCanDuplicate()
    ensures exists s: Store, id: Id, req: UpdateRequest, isValid: Id -> bool ::
      UniqueRolePermissions(s.rolePermissions) && Update(s, id, req, isValid).status.Ok?
      && !UniqueRolePermissions(Update(s, id, req, isValid).store.rolePermissions)
  {
    var s := Store(map[], map[], map[], map[], map["r" := Role("lead", TeamScope)],
                   map["p1" := Permission("read", None), "p2" := Permission("write", None)],
                   map["rp1" := RolePermission("r", "p1"), "rp2" := RolePermission("r", "p2")],
                   map[], map[], map[], map[], map[], {}, map[]);
    var req := UpdateRequest(None, Some("p1"));
    var isValid := (x: Id) => true;
    var r := Update(s, "rp2", req, isValid);
    assert r.store.rolePermissions["rp1"] == r.store.rolePermissions["rp2"];
  }

  /** DELETE /role-permissions/:id. */
  function Delete(s: Store, id: Id, isValid: Id -> bool): (r: Reply)
    ensures r.status.Fail? ==> r.store == s
    ensures r.status.Ok? <==> isValid(id) && id in s.rolePermissions
    ensures r.status.Ok? ==> r.store == s.(rolePermissions := s.rolePermissions - {id})
    ensures !isValid(id) ==> r.status == Bad(MalformedId("id"))
    ensures isValid(id) && id !in s.rolePermissions ==> r.status == Absent(RolePermissionKind)
    ensures UniqueRolePermissions(s.rolePermissions) ==> UniqueRolePermissions(r.store.rolePermissions)
    // the role no longer holds that permission
    ensures r.status.Ok? && UniqueRolePermissions(s.rolePermissions) ==>
      !RolePermissionHeld(r.store.rolePermissions, s.rolePermissions[id].roleId, s.rolePermissions[id].permissionId, None)
  {
    if !isValid(id) then Reply(Bad(MalformedId("id")), s)
    else if id !in s.rolePermissions then Reply(Absent(RolePermissionKind), s)
    else Reply(Ok, s.(rolePermissions := s.rolePermissions - {id}))
  }

  /** Deleting a role-permission just created gives back the store it was
      created in. */
  lemma CreateThenDeleteRestores(s: Store, req: CreateRequest, isValid: Id -> bool, newId: Id)
    requires newId !in s.rolePermissions && isValid(newId)
    requires Create(s, req, isValid, newId).status.Created?
    ensures Delete(Create(s, req, isValid, newId).store, newId, isValid) == Reply(Ok, s)
  {
    assert s.rolePermissions[newId := RolePermission(req.roleId.value, req.permissionId.value)] - {newId}
           == s.rolePermissions;
  }

  /** A pair just granted is listed under its role. */
  lemma CreatedPairIsListed(s: Store, req: CreateRequest, isValid: Id -> bool, newId: Id)
    requires newId !in s.rolePermissions
    requires Create(s, req, isValid, newId).status.Created?
    ensures var l := List(Create(s, req, isValid, newId).store, Filter(req.roleId, None), isValid);
      l.status.Ok? && newId in l.rows
  {
  }
}

=== FILE: roles.dfy ===
/** Role controller: a role is a name within a scope (business, team or
    project). Create keeps (name, scope) unique; update does not re-check it. */
module Roles {
  import opened Common
  import opened Db

  datatype CreateRequest = CreateRequest(name: Option<string>, scope: Option<string>)

  predicate CreateAllowed(s: Store, req: CreateRequest)
  {
    && Given(req.name) && Given(req.scope)
    && ParseScope(req.scope.value).Some?
    && !RoleHeld(s.roles, req.name.value, ParseScope(req.scope.value).value)
  }

  /** POST /roles. */
  function Create(s: Store, req: CreateRequest, newId: Id): (r: Reply)
    requires newId !in s.roles
    ensures r.status.Fail? ==> r.store == s
    ensures r.status.Created? <==> CreateAllowed(s, req)
    ensures !r.status.Ok?
    ensures r.status.Created? ==>
      && newId in r.store.roles
      && r.store == s.(roles := s.roles[newId := r.store.roles[newId]])
      && r.store.roles[newId].name == req.name.value
      && ScopeName(r.store.roles[newId].scope) == req.scope.value
    ensures !Given(req.name) || !Given(req.scope) ==> r.status == Bad(FieldsRequired)
    ensures Given(req.name) && Given(req.scope) && ParseScope(req.scope.value).None? ==> r.status == Bad(InvalidEnum("scope"))
    ensures UniqueRoles(s.roles) ==> UniqueRoles(r.store.roles)
  {
    if !Given(req.name) || !Given(req.scope) then Reply(Bad(FieldsRequired), s)
    else if ParseScope(req.scope.value).None? then Reply(Bad(InvalidEnum("scope")), s)
    else
      var role := Role(req.name.value, ParseScope(req.scope.value).value);
      if RoleHeld(s.roles, role.name, role.scope) then Reply(Bad(Duplicate(RoleKind)), s)
      else Reply(Created, s.(roles := s.roles[newId := role]))
  }

  datatype UpdateRequest = UpdateRequest(name: Option<string>, scope: Option<string>)

  function Patched(role: Role, req: UpdateRequest): Role
    requires Given(req.scope) ==> ParseScope(req.scope.value).Some?
  {
    Role(if Given(req.name) then req.name.value else role.name,
         if Given(req.scope) then ParseScope(req.scope.value).value else role.scope)
  }

  /** PUT /roles/:id. The id is not checked with ObjectId.isValid, so a
      malformed one fails in the lookup (a server error). */
  function Update(s: Store, id: Id, req: UpdateRequest, isValid: Id -> bool): (r: Reply)
    ensures r.status.Fail? ==> r.store == s
    ensures !r.status.Created?
    ensures r.status.Ok? <==>
      && (Given(req.name) || Given(req.scope))
      && (Given(req.scope) ==> ParseScope(req.scope.value).Some?)
      && isValid(id) && id in s.roles
    ensures r.status.Ok? ==> r.store == s.(roles := s.roles[id := Patched(s.roles[id], req)])
    ensures !Given(req.name) && !Given(req.scope) ==> r.status == Bad(NothingToUpdate)
    ensures Given(req.scope) && ParseScope(req.scope.value).None? ==> r.status == Bad(InvalidEnum("scope"))
    ensures ((Given(req.name) || Given(req.scope)) && (Given(req.scope) ==> ParseScope(req.scope.value).Some?)
             && isValid(id) && id !in s.roles) ==> r.status == Absent(RoleKind)
    ensures ((Given(req.name) || Given(req.scope)) && (Given(req.scope) ==> ParseScope(req.scope.value).Some?)
             && !isValid(id)) ==> r.status == Fail(ServerError, CastFailed)
  {
    if !Given(req.name) && !Given(req.scope) then Reply(Bad(NothingToUpdate), s)
    else if Given(req.scope) && ParseScope(req.scope.value).None? then Reply(Bad(InvalidEnum("scope")), s)
    else if !isValid(id) then Reply(Fail(ServerError, CastFailed), s)
    else if id !in s.roles then Reply(Absent(RoleKind), s)
    else Reply(Ok, s.(roles := s.roles[id := Patched(s.roles[id], req)]))
  }

  /** Renaming a role onto the (name, scope) of another role is accepted. */
  lemma UpdateCanDuplicate()
    ensures exists s: Store, id: Id, req: UpdateRequest, isValid: Id -> bool ::
      UniqueRoles(s.roles) && Update(s, id, req, isValid).status.Ok?
      && !UniqueRoles(Update(s, id, req, isValid).store.roles)
  {
    var s := Store(map[], map[], map[], map[],
                   map["r1" := Role("lead", TeamScope), "r2" := Role("member", TeamScope)],
                   map[], map[], map[], map[], map[], map[], map[], {}, map[]);
    var req := UpdateRequest(Some("lead"), None);
    var isValid := (x: Id) => true;
    var r := Update(s, "r2", req, isValid);
    assert r.store.roles["r1"] == r.store.roles["r2"];
  }

  /** Update keeps (name, scope) unique only when the caller has already
      made sure no other role holds the resulting pair. */
  lemma UpdateKeepsUniqueWhenPairFree(s: Store, id: Id, req: UpdateRequest, isValid: Id -> bool)
    requires UniqueRoles(s.roles)
    requires id in s.roles && (Given(req.scope) ==> ParseScope(req.scope.value).Some?)
    requires forall k :: k in s.roles && k != id ==> s.roles[k] != Patched(s.roles[id], req)
    ensures UniqueRoles(Update(s, id, req, isValid).store.roles)
  {
    var r := Update(s, id, req, isValid);
    if r.status.Ok? {
      forall i, j | i in r.store.roles && j in r.store.roles
        && r.store.roles[i].name == r.store.roles[j].name && r.store.roles[i].scope == r.store.roles[j].scope
        ensures i == j
      {
        assert r.store.roles[i] == r.store.roles[j];
      }
    }
  }

  /** Conversely, an update onto a pair another role already holds always
      leaves two roles sharing it. */
  lemma {:induction false} UpdateDuplicatesWhenPairHeld(s: Store, id: Id, req: UpdateRequest, isValid: Id -> bool)
    requires UniqueRoles(s.roles) && Update(s, id, req, isValid).status.Ok?
    requires exists k :: k in s.roles && k != id && s.roles[k] == Patched(s.roles[id], req)
    ensures !UniqueRoles(Update(s, id, req, isValid).store.roles)
  {
    var r := Update(s, id, req, isValid);
    var k :| k in s.roles && k != id && s.roles[k] == Patched(s.roles[id], req);
    assert r.store.roles[k] == r.store.roles[id];
  }

  /** DELETE /roles/:id; memberships and role-permissions that reference the
      role are left in place. */
  function Delete(s: Store, id: Id, isValid: Id -> bool): (r: Reply)
    ensures r.status.Fail? ==> r.store == s
    ensures r.status.Ok? <==> isValid(id) && id in s.roles
    ensures r.status.Ok? ==> r.store == s.(roles := s.roles - {id})
    ensures isValid(id) && id !in s.roles ==> r.status == Absent(RoleKind)
    ensures !isValid(id) ==> r.status == Fail(ServerError, CastFailed)
    ensures UniqueRoles(s.roles) ==> UniqueRoles(r.store.roles)
    // the deleted role's (name, scope) is free again
    ensures r.status.Ok? && UniqueRoles(s.roles) ==> !RoleHeld(r.store.roles, s.roles[id].name, s.roles[id].scope)
  {
    if !isValid(id) then Reply(Fail(ServerError, CastFailed), s)
    else if id !in s.roles then Reply(Absent(RoleKind), s)
    else Reply(Ok, s.(roles := s.roles - {id}))
  }

  /** Deleting a role just created gives back the store it was created in. */
  lemma CreateThenDeleteRestores(s: Store, req: CreateRequest, isValid: Id -> bool, newId: Id)
    requires newId !in s.roles && isValid(newId)
    requires Create(s, req, newId).status.Created?
    ensures Delete(Create(s, req, newId).store, newId, isValid) == Reply(Ok, s)
  {
    var r := Create(s, req, newId);
    assert r.store.roles - {newId} == s.roles;
  }

  /** Unlike a permission, a role is deleted even while role-permissions
      still name it. */
  lemma DeleteLeavesRoleReferences()
    ensures exists s: Store, id: Id, isValid: Id -> bool ::
      Delete(s, id, isValid).status.Ok? && id !in Delete(s, id, isValid).store.roles
      && exists k :: k in Delete(s, id, isValid).store.rolePermissions
                     && Delete(s, id, isValid).store.rolePermissions[k].roleId == id
  {
    var s := Store(map[], map[], map[], map[], map["r" := Role("lead", TeamScope)],
                   map["p" := Permission("edit", None)], map["rp" := RolePermission("r", "p")],
                   map[], map[], map[], map[], map[], {}, map[]);
    var isValid := (x: Id) => true;
    var r := Delete(s, "r", isValid);
    assert "rp" in r.store.rolePermissions && r.store.rolePermissions["rp"].roleId == "r";
  }
}

=== FILE: team_memberships.dfy ===
/** Team-membership controller: binds a user to a team with a role; a user
    holds at most one membership per team. */
module TeamMemberships {
  import opened Common
  import opened Db

  datatype CreateRequest = CreateRequest(teamId: Option<string>, userId: Option<string>, roleId: Option<string>)

  /** The three ids are present and well formed. */
  predicate WellFormed(req: CreateRequest, isValid: Id -> bool)
  {
    && Given(req.teamId) && Given(req.userId) && Given(req.roleId)
    && isValid(req.teamId.value) && isValid(req.userId.value) && isValid(req.roleId.value)
  }

  /** The checks `Create` makes, all passed. */
  predicate CreateAllowed(s: Store, req: CreateRequest, isValid: Id -> bool)
  {
    && WellFormed(req, isValid)
    && req.teamId.value in s.teams && req.userId.value in s.users && req.roleId.value in s.roles
    && !TeamPairHeld(s.teamMemberships, req.teamId.value, req.userId.value, None)
  }

  /** POST /team-memberships. */
  function Create(s: Store, req: CreateRequest, isValid: Id -> bool, newId: Id): (r: Reply)
    requires newId !in s.teamMemberships
    ensures r.status.Fail? ==> r.store == s
    ensures r.status.Created? <==> CreateAllowed(s, req, isValid)
    ensures !r.status.Ok?
    ensures r.status.Created? ==>
      r.store == s.(teamMemberships := s.teamMemberships[newId :=
        TeamMembership(req.teamId.value, req.userId.value, req.roleId.value)])
    ensures !Given(req.teamId) || !Given(req.userId) || !Given(req.roleId) ==> r.status == Bad(FieldsRequired)
    // referenced ids are resolved in the order team, user, role
    ensures WellFormed(req, isValid) && req.teamId.value !in s.teams ==> r.status == Absent(TeamKind)
    ensures (WellFormed(req, isValid) && req.teamId.value in s.teams && req.userId.value !in s.users)
            ==> r.status == Absent(UserKind)
    ensures (WellFormed(req, isValid) && req.teamId.value in s.teams && req.userId.value in s.users
             && req.roleId.value !in s.roles) ==> r.status == Absent(RoleKind)
    ensures UniqueTeamMemberships(s.teamMemberships) ==> UniqueTeamMemberships(r.store.teamMemberships)
  {
    if !Given(req.teamId) || !Given(req.userId) || !Given(req.roleId) then Reply(Bad(FieldsRequired), s)
    else
      var t, u, role := req.teamId.value, req.userId.value, req.roleId.value;
      if !isValid(t) then Reply(Bad(MalformedId("teamId")), s)
      else if !isValid(u) then Reply(Bad(MalformedId("userId")), s)
      else if !isValid(role) then Reply(Bad(MalformedId("roleId")), s)
      else if t !in s.teams then Reply(Absent(TeamKind), s)
      else if u !in s.users then Reply(Absent(UserKind), s)
      else if role !in s.roles then Reply(Absent(RoleKind), s)
      else if TeamPairHeld(s.teamMemberships, t, u, None) then Reply(Bad(Duplicate(TeamMembershipKind)), s)
      else Reply(Created, s.(teamMemberships := s.teamMemberships[newId := TeamMembership(t, u, role)]))
  }

  datatype UpdateRequest = UpdateRequest(teamId: Option<string>, userId: Option<string>, roleId: Option<string>)

  /** Supplied fields replace the stored ones. */
  function Patched(m: TeamMembership, req: UpdateRequest): TeamMembership
  {
    TeamMembership(if Given(req.teamId) then req.teamId.value else m.teamId,
                   if Given(req.userId) then req.userId.value else m.userId,
                   if Given(req.roleId) then req.roleId.value else m.roleId)
  }

  /** The supplied ids are well formed and name existing records. */
  predicate ReferencesResolve(s: Store, req: UpdateRequest, isValid: Id -> bool)
  {
    && (Given(req.teamId) ==> isValid(req.teamId.value) && req.teamId.value in s.teams)
    && (Given(req.userId) ==> isValid(req.userId.value) && req.userId.value in s.users)
    && (Given(req.roleId) ==> isValid(req.roleId.value) && req.roleId.value in s.roles)
  }

  /** PUT /team-memberships/:id. The duplicate check runs only when both
      teamId and userId are supplied. */
  function Update(s: Store, id: Id, req: UpdateRequest, isValid: Id -> bool): (r: Reply)
    ensures r.status.Fail? ==> r.store == s
    ensures !r.status.Created?
    ensures r.status.Ok? <==>
      && isValid(id) && (Given(req.teamId) || Given(req.userId) || Given(req.roleId))
      && ReferencesResolve(s, req, isValid)
      && !(Given(req.teamId) && Given(req.userId)
           && TeamPairHeld(s.teamMemberships, req.teamId.value, req.userId.value, Some(id)))
      && id in s.teamMemberships
    ensures r.status.Ok? ==>
      r.store == s.(teamMemberships := s.teamMemberships[id := Patched(s.teamMemberships[id], req)])
    ensures !isValid(id) ==> r.status == Bad(MalformedId("id"))
    ensures isValid(id) && !Given(req.teamId) && !Given(req.userId) && !Given(req.roleId)
            ==> r.status == Bad(NothingToUpdate)
    // the row itself is looked up last, after every supplied reference and the duplicate check
    ensures (&& isValid(id) && (Given(req.teamId) || Given(req.userId) || Given(req.roleId))
             && ReferencesResolve(s, req, isValid)
             && !(Given(req.teamId) && Given(req.userId)
                  && TeamPairHeld(s.teamMemberships, req.teamId.value, req.userId.value, Some(id)))
             && id !in s.teamMemberships) ==> r.status == Absent(TeamMembershipKind)
    ensures Given(req.teamId) && Given(req.userId) && UniqueTeamMemberships(s.teamMemberships)
            ==> UniqueTeamMemberships(r.store.teamMemberships)
  {
    if !isValid(id) then Reply(Bad(MalformedId("id")), s)
    else if !Given(req.teamId) && !Given(req.userId) && !Given(req.roleId) then Reply(Bad(NothingToUpdate), s)
    else if Given(req.teamId) && !isValid(req.teamId.value) then Reply(Bad(MalformedId("teamId")), s)
    else if Given(req.teamId) && req.teamId.value !in s.teams then Reply(Absent(TeamKind), s)
    else if Given(req.userId) && !isValid(req.userId.value) then Reply(Bad(MalformedId("userId")), s)
    else if Given(req.userId) && req.userId.value !in s.users then Reply(Absent(UserKind), s)
    else if Given(req.roleId) && !isValid(req.roleId.value) then Reply(Bad(MalformedId("roleId")), s)
    else if Given(req.roleId) && req.roleId.value !in s.roles then Reply(Absent(RoleKind), s)
    else if Given(req.teamId) && Given(req.userId)
            && TeamPairHeld(s.teamMemberships, req.teamId.value, req.userId.value, Some(id))
    then Reply(Bad(Duplicate(TeamMembershipKind)), s)
    else if id !in s.teamMemberships then Reply(Absent(TeamMembershipKind), s)
    else Reply(Ok, s.(teamMemberships := s.teamMemberships[id := Patched(s.teamMemberships[id], req)]))
  }

  /** With only one of teamId and userId supplied, the update is not checked
      for duplicates and can give a user two memberships of one team. */
  lemma UpdateCanDuplicate()
    ensures exists s: Store, id: Id, req: UpdateRequest, isValid: Id -> bool ::
      UniqueTeamMemberships(s.teamMemberships) && Update(s, id, req, isValid).status.Ok?
      && !UniqueTeamMemberships(Update(s, id, req, isValid).store.teamMemberships)
  {
    var s := Store(map["u1" := User("A", "a@x", "h", "user"), "u2" := User("B", "b@x", "h", "user")],
                   map[], map["t" := Team("b", "Ops")], map[], map["r" := Role("member", TeamScope)],
                   map[], map[], map[],
                   map["m1" := TeamMembership("t", "u1", "r"), "m2" := TeamMembership("t", "u2", "r")],
                   map[], map[], map[], {}, map[]);
    var req := UpdateRequest(None, Some("u1"), None);
    var isValid := (x: Id) => true;
    var r := Update(s, "m2", req, isValid);
    assert r.store.teamMemberships["m1"] == r.store.teamMemberships["m2"];
  }

  /** DELETE /team-memberships/:id: removes exactly that row. */
  function Delete(s: Store, id: Id, isValid: Id -> bool): (r: Reply)
    ensures r.status.Fail? ==> r.store == s
    ensures !isValid(id) ==> r.status == Bad(MalformedId("id"))
    ensures r.status.Ok? <==> isValid(id) && id in s.teamMemberships
    ensures r.status.Ok? ==> r.store == s.(teamMemberships := s.teamMemberships - {id})
    ensures isValid(id) && id !in s.teamMemberships ==> r.status == Absent(TeamMembershipKind)
    ensures UniqueTeamMemberships(s.teamMemberships) ==> UniqueTeamMemberships(r.store.teamMemberships)
    // the user is no longer a member of that team
    ensures r.status.Ok? && UniqueTeamMemberships(s.teamMemberships) ==>
      !IsTeamMember(r.store, s.teamMemberships[id].teamId, s.teamMemberships[id].userId)
  {
    if !isValid(id) then Reply(Bad(MalformedId("id")), s)
    else if id !in s.teamMemberships then Reply(Absent(TeamMembershipKind), s)
    else Reply(Ok, s.(teamMemberships := s.teamMemberships - {id}))
  }

  /** Deleting a team membership just created gives back the store it was
      created in. */
  lemma CreateThenDeleteRestores(s: Store, req: CreateRequest, isValid: Id -> bool, newId: Id)
    requires newId !in s.teamMemberships && isValid(newId)
    requires Create(s, req, isValid, newId).status.Created?
    ensures Delete(Create(s, req, isValid, newId).store, newId, isValid) == Reply(Ok, s)
  {
    assert s.teamMemberships[newId := TeamMembership(req.teamId.value, req.userId.value, req.roleId.value)]
           - {newId} == s.teamMemberships;
  }

  /** Removing a user from a team leaves their project memberships in the
      team's projects, so a project member need no longer be in its team. */
  lemma DeleteCanOrphanProjectMember()
    ensures exists s: Store, id: Id, isValid: Id -> bool ::
      ProjectMembersInTeam(s) && Delete(s, id, isValid).status.Ok?
      && !ProjectMembersInTeam(Delete(s, id, isValid).store)
  {
    var s := Store(map["u" := User("A", "a@x", "h", "user")], map[], map["t" := Team("b", "Ops")],
                   map["p" := Project("b", "t", "Plan", None, WorkPending)],
                   map["r" := Role("member", TeamScope)], map[], map[], map[],
                   map["m" := TeamMembership("t", "u", "r")],
                   map["pm" := ProjectMembership("p", "u", "r")], map[], map[], {}, map[]);
    assert IsTeamMember(s, "t", "u") by { assert s.teamMemberships["m"].teamId == "t"; }
    var isValid := (x: Id) => true;
    var r := Delete(s, "m", isValid);
    assert "pm" in r.store.projectMemberships && !IsTeamMember(r.store, "t", "u");
  }
}

=== FILE: teams.dfy ===
/** Team controller: create, update and delete a team, with the name of a
    team unique within its business. */
module Teams {
  import opened Common
  import opened Db

  datatype CreateRequest = CreateRequest(businessId: Option<string>, name: Option<string>)

  /** The checks `Create` makes, all passed. */
  predicate CreateAllowed(s: Store, req: CreateRequest, isValid: Id -> bool)
  {
    && Given(req.businessId) && Given(req.name)
    && isValid(req.businessId.value)
    && req.businessId.value in s.businesses
    && !TeamNameHeld(s.teams, req.businessId.value, req.name.value, None)
  }

  /** POST /teams. */
  function Create(s: Store, req: CreateRequest, isValid: Id -> bool, newId: Id): (r: Reply)
    requires newId !in s.teams
    ensures r.status.Fail? ==> r.store == s
    ensures r.status.Created? <==> CreateAllowed(s, req, isValid)
    ensures !r.status.Ok?
    ensures r.status.Created? ==>
      r.store == s.(teams := s.teams[newId := Team(req.businessId.value, req.name.value)])
    ensures !Given(req.businessId) || !Given(req.name) ==> r.status == Bad(FieldsRequired)
    ensures (Given(req.businessId) && Given(req.name) && isValid(req.businessId.value)
             && req.businessId.value !in s.businesses) ==> r.status == Absent(BusinessKind)
    ensures UniqueTeamNames(s.teams) ==> UniqueTeamNames(r.store.teams)
  {
    if !Given(req.businessId) || !Given(req.name) then Reply(Bad(FieldsRequired), s)
    else
      var b, name := req.businessId.value, req.name.value;
      if !isValid(b) then Reply(Bad(MalformedId("businessId")), s)
      else if b !in s.businesses then Reply(Absent(BusinessKind), s)
      else if TeamNameHeld(s.teams, b, name, None) then Reply(Bad(Duplicate(TeamKind)), s)
      else Reply(Created, s.(teams := s.teams[newId := Team(b, name)]))
  }

  datatype UpdateRequest = UpdateRequest(name: Option<string>, businessId: Option<string>)

  /** The team `id` becomes after an accepted update: supplied fields
      replace the stored ones. */
  function Patched(t: Team, req: UpdateRequest): Team
  {
    Team(if Given(req.businessId) then req.businessId.value else t.businessId,
         if Given(req.name) then req.name.value else t.name)
  }

  /** PUT /teams/:id. The name is checked for uniqueness only when a name is
      supplied: in the supplied business, or else in the team's current one. */
  function Update(s: Store, id: Id, req: UpdateRequest, isValid: Id -> bool): (r: Reply)
    ensures r.status.Fail? ==> r.store == s
    ensures r.status.Ok? <==>
      && isValid(id) && (Given(req.name) || Given(req.businessId))
      && (Given(req.businessId) ==> isValid(req.businessId.value) && req.businessId.value in s.businesses)
      && id in s.teams
      // the name check leaves the team itself out, so keeping its own name is accepted
      && (Given(req.name) ==> !TeamNameHeld(s.teams, Patched(s.teams[id], req).businessId, req.name.value, Some(id)))
    ensures r.status.Ok? ==> id in s.teams && r.store == s.(teams := s.teams[id := Patched(s.teams[id], req)])
    ensures !r.status.Created?
    ensures !isValid(id) ==> r.status == Bad(MalformedId("id"))
    ensures isValid(id) && !Given(req.name) && !Given(req.businessId) ==> r.status == Bad(NothingToUpdate)
    ensures (isValid(id) && (Given(req.name) || Given(req.businessId))
             && Given(req.businessId) && !isValid(req.businessId.value)) ==> r.status == Bad(MalformedId("businessId"))
    ensures (isValid(id) && (Given(req.name) || Given(req.businessId))
             && Given(req.businessId) && isValid(req.businessId.value) && req.businessId.value !in s.businesses)
            ==> r.status == Absent(BusinessKind)
    // a supplied business is searched for the name even when the team itself is missing
    ensures (isValid(id) && Given(req.name) && Given(req.businessId)
             && isValid(req.businessId.value) && req.businessId.value in s.businesses
             && TeamNameHeld(s.teams, req.businessId.value, req.name.value, Some(id)))
            ==> r.status == Bad(Duplicate(TeamKind))
    ensures (isValid(id) && Given(req.name) && !Given(req.businessId) && id in s.teams
             && TeamNameHeld(s.teams, s.teams[id].businessId, req.name.value, Some(id)))
            ==> r.status == Bad(Duplicate(TeamKind))
    ensures r.status.Ok? && Given(req.name) ==>
      !TeamNameHeld(s.teams, r.store.teams[id].businessId, req.name.value, Some(id))
    ensures (&& isValid(id) && (Given(req.name) || Given(req.businessId)) && id !in s.teams
             && (Given(req.businessId) ==> isValid(req.businessId.value) && req.businessId.value in s.businesses)
             && !(Given(req.name) && Given(req.businessId)
                  && TeamNameHeld(s.teams, req.businessId.value, req.name.value, Some(id))))
            ==> r.status == Absent(TeamKind)
    ensures Given(req.name) && UniqueTeamNames(s.teams) ==> UniqueTeamNames(r.store.teams)
  {
    if !isValid(id) then Reply(Bad(MalformedId("id")), s)
    else if !Given(req.name) && !Given(req.businessId) then Reply(Bad(NothingToUpdate), s)
    else if Given(req.businessId) && !isValid(req.businessId.value) then Reply(Bad(MalformedId("businessId")), s)
    else if Given(req.businessId) && req.businessId.value !in s.businesses then Reply(Absent(BusinessKind), s)
    else if Given(req.name) && Given(req.businessId)
            && TeamNameHeld(s.teams, req.businessId.value, req.name.value, Some(id))
    then Reply(Bad(Duplicate(TeamKind)), s)
    else if Given(req.name) && !Given(req.businessId) && id in s.teams
            && TeamNameHeld(s.teams, s.teams[id].businessId, req.name.value, Some(id))
    then Reply(Bad(Duplicate(TeamKind)), s)
    else if id !in s.teams then Reply(Absent(TeamKind), s)
    else Reply(Ok, s.(teams := s.teams[id := Patched(s.teams[id], req)]))
  }

  /** Moving a team to another business without renaming it is never checked
      against the names already used there, so two teams of one business can
      end up sharing a name. */
  lemma MoveCanDuplicateName()
    ensures exists s: Store, id: Id, req: UpdateRequest, isValid: Id -> bool ::
      UniqueTeamNames(s.teams) && Update(s, id, req, isValid).status.Ok?
      && !UniqueTeamNames(Update(s, id, req, isValid).store.teams)
  {
    var s := Store(map[], map["b1" := Business("One", Shop, "u"), "b2" := Business("Two", Shop, "u")],
                   map["t1" := Team("b1", "Ops"), "t2" := Team("b2", "Ops")],
                   map[], map[], map[], map[], map[], map[], map[], map[], map[], {}, map[]);
    var req := UpdateRequest(None, Some("b1"));
    var isValid := (x: Id) => true;
    var r := Update(s, "t2", req, isValid);
    assert r.store.teams["t1"] == Team("b1", "Ops") && r.store.teams["t2"] == Team("b1", "Ops");
    assert !UniqueTeamNames(r.store.teams);
  }

  /** DELETE /teams/:id; memberships and projects of the team are left in place. */
  function Delete(s: Store, id: Id, isValid: Id -> bool): (r: Reply)
    ensures r.status.Fail? ==> r.store == s
    ensures r.status.Ok? <==> isValid(id) && id in s.teams
    ensures r.status.Ok? ==> r.store == s.(teams := s.teams - {id})
    ensures !isValid(id) ==> r.status == Bad(MalformedId("id"))
    ensures isValid(id) && id !in s.teams ==> r.status == Absent(TeamKind)
    ensures UniqueTeamNames(s.teams) ==> UniqueTeamNames(r.store.teams)
    // the deleted team's name is free again in its business
    ensures r.status.Ok? && UniqueTeamNames(s.teams) ==>
      !TeamNameHeld(r.store.teams, s.teams[id].businessId, s.teams[id].name, None)
  {
    if !isValid(id) then Reply(Bad(MalformedId("id")), s)
    else if id !in s.teams then Reply(Absent(TeamKind), s)
    else Reply(Ok, s.(teams := s.teams - {id}))
  }

  /** Deleting a team just created gives back the store it was created in. */
  lemma CreateThenDeleteRestores(s: Store, req: CreateRequest, isValid: Id -> bool, newId: Id)
    requires newId !in s.teams && isValid(newId)
    requires Create(s, req, isValid, newId).status.Created?
    ensures Delete(Create(s, req, isValid, newId).store, newId, isValid) == Reply(Ok, s)
  {
    assert s.teams[newId := Team(req.businessId.value, req.name.value)] - {newId} == s.teams;
  }

  /** A team's projects are left in place when it is deleted, so a project
      can end up naming a team that no longer exists. */
  lemma DeleteCanStrandProjects()
    ensures exists s: Store, id: Id, isValid: Id -> bool ::
      ProjectTeamsInBusiness(s) && Delete(s, id, isValid).status.Ok?
      && !ProjectTeamsInBusiness(Delete(s, id, isValid).store)
  {
    var s := Store(map[], map["b" := Business("One", Shop, "u")], map["t" := Team("b", "Ops")],
                   map["p" := Project("b", "t", "Plan", None, WorkPending)],
                   map[], map[], map[], map[], map[], map[], map[], map[], {}, map[]);
    var isValid := (x: Id) => true;
    var r := Delete(s, "t", isValid);
    assert "p" in r.store.projects && "t" !in r.store.teams;
  }
}

=== FILE: users.dfy ===
/** User controller: sign-up, login, and the password-reset flow built on an
    in-process map from email to the last one-time password (OTP) issued.
    Hashing, token signing and mail delivery are outside the model: their
    results arrive as parameters. */
module UserAccounts {
  import opened Common
  import opened Db

  // ------------------------------------------------------ decimal strings

  predicate IsDigit(c: char) { '0' <= c <= '9' }

  predicate AllDigits(s: string) { forall i :: 0 <= i < |s| ==> IsDigit(s[i]) }

  function DigitChar(d: nat): (c: char)
    requires d < 10
    ensures IsDigit(c) && (c as int) - ('0' as int) == d
  {
    (('0' as int) + d) as char
  }

  /** The value of a string of decimal digits, most significant first. */
  function DecimalValue(s: string): nat
    requires AllDigits(s)
  {
    if |s| == 0 then 0
    else DecimalValue(s[..|s| - 1]) * 10 + ((s[|s| - 1] as int) - ('0' as int))
  }

  function Pow10(k: nat): (p: nat)
    ensures p >= 1
  {
    if k == 0 then 1 else 10 * Pow10(k - 1)
  }

  /** `n.toString()` for a natural number: its digits, without leading zeros. */
  function DecimalString(n: nat): (r: string)
    ensures |r| >= 1 && AllDigits(r)
    ensures |r| > 1 ==> r[0] != '0'
    ensures n >= 10 ==> |r| > 1
  {
    if n < 10 then [DigitChar(n)]
    else DecimalString(n / 10) + [DigitChar(n % 10)]
  }

  /** Reading back the digits gives the number. */
  lemma {:induction false} DecimalRoundTrip(n: nat)
    ensures DecimalValue(DecimalString(n)) == n
  {
    if n >= 10 {
      var r := DecimalString(n);
      assert r[..|r| - 1] == DecimalString(n / 10);
      DecimalRoundTrip(n / 10);
    }
  }

  /** A number with k digits is written with exactly k characters. */
  lemma {:induction false} DecimalLength(n: nat, k: nat)
    requires k >= 1 && Pow10(k - 1) <= n < Pow10(k)
    ensures |DecimalString(n)| == k
  {
    if k > 1 {
      assert n >= 10 by { assert Pow10(k - 1) >= 10 by { PowAtLeastTen(k - 1); } }
      DecimalLength(n / 10, k - 1);
    } else {
      assert n < 10;
    }
  }

  lemma {:induction false} PowAtLeastTen(k: nat)
    requires k >= 1
    ensures Pow10(k) >= 10
  {
    if k > 1 { PowAtLeastTen(k - 1); }
  }

  /** `Math.floor(100000 + Math.random() * 900000).toString()`, where `draw`
      is the integer part of `Math.random() * 900000`. */
  function GenerateOtp(draw: nat): (otp: string)
    requires draw < 900000
    ensures |otp| == 6 && AllDigits(otp) && otp[0] != '0'
    ensures 100000 <= DecimalValue(otp) <= 999999
    ensures DecimalValue(otp) == 100000 + draw
  {
    var n := 100000 + draw;
    assert Pow10(5) == 100000 && Pow10(6) == 1000000;
    DecimalLength(n, 6);
    DecimalRoundTrip(n);
    DecimalString(n)
  }

  // --------------------------------------------------------------- signup

  datatype SignupRequest = SignupRequest(fullName: Option<string>, email: Option<string>, password: Option<string>)

  /** POST /signup. `hashed` is what the schema's save hook makes of the
      password; new users get the role 'user'. */
  function Signup(s: Store, req: SignupRequest, hashed: string, newId: Id): (r: Reply)
    requires newId !in s.users
    ensures r.status.Fail? ==> r.store == s
    ensures !r.status.Ok?
    ensures r.status.Created? <==>
      Given(req.fullName) && Given(req.email) && Given(req.password) && !EmailTaken(s.users, req.email.value)
    ensures r.status.Created? ==>
      r.store == s.(users := s.users[newId := User(req.fullName.value, req.email.value, hashed, "user")])
    ensures !Given(req.fullName) || !Given(req.email) || !Given(req.password) ==> r.status == Bad(FieldsRequired)
    ensures (Given(req.fullName) && Given(req.email) && Given(req.password) && EmailTaken(s.users, req.email.value))
            ==> r.status == Bad(Duplicate(UserKind))
    ensures UniqueEmails(s.users) ==> UniqueEmails(r.store.users)
  {
    if !Given(req.fullName) || !Given(req.email) || !Given(req.password) then Reply(Bad(FieldsRequired), s)
    else if EmailTaken(s.users, req.email.value) then Reply(Bad(Duplicate(UserKind)), s)
    else Reply(Created, s.(users := s.users[newId := User(req.fullName.value, req.email.value, hashed, "user")]))
  }

  // ---------------------------------------------------------------- login

  /** The outcome of a login: a status and, on success, the user signed in. */
  datatype Session = Session(status: Status, user: Option<Id>)

  /** POST /login. `found` is the user `findOne({ email })` returned and
      `matches(password, hash)` is the password comparison. */
  function Login(s: Store, email: Option<string>, password: Option<string>, found: Option<Id>,
                 matches: (string, string) -> bool): (r: Session)
    requires Given(email) ==> FoundByEmail(s.users, email.value, found)
    ensures r.status.Ok? <==>
      Given(email) && Given(password) && found.Some? && matches(password.value, s.users[found.value].passwordHash)
    ensures r.status.Ok? ==> r.user == found && s.users[r.user.value].email == email.value
    ensures r.status.Fail? ==> r.user.None?
    ensures !Given(email) || !Given(password) ==> r.status == Bad(FieldsRequired)
    // an unknown email and a wrong password are answered alike
    ensures Given(email) && Given(password) && !EmailTaken(s.users, email.value) ==> r.status == Bad(InvalidCredentials)
    ensures (Given(email) && Given(password) && found.Some?
             && !matches(password.value, s.users[found.value].passwordHash)) ==> r.status == Bad(InvalidCredentials)
  {
    if !Given(email) || !Given(password) then Session(Bad(FieldsRequired), None)
    else if found.None? then Session(Bad(InvalidCredentials), None)
    else if !matches(password.value, s.users[found.value].passwordHash) then Session(Bad(InvalidCredentials), None)
    else Session(Ok, found)
  }

  // ------------------------------------------------------------ OTP flow

  /** POST /forgot-password. The OTP is stored, replacing any earlier one for
      the email, before the mail goes out; when sending fails (`mailSent`
      false) the answer is a server error but the OTP stays. */
  function ForgotPassword(s: Store, email: Option<string>, draw: nat, mailSent: bool): (r: Reply)
    requires draw < 900000
    ensures r.store.users == s.users && r.store.files == s.files
    ensures r.status.Ok? <==> Given(email) && EmailTaken(s.users, email.value) && mailSent
    ensures !Given(email) ==> r.status == Bad(FieldsRequired) && r.store == s
    ensures Given(email) && !EmailTaken(s.users, email.value) ==> r.status == Absent(UserKind) && r.store == s
    ensures Given(email) && EmailTaken(s.users, email.value) ==>
      && r.store == s.(otps := s.otps[email.value := GenerateOtp(draw)])
      && (r.status.Ok? || r.status == Fail(ServerError, MailFailed))
  {
    if !Given(email) then Reply(Bad(FieldsRequired), s)
    else if !EmailTaken(s.users, email.value) then Reply(Absent(UserKind), s)
    else
      var s' := s.(otps := s.otps[email.value := GenerateOtp(draw)]);
      if mailSent then Reply(Ok, s') else Reply(Fail(ServerError, MailFailed), s')
  }

  /** POST /verify-otp. Succeeds iff a non-empty code is stored for the email
      and equals the one supplied; success consumes the code. */
  function VerifyOtp(s: Store, email: Option<string>, otp: Option<string>): (r: Reply)
    ensures r.status.Fail? ==> r.store == s
    ensures !r.status.Created?
    ensures r.status.Ok? <==>
      Given(email) && Given(otp) && email.value in s.otps && s.otps[email.value] == otp.value
    ensures r.status.Ok? ==> r.store == s.(otps := s.otps - {email.value})
    ensures !Given(email) || !Given(otp) ==> r.status == Bad(FieldsRequired)
    ensures (Given(email) && Given(otp) && !(email.value in s.otps && s.otps[email.value] == otp.value))
            ==> r.status == Bad(InvalidOtp)
  {
    if !Given(email) || !Given(otp) then Reply(Bad(FieldsRequired), s)
    else if email.value in s.otps && s.otps[email.value] != "" && s.otps[email.value] == otp.value
    then Reply(Ok, s.(otps := s.otps - {email.value}))
    else Reply(Bad(InvalidOtp), s)
  }

  /** A code is single-use: once verified, no code verifies for that email
      until a new one is issued. */
  lemma {:induction false} OtpSingleUse(s: Store, email: string, otp: string, again: Option<string>)
    requires VerifyOtp(s, Some(email), Some(otp)).status.Ok?
    ensures VerifyOtp(VerifyOtp(s, Some(email), Some(otp)).store, Some(email), again).status.Fail?
  {
    var s' := VerifyOtp(s, Some(email), Some(otp)).store;
    assert email !in s'.otps;
  }

  /** The code issued by a forgot-password request verifies, whether or not
      the mail went out, and only the latest code issued does. */
  lemma {:induction false} IssuedOtpVerifies(s: Store, email: string, draw: nat, mailSent: bool, otp: string)
    requires draw < 900000 && email != "" && EmailTaken(s.users, email)
    ensures var s' := ForgotPassword(s, Some(email), draw, mailSent).store;
      VerifyOtp(s', Some(email), Some(otp)).status.Ok? <==> otp == GenerateOtp(draw)
  {
    var s' := ForgotPassword(s, Some(email), draw, mailSent).store;
    assert s'.otps[email] == GenerateOtp(draw);
  }

  /** POST /reset-password. `found` is the user `findOne({ email })`
      returned and `hashed` the new hash. No OTP is asked for; when the
      confirmation mail fails the new password is already stored. */
  function ResetPassword(s: Store, email: Option<string>, password: Option<string>, found: Option<Id>,
                         hashed: string, mailSent: bool): (r: Reply)
    requires Given(email) ==> FoundByEmail(s.users, email.value, found)
    ensures r.store.otps == s.otps
    ensures r.status.Ok? <==> Given(email) && Given(password) && found.Some? && mailSent
    ensures !Given(email) || !Given(password) ==> r.status == Bad(FieldsRequired) && r.store == s
    ensures Given(email) && Given(password) && !EmailTaken(s.users, email.value) ==> r.status == Absent(UserKind) && r.store == s
    ensures Given(email) && Given(password) && found.Some? ==>
      && r.store == s.(users := s.users[found.value := s.users[found.value].(passwordHash := hashed)])
      && (r.status.Ok? || r.status == Fail(ServerError, MailFailed))
  {
    if !Given(email) || !Given(password) then Reply(Bad(FieldsRequired), s)
    else if found.None? then Reply(Absent(UserKind), s)
    else
      var s' := s.(users := s.users[found.value := s.users[found.value].(passwordHash := hashed)]);
      if mailSent then Reply(Ok, s') else Reply(Fail(ServerError, MailFailed), s')
  }

  /** The reset does not depend on the OTP map: it succeeds for an existing
      user even when no code was ever issued or verified. */
  lemma {:induction false} ResetNeedsNoOtp()
    ensures exists s: Store, email: string, found: Id ::
      && email !in s.otps
      && FoundByEmail(s.users, email, Some(found))
      && ResetPassword(s, Some(email), Some("new"), Some(found), "h", true).status.Ok?
  {
    var s := Store(map["u" := User("Ann", "a@x", "old", "user")], map[], map[], map[], map[], map[], map[],
                   map[], map[], map[], map[], map[], {}, map[]);
    assert FoundByEmail(s.users, "a@x", Some("u"));
    assert ResetPassword(s, Some("a@x"), Some("new"), Some("u"), "h", true).status.Ok?;
  }

  /** A user who has just signed up can log in with the same email and
      password, given that the stored hash matches the password. */
  lemma {:induction false} SignupThenLogin(s: Store, req: SignupRequest, hashed: string, newId: Id, found: Option<Id>,
                                           matches: (string, string) -> bool)
    requires newId !in s.users
    requires Signup(s, req, hashed, newId).status.Created?
    requires FoundByEmail(Signup(s, req, hashed, newId).store.users, req.email.value, found)
    requires matches(req.password.value, hashed)
    ensures Login(Signup(s, req, hashed, newId).store, req.email, req.password, found, matches) == Session(Ok, Some(newId))
  {
    var s' := Signup(s, req, hashed, newId).store;
    // the email was free, so the one user holding it now is the new one
    assert found.Some? by { assert s'.users[newId].email == req.email.value; }
  }
}
